=== FILE: README.md ===
# Stock-Share client logic in Dafny

Stock-Share is a single-page stock-market app. It keeps watchlists, user
profiles and community articles in a hosted document store with a file
bucket, and it reads charts and news from the Alpha Vantage HTTP API. This
project models the app's own logic, which sits between the views and those
two services. The model is functional: immutable datatypes and pure functions,
with contracts and lemmas that state what the logic promises.

What is modelled:

- **The watchlist gateway** (`WatchListService`): `addStock`, `removeStock`,
  `createWatchList`, `getWatchLists`, `updateWatchList` and `deleteWatchList`.
  They work over a collection held as a sequence of documents with distinct
  ids. A remote failure is an `ok` flag. The gateway swallows a failure and
  answers `None`.
- **The watchlist request cache** (`Tags`, `WatchListApi`): each endpoint's
  `queryFn`, the tags each endpoint provides or invalidates, and the rule that
  a cached result is stale exactly when the two tag sets meet. `AfterMutation`
  states what happens to cached `getWatchLists` results after a mutation.
- **The two pages that write watchlists**: the stock page's duplicate-checked
  "add to watchlist" (`StockDetailPage`), and the watchlist page's add-symbol
  and create handlers (`WatchlistPage`).
- **Profiles**: the profile gateway's lookup, create-or-update, create and
  delete (`ProfileService`). Also the profile form's validation, including the
  email pattern, and its submit handler (`ProfileUpdatePage`).
- **The two Redux slices**, `profile` and `auth` (`ProfileSlice`,
  `AuthSlice`), with their reachable-state invariants.
- **Articles**:
  - the slug pipeline (`Slug`);
  - every article endpoint's result mapping (`ArticleApi`);
  - the editor's and the edit form's submit handlers and validators
    (`CreateArticlePage`, `EditArticlePage`);
  - the search box (`ArticleSearchBox`).
- **Market data** (`StockDataApi`): the time-series request parameters, and
  the `transformResponse` functions over decoded JSON. A series entry whose
  values are `null` makes the transform throw, and the model keeps that
  failure apart from the `[]` of a missing series.
- **The document title** for each route (`DocumentTitle`).

Text handling follows JavaScript (`Text`). Whitespace is the exact set that
`\s` and `trim()` use. Case mapping and `\w` cover ASCII only.

Where the description of the system and the code differ, the model follows
the code:

- Editing an article does not recompute its slug from the title. The edit
  form sends the slug field, trimmed (`src/pages/EditArticle.tsx:143`).
- Adding a symbol that is already present appends a second copy. The gateway
  does no duplicate check; only the stock page checks (`src/appwrite/watchList.ts:24`).

## Model

| member | source | states |
|---|---|---|
| WatchListService.IndexOf | src/appwrite/watchList.ts:16 | `getDocument` finds a document exactly when one has the requested id, and returns the one with that id |
| WatchListService.Without | src/appwrite/watchList.ts:50 | the `stocks` filter leaves no copy of the symbol, and leaves every other symbol's count unchanged |
| WatchListService.OwnedBy | src/appwrite/watchList.ts:92 | the user query lists exactly the user's watchlists and nothing else |
| WatchListService.AddStock | src/appwrite/watchList.ts:14-39 | a missing document or a failed call writes nothing and yields `undefined`; otherwise only the target document changes: `$id`, `$createdAt`, `title` and `userId` are kept, `$updatedAt` is the current time, and `stocks` is the old list with the symbol appended (no membership check); ids stay distinct |
| WatchListService.RemoveStock | src/appwrite/watchList.ts:40-65 | as for add, except that `stocks` loses every copy of the symbol and keeps the multiplicity of every other symbol |
| WatchListService.CreateWatchList | src/appwrite/watchList.ts:66-89 | on success it appends one document with the fresh id, the given title and user, both timestamps set to the current time, and empty `stocks`; on failure it writes nothing |
| WatchListService.GetWatchLists | src/appwrite/watchList.ts:90-106 | a failed listing yields `undefined`; otherwise the result holds exactly the user's watchlists |
| WatchListService.UpdateWatchList | src/appwrite/watchList.ts:107-130 | the target document takes the caller's `title`, `userId` and `stocks`, and `$createdAt` is overwritten with the current time, so the creation time is lost; a missing document or a failed call writes nothing |
| WatchListService.RemoveAt | src/appwrite/watchList.ts:133 | deleting one position removes exactly the documents with that id and keeps ids distinct |
| WatchListService.DeleteWatchList | src/appwrite/watchList.ts:131-138 | a delete succeeds exactly when the document exists and the call works; it then removes exactly that document |
| WatchListService.WithoutDistributes | src/appwrite/watchList.ts:50 | the filter keeps the relative order of the remaining symbols: it distributes over concatenation |
| WatchListService.WithoutAbsent | src/appwrite/watchList.ts:50 | removing a symbol that is not present leaves `stocks` unchanged |
| WatchListService.WithoutIdempotent | src/appwrite/watchList.ts:50 | removing twice is the same as removing once |
| WatchListService.AppendThenWithout | src/appwrite/watchList.ts:24 | appending an absent symbol and then filtering it out gives back the original list |
| WatchListService.AddThenRemoveRestores | src/appwrite/watchList.ts:14-65 | `addStock` then `removeStock` of a symbol the watchlist lacked restores its `stocks`; the whole collection comes back except for `$updatedAt` |
| WatchListService.IndexOfSameIds | src/appwrite/watchList.ts:16 | a write that keeps every id in place does not change where `getDocument` finds a document |
| WatchListService.OwnedByAppend | src/appwrite/watchList.ts:92 | a newly created watchlist is listed last among its owner's |
| WatchListService.AddStockAppendsDuplicate | src/appwrite/watchList.ts:24 | adding a symbol already present raises its count by one, to at least two |
| WatchListApi.ProvidesGetWatchLists | src/store/watchListSlice.ts:22-28 | `getWatchLists` always provides the list tag, plus one item tag per returned watchlist when there is a result, and no other tags |
| WatchListApi.GetWatchListsQuery | src/store/watchListSlice.ts:13-21 | the query never fails: a swallowed gateway failure is cached as an empty list, otherwise as the user's watchlists |
| WatchListApi.CreateWatchListMutation | src/store/watchListSlice.ts:32-42 | only `title` and `userId` reach the gateway, so the created watchlist has empty `stocks` whatever the caller passed |
| WatchListApi.UpdateWatchListMutation | src/store/watchListSlice.ts:45-55 | the update returns the document it stored at the target's position: the patch's `title`, `userId` and `stocks` (the old ones where the patch has none), `$createdAt` and `$updatedAt` both the current time; every other document is unchanged |
| WatchListApi.DeleteWatchListMutation | src/store/watchListSlice.ts:58-71 | the delete reports `success: true` whether or not the gateway deleted anything |
| WatchListApi.AddStockMutation | src/store/watchListSlice.ts:74-86 | a stock add succeeds exactly when the document exists and the call works, and the returned list then holds the symbol |
| WatchListApi.RemoveStockMutation | src/store/watchListSlice.ts:89-101 | a stock removal succeeds exactly when the document exists and the call works, and the returned list then lacks the symbol |
| WatchListApi.InvalidatesCreate | src/store/watchListSlice.ts:41 | a create invalidates exactly the list tag |
| WatchListApi.InvalidatesUpdate | src/store/watchListSlice.ts:54 | an update invalidates exactly the target's item tag, which is the list tag only when the id is `LIST` |
| WatchListApi.InvalidatesDelete | src/store/watchListSlice.ts:67-70 | a delete invalidates exactly the target's item tag and the list tag |
| WatchListApi.InvalidatesAddStock | src/store/watchListSlice.ts:83-85 | adding a stock invalidates exactly the target's item tag, whatever the symbol |
| WatchListApi.InvalidatesRemoveStock | src/store/watchListSlice.ts:98-100 | removing a stock invalidates exactly the target's item tag, whatever the symbol |
| WatchListApi.AfterMutation | src/store/watchListSlice.ts:22-28 | after a mutation, a stale subscribed list is replaced by a fresh `getWatchLists` result over the new store, a stale unsubscribed list is dropped, and every other entry is kept as it was |
| WatchListApi.AddStockStalesListsHolding | src/store/watchListSlice.ts:83-85 | `addStock(w)` makes a cached list stale exactly when its result contains `w`; an errored entry is never stale |
| WatchListApi.OtherUsersListUntouched | src/store/watchListSlice.ts:83-100 | a stock edit on one user's watchlist never makes another user's cached list stale |
| WatchListApi.InvalidationScopes | src/store/watchListSlice.ts:41-100 | update, add and remove invalidate only their target's item tag, never the list tag; create and delete make every cached list stale |
| WatchListApi.ListIdCollides | src/store/watchListSlice.ts:26 | the list tag is a plain id, so updating a watchlist whose id is `"LIST"` makes every cached list stale |
| WatchListApi.DeletedWatchListLeavesCachedList | src/store/watchListSlice.ts:58-71 | after a delete, a subscribed cached list is refetched and no longer shows the deleted watchlist |
| WatchListApi.AddStockRefetchShowsSymbol | src/store/watchListSlice.ts:74-86 | after an add, the owner's current, subscribed list is refetched and shows the watchlist holding the new symbol |
| StockDetailPage.Find | src/pages/StockDetail.tsx:81 | the chosen watchlist is found exactly when one of the loaded watchlists has the chosen id |
| StockDetailPage.HandleAddToWatchlist | src/pages/StockDetail.tsx:77-99 | nothing happens with an empty symbol, without the overview, or with an unknown id; a symbol already in the watchlist only raises the alert; otherwise exactly one `addStock` is issued |
| StockDetailPage.Returned | src/pages/StockDetail.tsx:89-93 | the handler returns `true` exactly when it issued the mutation |
| StockDetailPage.HandlerKeepsStocksDuplicateFree | src/pages/StockDetail.tsx:84-92 | when the cached lists are current, a watchlist's `stocks` stays free of duplicates through this handler |
| WatchlistPage.NormalizeSymbol | src/pages/Watchlist.tsx:89 | the symbol sent is the trimmed input with each character upper-cased; it is empty exactly when the input is blank |
| WatchlistPage.HandleAddStock | src/pages/Watchlist.tsx:88-109 | a request is issued exactly when the watchlist's input is present and not blank; after it, only that watchlist's input is cleared and every other input keeps its value |
| WatchlistPage.AddingPresentSymbolDuplicates | src/pages/Watchlist.tsx:92-99 | this path has no membership check: typing a symbol already present stores a second copy |
| WatchlistPage.HandleCreateWatchlist | src/pages/Watchlist.tsx:60-86 | nothing is issued for a blank name or when no user is logged in; otherwise it sends the untrimmed name, the user's id and `stocks: []`, then clears the name and closes the modal |
| WatchlistPage.CreatedTitleIsUntrimmed | src/pages/Watchlist.tsx:69-73 | the created watchlist stores the name as typed and empty `stocks`, and shows up last in its owner's list |
| ProfileService.Locate | src/appwrite/profile.ts:78-83 | a document is found by `$id` exactly when one has that id, and the one found has it |
| ProfileService.FirstOf | src/appwrite/profile.ts:36-43 | the lookup position is the first document of the user, and none exists exactly when the user has no document |
| ProfileService.CountOf | src/appwrite/profile.ts:36-42 | a user's profile count is zero exactly when the lookup finds nothing |
| ProfileService.GetProfile | src/appwrite/profile.ts:33-61 | the result is the user's first document; it is `null` when there is none and `null` when the listing fails |
| ProfileService.Overwrite | src/appwrite/profile.ts:78-83 | an update keeps `$id` and `$createdAt`, sets `$updatedAt`, takes the sent fields, and keeps a stored `bio` or `avatar` that was not sent |
| ProfileService.NewDocument | src/appwrite/profile.ts:88-93 | a created document carries the sent fields under the fresh id |
| ProfileService.CreateOrUpdateProfile | src/appwrite/profile.ts:62-98 | when the lookup finds a profile, the first match is updated in place and nothing is created; otherwise exactly one document is appended under a fresh id; a failure writes nothing and rethrows; ids stay distinct |
| ProfileService.CreateProfile | src/appwrite/profile.ts:14-32 | the caller's `$id` and `title` are ignored: the document gets the fresh id and `title: ""`; a failure yields `undefined` |
| ProfileService.DeleteProfile | src/appwrite/profile.ts:99-109 | the argument is used as a document id; a delete removes exactly that document, and a missing document or a failure yields `undefined` |
| ProfileService.CountOfAppend | src/appwrite/profile.ts:88-93 | a create raises the owner's profile count by one |
| ProfileService.CountOfReplace | src/appwrite/profile.ts:78-83 | an update in place keeps every user's profile count |
| ProfileService.CreateOrUpdateKeepsOneProfile | src/appwrite/profile.ts:62-93 | after a successful call the user's count goes from 0 to 1 or stays the same, and `getProfile` then finds the profile |
| ProfileService.FailedLookupDuplicatesProfile | src/appwrite/profile.ts:57-93 | a lookup failure is swallowed as "no profile", so a user who had one profile ends up with two |
| ProfileService.DeleteByUserIdKeepsProfile | src/appwrite/profile.ts:99-101 | deleting by user id removes nothing when no document has that id, so the profile is still found |
| ProfileUpdatePage.FirstIndex | src/pages/ProfileUpdate.tsx:106 | the result is the position of the first occurrence of the character, and none when it is absent |
| ProfileUpdatePage.LastIndex | src/pages/ProfileUpdate.tsx:106 | the result is the position of the last occurrence of the character, and none when it is absent |
| ProfileUpdatePage.EmailMatches | src/pages/ProfileUpdate.tsx:106 | the check accepts exactly the strings the email pattern matches (local part, `@`, domain, `.`, two or more letters; case-insensitive) |
| ProfileUpdatePage.MatchIsAtFirstAndLast | src/pages/ProfileUpdate.tsx:106 | any match puts its `@` at the first `@` and its `.` at the last `.` |
| ProfileUpdatePage.MatchAtFirstAndLast | src/pages/ProfileUpdate.tsx:106 | the pattern matches exactly when it matches at the first `@` and the last `.` |
| ProfileUpdatePage.NoMatchWithout | src/pages/ProfileUpdate.tsx:106 | a string without `@` or without `.` never matches |
| ProfileUpdatePage.AcceptedEmailShape | src/pages/ProfileUpdate.tsx:106 | every accepted email has exactly one `@`, and at least two letters after its final `.` |
| ProfileUpdatePage.SingleAt | src/pages/ProfileUpdate.tsx:106 | a match has no `@` anywhere but at its separator |
| ProfileUpdatePage.Validate | src/pages/ProfileUpdate.tsx:96-108 | the name is required; the email is required first and must then match the pattern, each with its own message |
| ProfileUpdatePage.AvatarId | src/pages/ProfileUpdate.tsx:28-37 | the avatar is the new upload's id, else the current profile's avatar, else `''`; a chosen file whose upload fails aborts with "Avatar not created" |
| ProfileUpdatePage.RecordId | src/pages/ProfileUpdate.tsx:45 | the record's `$id` is the current profile's id when that is non-empty, else a fresh one |
| ProfileUpdatePage.ProfileData | src/pages/ProfileUpdate.tsx:39-47 | the saved record has the user's id, the form's fields, the chosen avatar, and `title` equal to the name followed by `'s Profile` |
| ProfileUpdatePage.OnSubmit | src/pages/ProfileUpdate.tsx:20-61 | with no user only "User not found" is dispatched; otherwise `profileStart` comes first, then one success or failure; past the avatar step it saves and navigates with `profileSuccess` of the saved record exactly when the create-or-update succeeds, and otherwise reports the thrown error's message; the store changes only when it navigates |
| ProfileUpdatePage.SubmitSettlesSlice | src/pages/ProfileUpdate.tsx:20-61 | after a submission the slice is consistent: on success it is `"success"` holding the saved record, otherwise it is `"failed"` with the old profile |
| ProfileUpdatePage.FirstSaveReportsUnstoredId | src/pages/ProfileUpdate.tsx:45-53 | a first save stores the document under the store's fresh id, but the slice keeps the form's own `$id`, which names no stored document |
| ProfileSlice.Reduce | src/store/profileSlice.ts:17-31 | `profileStart` sets loading and clears the error; `profileSuccess` sets success, the profile and no error; `profileFailure` sets failed with the error; the profile is otherwise unchanged; the result is consistent |
| ProfileSlice.ReduceAllSnoc | src/store/profileSlice.ts:17-31 | dispatching one more action is one more reducer step |
| ProfileSlice.ReachableConsistent | src/store/profileSlice.ts:12-31 | from the initial state (`null`, `"idle"`, `null`), every reachable state has an error exactly when its status is `"failed"` |
| ProfileSlice.ProfileIsLastSuccess | src/store/profileSlice.ts:22-26 | the stored profile is the payload of the last `profileSuccess`, or the starting one if there was none |
| AuthSlice.Reduce | src/store/authSlice.ts:12-43 | each reducer's status, user data and error, leaving the other fields unchanged |
| AuthSlice.AsLogin | src/store/authSlice.ts:13-25 | each register action maps to the login action with the same payload |
| AuthSlice.AllAsLogin | src/store/authSlice.ts:13-25 | every action of a sequence is mapped to its login counterpart, in order |
| AuthSlice.RegisterIsLogin | src/store/authSlice.ts:13-38 | every register reducer is the same transition as its login counterpart, over any action sequence |
| AuthSlice.ReachableConsistent | src/store/authSlice.ts:3-43 | from a consistent state, such as the initial `("", null, null)`, every reachable state has an error exactly when its status is `"failed"` |
| AuthSlice.LogoutClearsUser | src/store/authSlice.ts:39-43 | after `logout`, nobody is logged in until the next success |
| AuthSlice.NoSuccessKeepsUser | src/store/authSlice.ts:13-38 | start and failure actions never change the user data, whoever is logged in |
| AuthSlice.NoSuccessKeepsLoggedOut | src/store/authSlice.ts:13-43 | without a success nobody logs in: starts, failures and logouts keep a logged-out state logged out |
| Slug.SlugTransform | src/pages/CreateArticle.tsx:85-94 | `slugTransform("")` is `""`; the result has at most 60 characters, only ASCII lower-case letters, digits, `_` and `-`, never `--`, and never a leading `-` |
| Slug.StripSpecial | src/pages/CreateArticle.tsx:89 | removing special characters keeps only word characters, whitespace and `-`, all from the input |
| Slug.StripKeepsCounts | src/pages/CreateArticle.tsx:89 | every word character, whitespace character and `-` occurs in the result as often as in the input |
| Slug.StripDistributes | src/pages/CreateArticle.tsx:89 | the removal works character by character: it maps a concatenation to the concatenation of the results, so the order is kept |
| Slug.StripOne | src/pages/CreateArticle.tsx:89 | a single character is kept exactly when it is a word character, whitespace or `-` |
| Slug.Hyphenate | src/pages/CreateArticle.tsx:90 | hyphenating never lengthens the text, and leaves only `-` and the non-space characters of the input |
| Slug.HyphenateFrom | src/pages/CreateArticle.tsx:90 | the scan never lengthens the text |
| Slug.HyphenateChars | src/pages/CreateArticle.tsx:90 | the result holds only `-` and non-space characters of the input, so no whitespace is left |
| Slug.HyphenateAppend | src/pages/CreateArticle.tsx:90 | the scan of a concatenation is the scan of each piece, carrying only whether a whitespace run is open |
| Slug.HyphenateSpaces | src/pages/CreateArticle.tsx:90 | a whole whitespace run gives one `-`, or nothing when it continues an open run |
| Slug.HyphenateRun | src/pages/CreateArticle.tsx:90 | a maximal whitespace run between two non-spaces becomes exactly one `-`, and the text on each side is hyphenated on its own |
| Slug.Collapse | src/pages/CreateArticle.tsx:91 | no `--` remains, the first character is kept, the result holds only characters of the input, and it never grows |
| Slug.CollapseFrom | src/pages/CreateArticle.tsx:91 | the scan leaves no `--`, and drops a leading `-` that continues an open run |
| Slug.CollapseChars | src/pages/CreateArticle.tsx:91 | collapsing only drops characters |
| Slug.CollapseAppend | src/pages/CreateArticle.tsx:91 | the scan of a concatenation is the scan of each piece, carrying only whether a run of `-` is open |
| Slug.CollapseHyphens | src/pages/CreateArticle.tsx:91 | a whole run of `-` gives one `-`, or nothing when it continues an open run |
| Slug.CollapseRun | src/pages/CreateArticle.tsx:91 | a maximal run of `-` between two other characters becomes exactly one `-`, and the text on each side is collapsed on its own |
| Slug.SkipHyphens | src/pages/CreateArticle.tsx:92 | the leading-hyphen cut is a suffix of the input that does not start with `-`, and everything cut is `-` |
| Slug.DropTrailingHyphens | src/pages/CreateArticle.tsx:92 | the trailing-hyphen cut is a prefix of the input that does not end with `-`, and everything cut is `-` |
| Slug.TrimHyphens | src/pages/CreateArticle.tsx:92 | the result is the contiguous slice left after dropping the leading and trailing `-`; it has no `-` at either end and everything dropped is `-` |
| Slug.TrimHyphensEmpty | src/pages/CreateArticle.tsx:92 | trimming leaves nothing exactly when the text is all `-` |
| Slug.Truncate | src/pages/CreateArticle.tsx:93 | the result is the prefix of `min(n, 60)` characters: the whole string when short enough, exactly 60 characters otherwise |
| Slug.StripKeepsSlugChars | src/pages/CreateArticle.tsx:89 | a string of slug characters passes the special-character removal unchanged |
| Slug.HyphenateKeepsSpaceless | src/pages/CreateArticle.tsx:90 | a string without whitespace passes the hyphenation unchanged |
| Slug.CollapseKeepsSingleHyphens | src/pages/CreateArticle.tsx:91 | a string without `--` passes the collapse unchanged |
| Slug.CanonicalIsFixedPoint | src/pages/CreateArticle.tsx:87-93 | a string already in slug form comes back unchanged, up to the length cut |
| Slug.SlugIdempotent | src/pages/CreateArticle.tsx:85-94 | applying the transform twice equals applying it once, for every slug not ending in `-` |
| Slug.ShortSlugEndsWell | src/pages/CreateArticle.tsx:92-93 | only the 60-character cut can leave a trailing `-` |
| Slug.CollapsedIsSlugShaped | src/pages/CreateArticle.tsx:88-91 | after the first four replacements only slug characters remain, with no `--` |
| ArticleApi.Project | src/store/articleSlice.ts:24-31 | the document mapping keeps exactly `$id`, `userId`, `title`, `slug`, `content` and `featured_image` |
| ArticleApi.CustomError | src/store/articleSlice.ts:15-23 | a falsy gateway answer becomes a `CUSTOM_ERROR` whose `data` and `error` are the endpoint's message |
| ArticleApi.IndexOf | src/appwrite/article.ts:55 | `getDocument` finds a document exactly when one has the id, and returns that one |
| ArticleApi.Listing | src/appwrite/article.ts:35-42 | an unfiltered listing returns the whole collection in order, or nothing when the call fails |
| ArticleApi.Where | src/appwrite/article.ts:46 | an equality query keeps exactly the documents whose attribute has the value |
| ArticleApi.GetDocument | src/appwrite/article.ts:53-60 | a document comes back exactly when the call works and one has the id, and it has that id |
| ArticleApi.DeleteDocument | src/appwrite/article.ts:87-94 | nothing changes when the call fails or no document has the id; otherwise exactly the found document is removed (the multiset loses that one), every document with another id stays, and with distinct ids none with that id is left |
| ArticleApi.RemoveAt | src/appwrite/article.ts:89 | cutting out one position removes that document only and keeps every other one |
| ArticleApi.MapOne | src/store/articleSlice.ts:80-99 | a single-document answer is projected, and a missing one becomes the endpoint's `CUSTOM_ERROR` |
| ArticleApi.CreateDocument | src/appwrite/article.ts:19-33 | a create sends the five content fields and stores them under a fresh id, so the caller's `$id` is ignored |
| ArticleApi.UpdateDocument | src/appwrite/article.ts:71-85 | an update overwrites the five content fields of the named document and keeps its creation time |
| ArticleApi.MapList | src/store/articleSlice.ts:24-32 | a list answer keeps the document count and order, each document projected |
| ArticleApi.GetArticles | src/store/articleSlice.ts:11-43 | all articles in store order; "No articles found" when the gateway fails |
| ArticleApi.GetArticleByUserId | src/store/articleSlice.ts:44-76 | exactly the user's articles; "No articles found" when the gateway fails |
| ArticleApi.GetArticleById | src/store/articleSlice.ts:77-110 | the article with that id; "Article not found" when it is missing or the gateway fails |
| ArticleApi.CreateArticle | src/store/articleSlice.ts:112-144 | the created article is the sent one under the fresh id, appended to the store; "Failed to create article" leaves the store unchanged |
| ArticleApi.UpdateArticle | src/store/articleSlice.ts:145-177 | it writes to the article's own `$id` and returns the sent article; "Failed to update article" leaves the store unchanged |
| ArticleApi.GetArticleBySlug | src/store/articleSlice.ts:178-210 | exactly the articles with that slug; "Failed to get article" when the gateway fails |
| ArticleApi.DeleteArticle | src/store/articleSlice.ts:211-226 | success with no data whether or not anything was deleted; a successful delete of an existing article removes one document and keeps those with other ids |
| ArticleApi.DeletedArticleNotFound | src/store/articleSlice.ts:211-226 | after a delete the article is no longer found by id, while every other stored article still is |
| ArticleApi.UploadImage | src/store/articleSlice.ts:227-251 | on success the file's id is returned and added to the bucket; otherwise "Failed to upload image" with the bucket unchanged |
| ArticleApi.GetImageUrl | src/store/articleSlice.ts:252-276 | a missing or empty view URL gives "Failed to get image preview"; otherwise it returns the URL |
| ArticleApi.GetImage | src/store/articleSlice.ts:277-301 | the file's id when it is in the bucket; "Failed to get image" otherwise |
| ArticleApi.DeleteImage | src/store/articleSlice.ts:302-317 | success with no data whether or not anything was deleted |
| ArticleApi.ListHoldsProjections | src/store/articleSlice.ts:57-64 | a mapped list holds exactly the projections of the listed documents |
| ArticleApi.CreateLeavesCachedListsOutdated | src/store/articleSlice.ts:5-10 | with no tags, a create invalidates nothing: a list cached before the create lacks the new article, which a fresh listing shows |
| CreateArticlePage.OnTitleChange | src/pages/CreateArticle.tsx:121 | typing a title sets the slug field to the title's slug and changes nothing else |
| CreateArticlePage.NewArticle | src/pages/CreateArticle.tsx:65-72 | the record has `$id` `""`, the trimmed title, the slug field or else the title's slug, and the uploaded image or `""` |
| CreateArticlePage.Publish | src/pages/CreateArticle.tsx:54-82 | it navigates exactly when the upload (if any) and the create succeed, then resets the page and appends the record; on failure the store is unchanged and the error is "Failed to create article. Please try again." |
| CreateArticlePage.Submit | src/pages/CreateArticle.tsx:41-83 | an empty title calls nothing; no user navigates to `/login`; blank content sets "Article content cannot be empty"; only then does it publish |
| CreateArticlePage.CreatedSlugIsTitleSlug | src/pages/CreateArticle.tsx:69 | since the slug field only ever holds the typed title's slug, a created article's slug is its title's slug |
| CreateArticlePage.FailedCreateOrphansImage | src/pages/CreateArticle.tsx:57-81 | an image uploaded before a failed create stays in the bucket, and no document refers to it |
| ArticleSearchBox.HandleSearch | src/components/ArticleSearch.tsx:23-26 | the query is the raw input, and the slug is its `slugTransform` |
| ArticleSearchBox.Fetch | src/components/ArticleSearch.tsx:10 | the slug query is skipped exactly when the slug is empty |
| ArticleSearchBox.Render | src/components/ArticleSearch.tsx:30-58 | an error shows only the error text; otherwise the input is shown, and results are listed only when there is non-empty data |
| ArticleSearchBox.PickResult | src/components/ArticleSearch.tsx:50-52 | picking a result links to `/articles/<id>`, clears the query and keeps the slug |
| ArticleSearchBox.StripRemovesAll | src/components/ArticleSearch.tsx:17 | removing special characters empties a string that has no word character, whitespace or `-` |
| ArticleSearchBox.PunctuationIssuesNoQuery | src/components/ArticleSearch.tsx:10-26 | input made only of punctuation gives an empty slug, so no search is issued and nothing is listed |
| ArticleSearchBox.SearchFindsCreatedArticle | src/components/ArticleSearch.tsx:13-26 | searching for a title finds an article whose slug was generated from that title |
| EditArticlePage.TitleError | src/pages/EditArticle.tsx:178-188 | a title is accepted exactly when it has 5 to 200 characters, inclusive despite the "less than 200" message; otherwise the message is chosen in the form library's order |
| EditArticlePage.SlugError | src/pages/EditArticle.tsx:202-216 | a slug is accepted exactly when it has 3 to 100 characters, all from `[a-z0-9-]`; otherwise the message is chosen in the form library's order |
| EditArticlePage.GeneratedSlugAgainstRule | src/pages/EditArticle.tsx:202-216 | every generated slug fits the 100-character limit, yet fails the rule when it holds `_` or is shorter than 3 |
| EditArticlePage.AcceptedSlugIsTrimmed | src/pages/EditArticle.tsx:143 | an accepted slug has no surrounding whitespace, so trimming it changes nothing |
| EditArticlePage.FeaturedImage | src/pages/EditArticle.tsx:126-137 | with no new file the loaded image is kept; a failed or empty upload aborts with "Failed to upload image" |
| EditArticlePage.EditedArticle | src/pages/EditArticle.tsx:139-146 | the update sends the route id, the current user, the trimmed title and slug, the content and the image |
| EditArticlePage.Save | src/pages/EditArticle.tsx:125-157 | an upload failure stops before any update; an update failure shows "Failed to update article. Please try again." with the store unchanged; success navigates to the form's article path |
| EditArticlePage.Submit | src/pages/EditArticle.tsx:112-158 | failing field rules call nothing; no user or no id navigates to `/login`; blank content sets an error and issues no update |
| EditArticlePage.EditWritesRouteDocument | src/pages/EditArticle.tsx:126-149 | a successful edit with no new file writes the route's document with the slug as typed, the title trimmed, the old image and the old creation time |
| EditArticlePage.UpdateWritesArticle | src/store/articleSlice.ts:145-177 | a successful update stores the sent article at its own id's position and keeps the creation time |
| StockDataApi.Get | src/store/stockDataSlice.ts:57 | reading a property yields the field's value on an object, and `undefined` when it is absent |
| StockDataApi.Entries | src/store/stockDataSlice.ts:62 | `Object.entries` gives an object's fields in order, array items and string characters under their index keys, and nothing for numbers or `true` |
| StockDataApi.ToPoint | src/store/stockDataSlice.ts:62-69 | each point's `date` is the entry's key, and its readings are the entry's `1. open` … `5. volume`, for values that are not `null` or `undefined` |
| StockDataApi.Points | src/store/stockDataSlice.ts:62-69 | the map succeeds exactly when every entry's values are readable, and then gives one point per entry, in order |
| StockDataApi.Reverse | src/store/stockDataSlice.ts:71 | position `i` of the reversed list holds position `n-1-i` of the original |
| StockDataApi.Series | src/store/stockDataSlice.ts:57-61 | the series passes the guard exactly when the response and its series are both truthy |
| StockDataApi.TransformSeries | src/store/stockDataSlice.ts:55-72 | `[]` when the response or its series is missing; a thrown error exactly when some entry's values are `null` or `undefined`; otherwise one point per entry, with output `i` built from entry `n-1-i` |
| StockDataApi.TransformDaily | src/store/stockDataSlice.ts:55-72 | the daily transform reads `Time Series (Daily)` |
| StockDataApi.TransformWeekly | src/store/stockDataSlice.ts:88-104 | the weekly transform reads `Weekly Time Series` |
| StockDataApi.TransformMonthly | src/store/stockDataSlice.ts:121-137 | the monthly transform reads `Monthly Time Series` |
| StockDataApi.NewestFirstBecomesOldestFirst | src/store/stockDataSlice.ts:62-71 | a series keyed newest first reaches the chart oldest first |
| StockDataApi.ReversedDatesAscend | src/store/stockDataSlice.ts:71 | reversing a list whose dates descend gives a list whose dates ascend |
| StockDataApi.ReverseInvolutive | src/store/stockDataSlice.ts:71 | reversing twice gives back the list |
| StockDataApi.SeriesDatesAreKeys | src/store/stockDataSlice.ts:62-71 | the points' dates, reversed, are the series keys in order |
| StockDataApi.MissingSeriesChartsNothing | src/store/stockDataSlice.ts:57-60 | a response without the series, such as a rate-limit note or `null`, charts nothing |
| StockDataApi.TransformsReadOwnKey | src/store/stockDataSlice.ts:57-61 | each transform reads only its own key, and yields one point per entry of its own series |
| StockDataApi.NullEntryThrows | src/store/stockDataSlice.ts:62-64 | a dated entry whose values are `null` makes the transform throw rather than chart the other dates |
| StockDataApi.TransformNewsAll | src/store/stockDataSlice.ts:159-164 | the news-all transform returns `feed` unchanged when it is an array, else `[]` |
| StockDataApi.NonArrayFeedDropped | src/store/stockDataSlice.ts:160 | a `feed` that is present but not an array is dropped |
| StockDataApi.Param | src/store/stockDataSlice.ts:26-33 | `params.get` finds the first value under a name, and nothing when the name is absent |
| StockDataApi.ParamAt | src/store/stockDataSlice.ts:26-33 | when names are distinct, every listed pair is what its name looks up |
| StockDataApi.IntradayParams | src/store/stockDataSlice.ts:26-33 | the intraday request asks for `TIME_SERIES_INTRADAY` with `interval=5min`, `outputsize=compact`, JSON and the key: exactly six parameters, no name twice |
| StockDataApi.SeriesParams | src/store/stockDataSlice.ts:42-48 | the daily, weekly and monthly requests name their own series function, with `outputsize=compact`, JSON and the key: exactly five parameters, no name twice, no interval |
| StockDataApi.TimeframesAskDistinctSeries | src/store/stockDataSlice.ts:76-82 | two different timeframes never build the same request |
| DocumentTitle.Titled | src/hooks/useDocumentTitle.ts:14 | a page title starts with its name, ends with the site name, and is three characters longer than both |
| DocumentTitle.TitledSeparator | src/hooks/useDocumentTitle.ts:14 | the name and the site name are joined by ` \| `, so a title splits back into the two |
| DocumentTitle.ExactName | src/hooks/useDocumentTitle.ts:12-39 | exactly the nine listed paths have a fixed page name, each the listed one |
| DocumentTitle.Split | src/hooks/useDocumentTitle.ts:43 | `split('/')` yields at least one piece, and no piece contains `/` |
| DocumentTitle.JoinSplit | src/hooks/useDocumentTitle.ts:43 | joining the pieces with `/` gives back the path |
| DocumentTitle.SplitAfterWord | src/hooks/useDocumentTitle.ts:43 | a leading `/`-free word and its `/` become the first piece |
| DocumentTitle.UpTo | src/hooks/useDocumentTitle.ts:43 | the text before the first `/` is a `/`-free prefix that ends at a `/` or at the end |
| DocumentTitle.FirstPieceIsUpTo | src/hooks/useDocumentTitle.ts:43 | the first piece of a split is the text before the first `/` |
| DocumentTitle.PageTitle | src/hooks/useDocumentTitle.ts:7-51 | every title ends with `Stock-Share`; exact routes get their title; `/stock/…` gets the third piece as the symbol; `/articles/…` gets `Article`; everything else gets the bare site name |
| DocumentTitle.ExactRouteTitle | src/hooks/useDocumentTitle.ts:12-39 | each exact route's title is its page name followed by ` \| Stock-Share` |
| DocumentTitle.StockSymbolPieces | src/hooks/useDocumentTitle.ts:42-43 | a `/stock/…` path has at least three pieces, and the third is the text up to the next `/` |
| DocumentTitle.StockTitleNamesSymbol | src/hooks/useDocumentTitle.ts:42-44 | `/stock/AAPL` and `/stock/AAPL/x` both give `AAPL \| Stock Details \| Stock-Share`, and `/stock/` gives an empty symbol |
| DocumentTitle.StockPathTitle | src/hooks/useDocumentTitle.ts:42-44 | the title of `/stock/` followed by any text names the text up to its first `/` |
| DocumentTitle.UpToWhole | src/hooks/useDocumentTitle.ts:43 | a string with no `/` is taken whole |
| DocumentTitle.UpToWord | src/hooks/useDocumentTitle.ts:43 | a word followed by `/` is taken up to the `/` |
| DocumentTitle.ArticlePathTitle | src/hooks/useDocumentTitle.ts:45-46 | any path under `/articles/` gets `Article \| Stock-Share` |
| DocumentTitle.UnknownPathsGetSiteName | src/hooks/useDocumentTitle.ts:9 | `/home`, `/profile/update` and `/stock` get the bare `Stock-Share` |
| Text.Lower | src/pages/CreateArticle.tsx:88 | lower-casing keeps the length and maps each character on its own |
| Text.Upper | src/pages/Watchlist.tsx:89 | upper-casing keeps the length and maps each character on its own |
| Text.UpperChar | src/pages/Watchlist.tsx:89 | upper-casing a character leaves no lower-case letter, and keeps whitespace exactly |
| Text.Trim | src/pages/Watchlist.tsx:89 | a trimmed string is the slice of the input left after dropping its leading and trailing whitespace; it is empty exactly when the input is all whitespace, and otherwise starts and ends with a non-space |
| Text.TrimmedSlice | src/pages/Watchlist.tsx:89 | cutting whitespace from both ends leaves a contiguous slice whose two cut-off parts are all whitespace |
| Text.TrimKeepsUnpadded | src/pages/EditArticle.tsx:143 | trimming a string that neither starts nor ends with whitespace changes nothing |

## Left out

- The remote store, the bucket and the HTTP API are not modelled as services.
  Each call is a function over an explicit collection or bucket, with an `ok`
  flag for its success. `ID.unique()` and the clock are `freshId` and `now`
  parameters.
- Listing pagination is left out: a listing returns every matching document.
- The request-cache engine is left out: request coalescing, subscription
  counting, garbage collection and loading flags. Only tag sets, staleness and
  the refetch-or-drop rule are modelled.
- Concurrency is left out. The check-then-act races in
  `createOrUpdateProfile` and in the `addStock`/`removeStock`
  read-modify-write are out of scope, because every call here runs to
  completion before the next.
- Auth session plumbing (`src/appwrite/auth.ts`, `src/contexts/AuthContext.tsx`)
  is left out: it is event-driven side effects with no local logic.
- The avatar file methods of the profile gateway are left out. They are thin
  wrappers over the bucket; the form sees only the upload's result.
- Floating point is left out: `parseFloat`/`parseInt` of the series readings
  (points keep the raw JSON values) and the display formatting.
- `StockDataApi.Entries`: its index-key order is the array or string order.
  JavaScript's rule of listing integer-like object keys first is not
  modelled, and an object's fields are taken in their enumeration order.
- `StockDataApi.IntradayParams`, `StockDataApi.SeriesParams`: the
  percent-encoding of `URLSearchParams.toString()` and the base URL are not
  modelled. The other market endpoints only fix a `function` name and are
  left out.
- Unicode is simplified. Case mapping and `\w` cover ASCII only. Lengths count
  Dafny characters, whereas JavaScript counts UTF-16 code units; the two differ
  only for characters outside the Basic Multilingual Plane.
- `ArticleSearchBox.Render`: the loading spinner state is not modelled.
- `ProfileUpdatePage.OnSubmit`: the form library's validation gate and its
  reset and `setValue` effects are not modelled; the handler is modelled from
  the point the form library calls it. The `"Failed to save profile"` branch
  is unreachable, because the gateway returns the written document or
  rethrows.
- JSX rendering and view wiring are left out: the chart components, the stock
  search box, and the Home, News, Profile, Learn and Article pages.

=== FILE: article_api.dfy ===
/** The article endpoints of the request cache over the articles collection
    and the image bucket.

    The gateway (`ArticleService`) catches every SDK error, logs it and
    returns `undefined`; each endpoint turns a falsy gateway answer into a
    `CUSTOM_ERROR` with its own fixed message, so no endpoint reaches its
    `catch` branch. The endpoints declare no tags. */
module ArticleApi {
  import opened Wrappers
  import opened Tags

  /** `Article` as the endpoints return it: exactly these six fields. */
  datatype Article = Article(id: string, userId: string, title: string, slug: string, content: string, featuredImage: string)

  /** A stored article document, with the system fields the server adds. */
  datatype ArticleDoc = ArticleDoc(id: string, createdAt: string, updatedAt: string,
                                   userId: string, title: string, slug: string, content: string, featuredImage: string)

  type Store = seq<ArticleDoc>

  /** The image bucket: the ids of the stored files. */
  type Files = set<string>

  /** The endpoints' document mapping. */
  function Project(d: ArticleDoc): (a: Article)
    ensures a.id == d.id && a.userId == d.userId && a.title == d.title
    ensures a.slug == d.slug && a.content == d.content && a.featuredImage == d.featuredImage
  {
    Article(d.id, d.userId, d.title, d.slug, d.content, d.featuredImage)
  }

  /** `{ status, data, error }` of a failed endpoint. */
  datatype ApiError = ApiError(status: string, data: string, error: string)

  datatype ApiResult<T> = Data(value: T) | Error(error: ApiError)

  function CustomError(message: string): (e: ApiError)
    ensures e.status == "CUSTOM_ERROR" && e.data == message && e.error == message
  {
    ApiError("CUSTOM_ERROR", message, message)
  }

  // ---- The gateway over the store ----

  function IndexOf(c: Store, id: string): (r: Option<nat>)
    ensures r.Some? ==> r.value < |c| && c[r.value].id == id
    ensures r.None? <==> forall j :: 0 <= j < |c| ==> c[j].id != id
    decreases |c|
  {
    if |c| == 0 then None
    else if c[0].id == id then Some(0)
    else match IndexOf(c[1..], id)
      case None => None
      case Some(k) => Some(k + 1)
  }

  /** The document attributes the endpoints query on. */
  datatype Attribute = UserIdAttr | SlugAttr

  function AttributeOf(d: ArticleDoc, a: Attribute): string {
    match a
    case UserIdAttr => d.userId
    case SlugAttr => d.slug
  }

  /** `Query.equal(attribute, value)`, in listing order. */
  function Where(c: Store, a: Attribute, value: string): (r: Store)
    ensures forall d :: d in r <==> d in c && AttributeOf(d, a) == value
    ensures |r| <= |c|
    decreases |c|
  {
    if |c| == 0 then []
    else
      var rest := Where(c[1..], a, value);
      assert forall d :: d in c <==> d == c[0] || d in c[1..];
      if AttributeOf(c[0], a) == value then [c[0]] + rest else rest
  }

  /** No two documents share an id, as the server guarantees. */
  predicate UniqueIds(c: Store) {
    forall i, j :: 0 <= i < j < |c| ==> c[i].id != c[j].id
  }

  /** `listDocuments`: `undefined` when the call fails. */
  function Listing(docs: Store, ok: bool): (r: Option<Store>)
    ensures r.Some? <==> ok
    ensures r.Some? ==> r.value == docs
  {
    if ok then Some(docs) else None
  }

  /** `getDocument(id)`: `undefined` when it fails or there is no such document. */
  function GetDocument(c: Store, id: string, ok: bool): (r: Option<ArticleDoc>)
    ensures r.Some? <==> ok && IndexOf(c, id).Some?
    ensures r.Some? ==> r.value in c && r.value.id == id
  {
    if !ok then None
    else match IndexOf(c, id)
      case None => None
      case Some(i) => Some(c[i])
  }

  /** `createArticle(data)`: only the five content fields are sent and the
      document gets a fresh id, so the caller's `$id` is ignored. */
  function CreateDocument(c: Store, data: Article, freshId: string, now: string, ok: bool): (r: (Store, Option<ArticleDoc>))
    ensures r.1.Some? <==> ok && IndexOf(c, freshId).None?
    ensures r.1.None? ==> r.0 == c
    ensures r.1.Some? ==>
      && r.0 == c + [r.1.value]
      && r.1.value.id == freshId
      && Project(r.1.value) == data.(id := freshId)
  {
    if !ok || IndexOf(c, freshId).Some? then (c, None)
    else
      var d := ArticleDoc(freshId, now, now, data.userId, data.title, data.slug, data.content, data.featuredImage);
      (c + [d], Some(d))
  }

  /** `updateArticle(id, data)`: the five content fields overwrite the document's. */
  function UpdateDocument(c: Store, id: string, data: Article, now: string, ok: bool): (r: (Store, Option<ArticleDoc>))
    ensures |r.0| == |c|
    ensures r.1.Some? <==> ok && IndexOf(c, id).Some?
    ensures r.1.None? ==> r.0 == c
    ensures r.1.Some? ==>
      var i := IndexOf(c, id).value;
      && r.0 == c[i := r.1.value]
      && r.1.value.createdAt == c[i].createdAt
      && Project(r.1.value) == data.(id := id)
  {
    if !ok then (c, None)
    else match IndexOf(c, id)
      case None => (c, None)
      case Some(i) =>
        var d := c[i].(updatedAt := now, userId := data.userId, title := data.title, slug := data.slug,
                       content := data.content, featuredImage := data.featuredImage);
        (c[i := d], Some(d))
  }

  /** `deleteArticle(id)`: removes the document with that id, when there is
      one and the call succeeds. */
  function DeleteDocument(c: Store, id: string, ok: bool): (r: Store)
    ensures |r| <= |c|
    ensures !ok || IndexOf(c, id).None? ==> r == c
    ensures forall d :: d in r ==> d in c
    ensures ok && IndexOf(c, id).Some? ==>
      && |r| == |c| - 1
      && multiset(r) + multiset{c[IndexOf(c, id).value]} == multiset(c)
      && (forall d :: d in c && d.id != id ==> d in r)
      && (UniqueIds(c) ==> UniqueIds(r) && IndexOf(r, id).None?)
  {
    if !ok then c
    else match IndexOf(c, id)
      case None => c
      case Some(i) =>
        RemoveAt(c, i);
        c[..i] + c[i + 1..]
  }

  /** Cutting out position `i` removes that one document and keeps the rest. */
  lemma RemoveAt(c: Store, i: nat)
    requires i < |c|
    ensures var r := c[..i] + c[i + 1..];
      && |r| == |c| - 1
      && multiset(r) + multiset{c[i]} == multiset(c)
      && (forall d :: d in r ==> d in c)
      && (forall d :: d in c && d.id != c[i].id ==> d in r)
      && (UniqueIds(c) ==> UniqueIds(r) && forall j :: 0 <= j < |r| ==> r[j].id != c[i].id)
  {
    var r := c[..i] + c[i + 1..];
    assert c == c[..i] + [c[i]] + c[i + 1..];
    RemoveAtKeeps(c, i);
  }

  lemma RemoveAtKeeps(c: Store, i: nat)
    requires i < |c|
    ensures var r := c[..i] + c[i + 1..];
      && (forall d :: d in c && d.id != c[i].id ==> d in r)
      && (UniqueIds(c) ==> UniqueIds(r) && forall j :: 0 <= j < |r| ==> r[j].id != c[i].id)
  {
    var r := c[..i] + c[i + 1..];
    assert forall j :: 0 <= j < |r| ==> r[j] == if j < i then c[j] else c[j + 1];
    forall d | d in c && d.id != c[i].id ensures d in r {
      var k :| 0 <= k < |c| && c[k] == d;
      assert k != i;
      assert r[if k < i then k else k - 1] == d;
    }
  }

  // ---- Result mapping ----

  /** `response.documents.map(...)`, or the fixed error when the gateway gave nothing. */
  function MapList(response: Option<Store>, message: string): (r: ApiResult<seq<Article>>)
    ensures r.Error? <==> response.None?
    ensures r.Error? ==> r.error == CustomError(message)
    ensures r.Data? ==>
      && |r.value| == |response.value|
      && forall i :: 0 <= i < |r.value| ==> r.value[i] == Project(response.value[i])
  {
    match response
    case None => Error(CustomError(message))
    case Some(docs) => Data(seq(|docs|, i requires 0 <= i < |docs| => Project(docs[i])))
  }

  function MapOne(response: Option<ArticleDoc>, message: string): (r: ApiResult<Article>)
    ensures r.Error? <==> response.None?
    ensures r.Error? ==> r.error == CustomError(message)
    ensures r.Data? ==> r.value == Project(response.value)
  {
    match response
    case None => Error(CustomError(message))
    case Some(d) => Data(Project(d))
  }

  // ---- Endpoints ----

  function GetArticles(c: Store, ok: bool): (r: ApiResult<seq<Article>>)
    ensures r.Error? <==> !ok
    ensures r.Error? ==> r.error == CustomError("No articles found")
    ensures r.Data? ==> |r.value| == |c| && forall i :: 0 <= i < |c| ==> r.value[i] == Project(c[i])
  {
    MapList(Listing(c, ok), "No articles found")
  }

  function GetArticleByUserId(c: Store, userId: string, ok: bool): (r: ApiResult<seq<Article>>)
    ensures r.Error? <==> !ok
    ensures r.Error? ==> r.error == CustomError("No articles found")
    ensures r.Data? ==> forall a :: a in r.value <==> exists d :: d in c && d.userId == userId && a == Project(d)
  {
    var r := MapList(Listing(Where(c, UserIdAttr, userId), ok), "No articles found");
    ListHoldsProjections(Where(c, UserIdAttr, userId), r);
    r
  }

  function GetArticleById(c: Store, id: string, ok: bool): (r: ApiResult<Article>)
    ensures r.Error? <==> !ok || IndexOf(c, id).None?
    ensures r.Error? ==> r.error == CustomError("Article not found")
    ensures r.Data? ==> r.value.id == id && exists d :: d in c && r.value == Project(d)
  {
    MapOne(GetDocument(c, id, ok), "Article not found")
  }

  function CreateArticle(c: Store, article: Article, freshId: string, now: string, ok: bool): (r: (Store, ApiResult<Article>))
    ensures r.1.Error? <==> !ok || IndexOf(c, freshId).Some?
    ensures r.1.Error? ==> r.0 == c && r.1.error == CustomError("Failed to create article")
    ensures r.1.Data? ==> r.1.value == article.(id := freshId) && |r.0| == |c| + 1 && r.0[..|c|] == c
  {
    var (docs, created) := CreateDocument(c, article, freshId, now, ok);
    (docs, MapOne(created, "Failed to create article"))
  }

  /** `updateArticle(article)` writes to `article.$id`. */
  function UpdateArticle(c: Store, article: Article, now: string, ok: bool): (r: (Store, ApiResult<Article>))
    ensures r.1.Error? <==> !ok || IndexOf(c, article.id).None?
    ensures r.1.Error? ==> r.0 == c && r.1.error == CustomError("Failed to update article")
    ensures r.1.Data? ==> r.1.value == article
  {
    var (docs, updated) := UpdateDocument(c, article.id, article, now, ok);
    (docs, MapOne(updated, "Failed to update article"))
  }

  function GetArticleBySlug(c: Store, slug: string, ok: bool): (r: ApiResult<seq<Article>>)
    ensures r.Error? <==> !ok
    ensures r.Error? ==> r.error == CustomError("Failed to get article")
    ensures r.Data? ==> forall a :: a in r.value <==> exists d :: d in c && d.slug == slug && a == Project(d)
  {
    var r := MapList(Listing(Where(c, SlugAttr, slug), ok), "Failed to get article");
    ListHoldsProjections(Where(c, SlugAttr, slug), r);
    r
  }

  /** `deleteArticle`: `data: undefined` whether or not anything was deleted. */
  function DeleteArticle(c: Store, id: string, ok: bool): (r: (Store, ApiResult<()>))
    ensures r.1 == Data(())
    ensures !ok || IndexOf(c, id).None? ==> r.0 == c
    ensures ok && IndexOf(c, id).Some? ==>
      && |r.0| == |c| - 1
      && forall d :: d in c && d.id != id ==> d in r.0
  {
    (DeleteDocument(c, id, ok), Data(()))
  }

  /** After a successful delete the article is no longer found by id, and
      every other article still is. */
  lemma DeletedArticleNotFound(c: Store, id: string, other: string)
    requires UniqueIds(c) && other != id
    ensures GetArticleById(DeleteArticle(c, id, true).0, id, true).Error?
    ensures IndexOf(c, other).Some? ==> GetArticleById(DeleteArticle(c, id, true).0, other, true).Data?
  {
    var after := DeleteArticle(c, id, true).0;
    if IndexOf(c, other).Some? {
      var d := c[IndexOf(c, other).value];
      assert d in after;
      var j :| 0 <= j < |after| && after[j] == d;
    }
  }

  /** `uploadImage`: the stored file's `$id`. */
  function UploadImage(files: Files, freshId: string, ok: bool): (r: (Files, ApiResult<string>))
    ensures r.1.Data? <==> ok && freshId !in files
    ensures r.1.Data? ==> r.1.value == freshId && r.0 == files + {freshId}
    ensures r.1.Error? ==> r.0 == files && r.1.error == CustomError("Failed to upload image")
  {
    if !ok || freshId in files then (files, Error(CustomError("Failed to upload image")))
    else (files + {freshId}, Data(freshId))
  }

  /** `getImageUrl`: `view` is the gateway's view URL, `None` when it failed. */
  function GetImageUrl(view: Option<string>): (r: ApiResult<string>)
    ensures r.Error? <==> view.None? || view.value == ""
    ensures r.Error? ==> r.error == CustomError("Failed to get image preview")
    ensures r.Data? ==> r.value == view.value
  {
    if view.None? || view.value == "" then Error(CustomError("Failed to get image preview")) else Data(view.value)
  }

  /** `getImage`: the file's `$id`. */
  function GetImage(files: Files, fileId: string, ok: bool): (r: ApiResult<string>)
    ensures r.Data? <==> ok && fileId in files
    ensures r.Data? ==> r.value == fileId
    ensures r.Error? ==> r.error == CustomError("Failed to get image")
  {
    if ok && fileId in files then Data(fileId) else Error(CustomError("Failed to get image"))
  }

  /** `deleteImage`: `data: undefined` whether or not anything was deleted. */
  function DeleteImage(files: Files, fileId: string, ok: bool): (r: (Files, ApiResult<()>))
    ensures r.1 == Data(())
    ensures r.0 == if ok then files - {fileId} else files
  {
    (if ok then files - {fileId} else files, Data(()))
  }

  lemma ListHoldsProjections(docs: Store, r: ApiResult<seq<Article>>)
    requires r.Data? ==> |r.value| == |docs| && forall i :: 0 <= i < |docs| ==> r.value[i] == Project(docs[i])
    ensures r.Data? ==> forall a :: a in r.value <==> exists d :: d in docs && a == Project(d)
  {
    if r.Data? {
      forall a | a in r.value ensures exists d :: d in docs && a == Project(d) {
        var i :| 0 <= i < |r.value| && r.value[i] == a;
        assert docs[i] in docs;
      }
      forall a | (exists d :: d in docs && a == Project(d)) ensures a in r.value {
        var d :| d in docs && a == Project(d);
        var i :| 0 <= i < |docs| && docs[i] == d;
        assert r.value[i] == a;
      }
    }
  }

  // ---- Tags ----

  /** The article API declares no tag types: every endpoint provides and
      invalidates the empty set. */
  function ArticleTags(): set<Tag> { {} }

  /** No article mutation makes a cached article query stale, so a list
      cached before a create keeps lacking the new article until it is
      refetched for another reason. */
  lemma CreateLeavesCachedListsOutdated(c: Store, article: Article, freshId: string, now: string)
    requires IndexOf(c, freshId).None?
    ensures forall provided: set<Tag> :: !Stale(provided, ArticleTags())
    ensures var (after, created) := CreateArticle(c, article, freshId, now, true);
            && created.Data?
            && created.value !in GetArticles(c, true).value
            && created.value in GetArticles(after, true).value
  {
    var (after, created) := CreateArticle(c, article, freshId, now, true);
    assert GetArticles(after, true).value[|c|] == created.value;
  }
}

=== FILE: article_search.dfy ===
/** The article search box: every keystroke stores the raw input and its
    slug, the slug query runs only for a non-empty slug, and the matches are
    listed as links. Its `slugTransform` is the editor's, character for
    character, so both use `Slug.SlugTransform`. */
module ArticleSearchBox {
  import opened Wrappers
  import opened Text
  import opened Slug
  import opened ArticleApi
  import CreateArticlePage

  datatype SearchState = SearchState(query: string, slug: string)

  const InitialSearch: SearchState := SearchState("", "")

  /** `handleSearch(input)` */
  function HandleSearch(s: SearchState, input: string): (r: SearchState)
    ensures r.query == input
    ensures r.slug == SlugTransform(input) && |r.slug| <= MaxSlugLength
    ensures input == "" ==> r == InitialSearch
  {
    SearchState(input, SlugTransform(input))
  }

  /** The slug query's state: `None` while skipped (`skip: !slug`), else the
      endpoint's answer. */
  function Fetch(s: SearchState, c: Store, ok: bool): (r: Option<ApiResult<seq<Article>>>)
    ensures r.None? <==> s.slug == ""
    ensures r.Some? ==> r.value == GetArticleBySlug(c, s.slug, ok)
  {
    if s.slug == "" then None else Some(GetArticleBySlug(c, s.slug, ok))
  }

  /** What the box shows: the error text, or the input with the matches
      listed under it (none listed when there is no data or it is empty). */
  datatype SearchView = ErrorText | Box(query: string, listed: seq<Article>)

  function Render(s: SearchState, fetched: Option<ApiResult<seq<Article>>>): (v: SearchView)
    ensures v.ErrorText? <==> fetched.Some? && fetched.value.Error?
    ensures v.Box? ==> v.query == s.query
    ensures v.Box? && |v.listed| > 0 ==> fetched == Some(Data(v.listed))
    ensures fetched.Some? && fetched.value.Data? ==> v == Box(s.query, fetched.value.value)
  {
    match fetched
    case None => Box(s.query, [])
    case Some(Error(_)) => ErrorText
    case Some(Data(articles)) => Box(s.query, articles)
  }

  /** Following a listed link: the input is cleared but the slug is kept, so
      the query stays active. */
  function PickResult(s: SearchState, a: Article): (r: (SearchState, string))
    ensures r.0.query == "" && r.0.slug == s.slug
    ensures r.1 == "/articles/" + a.id
  {
    (s.(query := ""), "/articles/" + a.id)
  }

  /** Nothing the slug keeps: no word character, whitespace or `-`. */
  predicate NoSlugMaterial(s: string) {
    forall i :: 0 <= i < |s| ==> !IsWordChar(s[i]) && !IsSpace(s[i]) && s[i] != '-'
  }

  lemma {:induction false} StripRemovesAll(s: string)
    requires NoSlugMaterial(s)
    ensures StripSpecial(s) == ""
    decreases |s|
  {
    if |s| > 0 {
      assert NoSlugMaterial(s[1..]) by {
        forall i | 0 <= i < |s[1..]| ensures !IsWordChar(s[1..][i]) && !IsSpace(s[1..][i]) && s[1..][i] != '-' {
          assert s[1..][i] == s[i + 1];
        }
      }
      StripRemovesAll(s[1..]);
    }
  }

  /** Input made only of punctuation and symbols has an empty slug, so no
      query is issued and nothing is listed. */
  lemma PunctuationIssuesNoQuery(s: SearchState, input: string, c: Store, ok: bool)
    requires NoSlugMaterial(input)
    ensures HandleSearch(s, input).slug == ""
    ensures Fetch(HandleSearch(s, input), c, ok).None?
    ensures Render(HandleSearch(s, input), Fetch(HandleSearch(s, input), c, ok)) == Box(input, [])
  {
    if input != "" {
      var lowered := Lower(input);
      forall i | 0 <= i < |lowered| ensures !IsWordChar(lowered[i]) && !IsSpace(lowered[i]) && lowered[i] != '-' {
        assert !IsUpper(input[i]);
      }
      StripRemovesAll(lowered);
    }
  }

  /** Searching for the title of an article whose slug was generated from
      that title lists the article. */
  lemma SearchFindsCreatedArticle(userId: string, title: string, page: CreateArticlePage.Page,
                                  b: CreateArticlePage.Backend)
    requires title != "" && Trim(page.content) != ""
    requires page.slug == "" || page.slug == SlugTransform(title)
    requires SlugTransform(title) != ""
    requires b.createOk && IndexOf(b.docs, b.freshId).None?
    ensures var r := CreateArticlePage.Submit(Some(userId), title, false, page, b);
            var s := HandleSearch(InitialSearch, title);
            && Fetch(s, r.docs, true).Some?
            && Fetch(s, r.docs, true).value.Data?
            && exists a :: a in Fetch(s, r.docs, true).value.value && a.id == b.freshId && a.title == Trim(title)
  {
    var r := CreateArticlePage.Submit(Some(userId), title, false, page, b);
    var d := r.docs[|b.docs|];
    assert d in r.docs;
    assert Project(d) in GetArticleBySlug(r.docs, SlugTransform(title), true).value;
  }
}

=== FILE: auth_slice.dfy ===
/** The `auth` slice: the logged-in user's data and the status of the last
    register, login or logout. The user payload is kept opaque as `U`. */
module AuthSlice {
  import opened Wrappers

  /** `status` is `""` before anything happened, then one of `"loading"`,
      `"success"`, `"failed"`. */
  datatype AuthState<U> = AuthState(status: string, userData: Option<U>, error: Option<string>)

  datatype AuthAction<U> =
    | RegisterStart
    | RegisterSuccess(user: U)
    | RegisterFailure(message: string)
    | LoginStart
    | LoginSuccess(user: U)
    | LoginFailure(message: string)
    | Logout

  function Initial<U>(): AuthState<U> { AuthState("", None, None) }

  const Statuses: set<string> := {"", "loading", "success", "failed"}

  /** The error is set exactly in the failed state. */
  predicate Consistent<U>(s: AuthState<U>) {
    s.status in Statuses && (s.status == "failed" <==> s.error.Some?)
  }

  /** The slice reducer. */
  function Reduce<U>(s: AuthState<U>, a: AuthAction<U>): (r: AuthState<U>)
    ensures Consistent(r)
    ensures (a.RegisterStart? || a.LoginStart?) ==> r.status == "loading" && r.userData == s.userData
    ensures a.RegisterSuccess? || a.LoginSuccess? ==> r.status == "success" && r.userData == Some(a.user)
    ensures a.RegisterFailure? || a.LoginFailure? ==>
      r.status == "failed" && r.error == Some(a.message) && r.userData == s.userData
    ensures a.Logout? ==> r.status == "success" && r.userData.None?
  {
    match a
    case RegisterStart => s.(status := "loading", error := None)
    case RegisterSuccess(u) => s.(status := "success", userData := Some(u), error := None)
    case RegisterFailure(m) => s.(status := "failed", error := Some(m))
    case LoginStart => s.(status := "loading", error := None)
    case LoginSuccess(u) => s.(status := "success", userData := Some(u), error := None)
    case LoginFailure(m) => s.(status := "failed", error := Some(m))
    case Logout => s.(status := "success", userData := None, error := None)
  }

  function ReduceAll<U>(s: AuthState<U>, actions: seq<AuthAction<U>>): AuthState<U>
    decreases |actions|
  {
    if |actions| == 0 then s else ReduceAll(Reduce(s, actions[0]), actions[1..])
  }

  /** The login action a register action stands for. */
  function AsLogin<U>(a: AuthAction<U>): (r: AuthAction<U>)
    ensures !r.RegisterStart? && !r.RegisterSuccess? && !r.RegisterFailure?
  {
    match a
    case RegisterStart => LoginStart
    case RegisterSuccess(u) => LoginSuccess(u)
    case RegisterFailure(m) => LoginFailure(m)
    case _ => a
  }

  function AllAsLogin<U>(actions: seq<AuthAction<U>>): (r: seq<AuthAction<U>>)
    ensures |r| == |actions|
    ensures forall i :: 0 <= i < |actions| ==> r[i] == AsLogin(actions[i])
  {
    seq(|actions|, i requires 0 <= i < |actions| => AsLogin(actions[i]))
  }

  /** Each register reducer is its login counterpart's transition, so any
      history gives the state it would give with logins in place of registers. */
  lemma {:induction false} RegisterIsLogin<U>(s: AuthState<U>, actions: seq<AuthAction<U>>)
    ensures ReduceAll(s, actions) == ReduceAll(s, AllAsLogin(actions))
    decreases |actions|
  {
    if |actions| > 0 {
      assert Reduce(s, actions[0]) == Reduce(s, AsLogin(actions[0]));
      assert AllAsLogin(actions)[1..] == AllAsLogin(actions[1..]);
      RegisterIsLogin(Reduce(s, actions[0]), actions[1..]);
    }
  }

  /** Every reachable state is consistent: an error is present exactly when
      the status is `"failed"`. */
  lemma {:induction false} ReachableConsistent<U>(s: AuthState<U>, actions: seq<AuthAction<U>>)
    requires Consistent(s)
    ensures Consistent(ReduceAll(s, actions))
    decreases |actions|
  {
    if |actions| > 0 {
      ReachableConsistent(Reduce(s, actions[0]), actions[1..]);
    }
  }

  /** After a logout nobody is logged in until the next success. */
  lemma {:induction false} LogoutClearsUser<U>(s: AuthState<U>, actions: seq<AuthAction<U>>)
    requires forall i :: 0 <= i < |actions| ==> !actions[i].RegisterSuccess? && !actions[i].LoginSuccess?
    ensures ReduceAll(s, [Logout] + actions).userData.None?
    decreases |actions|
  {
    var t := Reduce(s, Logout);
    assert ([Logout] + actions)[1..] == actions;
    NoSuccessKeepsLoggedOut(t, actions);
  }

  /** Without a success, nobody logs in: a logged-out state stays logged out,
      through starts, failures and further logouts. */
  lemma {:induction false} NoSuccessKeepsLoggedOut<U>(s: AuthState<U>, actions: seq<AuthAction<U>>)
    requires s.userData.None?
    requires forall i :: 0 <= i < |actions| ==> !actions[i].RegisterSuccess? && !actions[i].LoginSuccess?
    ensures ReduceAll(s, actions).userData.None?
    decreases |actions|
  {
    if |actions| > 0 {
      NoSuccessKeepsLoggedOut(Reduce(s, actions[0]), actions[1..]);
    }
  }

  /** Start and failure actions never touch the user data: whoever was
      logged in stays logged in. */
  lemma {:induction false} NoSuccessKeepsUser<U>(s: AuthState<U>, actions: seq<AuthAction<U>>)
    requires forall i :: 0 <= i < |actions| ==>
               !actions[i].RegisterSuccess? && !actions[i].LoginSuccess? && !actions[i].Logout?
    ensures ReduceAll(s, actions).userData == s.userData
    decreases |actions|
  {
    if |actions| > 0 {
      NoSuccessKeepsUser(Reduce(s, actions[0]), actions[1..]);
    }
  }
}

=== FILE: create_article.dfy ===
/** The article editor: the slug field that follows the title, and the submit
    handler with its guards and the record it creates. */
module CreateArticlePage {
  import opened Wrappers
  import opened Text
  import opened Slug
  import opened ArticleApi

  const ContentRequired: string := "Article content cannot be empty"
  const CreateFailed: string := "Failed to create article. Please try again."

  /** The page's own state: the read-only slug field, the editor content and
      the error line. */
  datatype Page = Page(slug: string, content: string, error: string)

  const InitialPage: Page := Page("", "", "")

  /** The title field's change handler: the slug field shows `slugTransform`
      of what was typed. */
  function OnTitleChange(page: Page, typed: string): (r: Page)
    ensures r.slug == SlugTransform(typed) && r.content == page.content && r.error == page.error
    ensures |r.slug| <= MaxSlugLength
  {
    page.(slug := SlugTransform(typed))
  }

  /** The remote side of one submission: the store and bucket, fresh ids and
      time, and the success of the upload and of the create. */
  datatype Backend = Backend(docs: Store, files: Files, freshFileId: string, uploadOk: bool,
                             freshId: string, now: string, createOk: bool)

  /** What a submission did: the page afterwards, the store and bucket, and
      where it navigated, if anywhere. */
  datatype Submitted = Submitted(page: Page, docs: Store, files: Files, navigatedTo: Option<string>)

  /** The record `onSubmit` sends: an empty `$id`, the trimmed title, the slug
      field or else the title's slug, and the uploaded image or `""`. */
  function NewArticle(userId: string, title: string, slugField: string, content: string, image: string): (a: Article)
    ensures a.id == "" && a.userId == userId && a.title == Trim(title)
    ensures slugField != "" ==> a.slug == slugField
    ensures slugField == "" ==> a.slug == SlugTransform(title)
    ensures a.content == content && a.featuredImage == image
  {
    Article("", userId, Trim(title), if slugField != "" then slugField else SlugTransform(title), content, image)
  }

  /** Whether the upload of a picked file succeeds. */
  predicate UploadSucceeds(b: Backend) {
    b.uploadOk && b.freshFileId !in b.files
  }

  /** The `try` block of `onSubmit`: upload the picked file, if any, then
      create the article; any failure shows one fixed message. */
  function Publish(userId: string, title: string, fileChosen: bool, page: Page, b: Backend): (r: Submitted)
    ensures r.navigatedTo.Some? <==>
      (fileChosen ==> UploadSucceeds(b)) && b.createOk && IndexOf(b.docs, b.freshId).None?
    ensures r.navigatedTo.Some? ==>
      var image := if fileChosen then b.freshFileId else "";
      && r.navigatedTo == Some("/articles")
      && r.page == InitialPage
      && |r.docs| == |b.docs| + 1 && r.docs[..|b.docs|] == b.docs
      && Project(r.docs[|b.docs|]) == NewArticle(userId, title, page.slug, page.content, image).(id := b.freshId)
    ensures r.navigatedTo.None? ==> r.docs == b.docs && r.page == page.(error := CreateFailed)
    ensures r.files == if fileChosen && UploadSucceeds(b) then b.files + {b.freshFileId} else b.files
  {
    var (files, image) :=
      if fileChosen then UploadImage(b.files, b.freshFileId, b.uploadOk) else (b.files, Data(""));
    match image
    case Error(_) => Submitted(page.(error := CreateFailed), b.docs, files, None)
    case Data(imageId) =>
      var article := NewArticle(userId, title, page.slug, page.content, imageId);
      var (docs, created) := CreateArticle(b.docs, article, b.freshId, b.now, b.createOk);
      match created
      case Error(_) => Submitted(page.(error := CreateFailed), b.docs, files, None)
      case Data(_) => Submitted(InitialPage, docs, files, Some("/articles"))
  }

  /** Submitting the form. The form library runs the title rule first (an
      empty title shows "Title is required" and calls nothing); then
      `onSubmit` runs. `userId` is `user.$id`, `None` with nobody logged in;
      `fileChosen` says whether an image file was picked. */
  function Submit(userId: Option<string>, title: string, fileChosen: bool, page: Page, b: Backend): (r: Submitted)
    ensures title == "" ==> r == Submitted(page, b.docs, b.files, None)
    ensures title != "" && userId.None? ==> r == Submitted(page, b.docs, b.files, Some("/login"))
    ensures title != "" && userId.Some? && Trim(page.content) == "" ==>
      r == Submitted(page.(error := ContentRequired), b.docs, b.files, None)
    ensures title != "" && userId.Some? && Trim(page.content) != "" ==>
      r == Publish(userId.value, title, fileChosen, page.(error := ""), b)
    ensures r.docs != b.docs ==> r.navigatedTo == Some("/articles")
  {
    if title == "" then Submitted(page, b.docs, b.files, None)
    else if userId.None? then Submitted(page, b.docs, b.files, Some("/login"))
    else if Trim(page.content) == "" then Submitted(page.(error := ContentRequired), b.docs, b.files, None)
    else Publish(userId.value, title, fileChosen, page.(error := ""), b)
  }

  /** The slug field only ever holds the slug of the typed title, so the
      created article's slug is the slug of its title. */
  lemma CreatedSlugIsTitleSlug(userId: string, title: string, fileChosen: bool, page: Page, b: Backend)
    requires page.slug == "" || page.slug == SlugTransform(title)
    ensures var r := Submit(Some(userId), title, fileChosen, page, b);
            r.navigatedTo == Some("/articles") ==>
              && r.docs[|b.docs|].slug == SlugTransform(title)
              && |r.docs[|b.docs|].slug| <= MaxSlugLength
  {
  }

  /** An image uploaded for an article whose create then fails stays in the
      bucket, referenced by no document. */
  lemma FailedCreateOrphansImage(userId: string, title: string, page: Page, b: Backend)
    requires title != "" && Trim(page.content) != ""
    requires b.uploadOk && b.freshFileId !in b.files
    requires !b.createOk
    requires forall d :: d in b.docs ==> d.featuredImage != b.freshFileId
    ensures var r := Submit(Some(userId), title, true, page, b);
            && r.page.error == CreateFailed
            && r.files == b.files + {b.freshFileId}
            && forall d :: d in r.docs ==> d.featuredImage != b.freshFileId
  {
  }
}

=== FILE: document_title.dfy ===
/** The page title the document-title hook sets for a pathname. */
module DocumentTitle {
  import opened Wrappers
  import opened Text

  const SiteName: string := "Stock-Share"

  /** A page name followed by the site name. */
  function Titled(name: string): (r: string)
    ensures StartsWith(r, name) && EndsWith(r, SiteName)
    ensures |r| == |name| + 3 + |SiteName|
  {
    var r := name + " | " + SiteName;
    assert r[..|name|] == name;
    assert r[|r| - |SiteName|..] == SiteName;
    r
  }

  /** The page name and the site name are joined by `" | "`, so a title
      splits back into the two. */
  lemma TitledSeparator(name: string)
    ensures Titled(name)[|name|..|name| + 3] == " | "
    ensures Titled(name)[..|name|] == name && Titled(name)[|name| + 3..] == SiteName
  {
    var r := Titled(name);
    assert r == name + " | " + SiteName;
    assert r[|name|..|name| + 3] == " | ";
    assert r[|name| + 3..] == SiteName;
  }

  /** The page names of the nine routes matched exactly. */
  function ExactName(path: string): (r: Option<string>)
    ensures r.Some? <==> path in {"/", "/about", "/news", "/articles", "/profile", "/watchlist",
                                  "/login", "/signup", "/create-article"}
    ensures path == "/" ==> r == Some("Home")
    ensures path == "/about" ==> r == Some("About")
    ensures path == "/news" ==> r == Some("News")
    ensures path == "/articles" ==> r == Some("Articles")
    ensures path == "/profile" ==> r == Some("My Profile")
    ensures path == "/watchlist" ==> r == Some("My Watchlist")
    ensures path == "/login" ==> r == Some("Login")
    ensures path == "/signup" ==> r == Some("Sign Up")
    ensures path == "/create-article" ==> r == Some("Create Article")
  {
    if path == "/" then Some("Home")
    else if path == "/about" then Some("About")
    else if path == "/news" then Some("News")
    else if path == "/articles" then Some("Articles")
    else if path == "/profile" then Some("My Profile")
    else if path == "/watchlist" then Some("My Watchlist")
    else if path == "/login" then Some("Login")
    else if path == "/signup" then Some("Sign Up")
    else if path == "/create-article" then Some("Create Article")
    else None
  }

  // ---- String.prototype.split with a one-character separator ----

  /** `s.split(sep)`: the pieces between separators, empty ones included. */
  function Split(s: string, sep: char): (r: seq<string>)
    ensures |r| >= 1
    ensures forall k :: 0 <= k < |r| ==> sep !in r[k]
  {
    if s == [] then [""]
    else if s[0] == sep then [""] + Split(s[1..], sep)
    else var rest := Split(s[1..], sep); [[s[0]] + rest[0]] + rest[1..]
  }

  /** `pieces.join(sep)` */
  function Join(pieces: seq<string>, sep: char): string
    requires |pieces| >= 1
  {
    if |pieces| == 1 then pieces[0] else pieces[0] + [sep] + Join(pieces[1..], sep)
  }

  /** Splitting loses nothing: joining the pieces gives the string back. */
  lemma {:induction false} JoinSplit(s: string, sep: char)
    ensures Join(Split(s, sep), sep) == s
  {
    if s != [] {
      JoinSplit(s[1..], sep);
      var rest := Split(s[1..], sep);
      if s[0] != sep {
        if |rest| == 1 {
          assert Split(s, sep) == [[s[0]] + rest[0]];
        } else {
          assert Split(s, sep)[1..] == rest[1..];
          assert Join(rest, sep) == rest[0] + [sep] + Join(rest[1..], sep);
        }
      }
    }
  }

  /** A leading separator-free word is the first piece. */
  lemma {:induction false} SplitAfterWord(word: string, sep: char, rest: string)
    requires sep !in word
    ensures Split(word + [sep] + rest, sep) == [word] + Split(rest, sep)
    decreases |word|
  {
    var s := word + [sep] + rest;
    if word == [] {
      assert s == [sep] + rest;
      assert s[1..] == rest;
    } else {
      assert s[0] == word[0] && s[1..] == word[1..] + [sep] + rest;
      SplitAfterWord(word[1..], sep, rest);
      var t := Split(s[1..], sep);
      assert t == [word[1..]] + Split(rest, sep);
      assert [s[0]] + t[0] == word;
      assert t[1..] == Split(rest, sep);
    }
  }

  /** The text before the first separator, or all of `s`. */
  function UpTo(s: string, sep: char): (r: string)
    ensures sep !in r && StartsWith(s, r)
    ensures |r| < |s| ==> s[|r|] == sep
  {
    if s == [] || s[0] == sep then [] else [s[0]] + UpTo(s[1..], sep)
  }

  lemma {:induction false} FirstPieceIsUpTo(s: string, sep: char)
    ensures Split(s, sep)[0] == UpTo(s, sep)
  {
    if s != [] && s[0] != sep {
      FirstPieceIsUpTo(s[1..], sep);
    }
  }

  // ---- The title ----

  const StockPrefix: string := "/stock/"
  const ArticlePrefix: string := "/articles/"

  /** The title for a pathname: an exact route's title; for `/stock/…` the
      third `/`-piece as the symbol; for `/articles/…` the article title;
      otherwise the site name alone. */
  function PageTitle(path: string): (r: string)
    ensures EndsWith(r, SiteName)
    ensures ExactName(path).Some? ==> r == Titled(ExactName(path).value)
    ensures ExactName(path).None? && StartsWith(path, StockPrefix) ==>
      |Split(path, '/')| >= 3 && r == Titled(Split(path, '/')[2] + " | Stock Details")
    ensures ExactName(path).None? && !StartsWith(path, StockPrefix) && StartsWith(path, ArticlePrefix) ==>
      r == Titled("Article")
    ensures ExactName(path).None? && !StartsWith(path, StockPrefix) && !StartsWith(path, ArticlePrefix) ==>
      r == SiteName
  {
    match ExactName(path)
    case Some(name) => Titled(name)
    case None =>
      if StartsWith(path, StockPrefix) then
        StockSymbolPieces(path);
        Titled(Split(path, '/')[2] + " | Stock Details")
      else if StartsWith(path, ArticlePrefix) then Titled("Article")
      else
        assert SiteName[0..] == SiteName;
        SiteName
  }

  /** Each exact route's title is its page name followed by the site name. */
  lemma ExactRouteTitle(path: string)
    requires ExactName(path).Some?
    ensures PageTitle(path) == ExactName(path).value + " | Stock-Share"
  {
  }

  /** A `/stock/…` path has at least three pieces, and the third is the text
      up to the next `/`. */
  lemma StockSymbolPieces(path: string)
    requires StartsWith(path, StockPrefix)
    ensures |Split(path, '/')| >= 3
    ensures Split(path, '/')[2] == UpTo(path[|StockPrefix|..], '/')
  {
    var rest := path[|StockPrefix|..];
    assert path == "" + ['/'] + ("stock" + ['/'] + rest);
    SplitAfterWord("", '/', "stock" + ['/'] + rest);
    SplitAfterWord("stock", '/', rest);
    FirstPieceIsUpTo(rest, '/');
  }

  /** The symbol is the text between `/stock/` and the next `/`; it is empty
      for `/stock/` itself. */
  lemma StockTitleNamesSymbol(symbol: string, tail: string)
    requires '/' !in symbol
    ensures PageTitle(StockPrefix + symbol) == symbol + " | Stock Details | Stock-Share"
    ensures PageTitle(StockPrefix + symbol + "/" + tail) == symbol + " | Stock Details | Stock-Share"
  {
    StockPathTitle(StockPrefix + symbol, symbol);
    UpToWhole(symbol, '/');
    StockPathTitle(StockPrefix + symbol + "/" + tail, symbol + ['/'] + tail);
    UpToWord(symbol, '/', tail);
  }

  lemma StockPathTitle(path: string, rest: string)
    requires path == StockPrefix + rest
    ensures PageTitle(path) == UpTo(rest, '/') + " | Stock Details | Stock-Share"
  {
    assert StartsWith(path, StockPrefix) && path[|StockPrefix|..] == rest;
    assert ExactName(path).None? by {
      assert |path| >= 7 && path[1] == 's' && path[2] == 't';
    }
    StockSymbolPieces(path);
    assert PageTitle(path) == Titled(UpTo(rest, '/') + " | Stock Details");
    StockTitleShape(UpTo(rest, '/'));
  }

  lemma StockTitleShape(symbol: string)
    ensures Titled(symbol + " | Stock Details") == symbol + " | Stock Details | Stock-Share"
  {
    assert " | Stock Details" + " | " + SiteName == " | Stock Details | Stock-Share";
    assert symbol + " | Stock Details" + " | " + SiteName == symbol + (" | Stock Details" + " | " + SiteName);
  }

  lemma {:induction false} UpToWhole(s: string, sep: char)
    requires sep !in s
    ensures UpTo(s, sep) == s
  {
    if s != [] {
      UpToWhole(s[1..], sep);
    }
  }

  lemma {:induction false} UpToWord(word: string, sep: char, rest: string)
    requires sep !in word
    ensures UpTo(word + [sep] + rest, sep) == word
    decreases |word|
  {
    if word != [] {
      assert (word + [sep] + rest)[1..] == word[1..] + [sep] + rest;
      UpToWord(word[1..], sep, rest);
    }
  }

  /** Anything under `/articles/` is a single article. */
  lemma ArticlePathTitle(id: string)
    ensures PageTitle(ArticlePrefix + id) == "Article | Stock-Share"
  {
    var p := ArticlePrefix + id;
    assert StartsWith(p, ArticlePrefix) && p[1] == 'a' && |p| >= 10;
    assert !StartsWith(p, StockPrefix) by { assert p[1] != StockPrefix[1]; }
    assert ExactName(p).None?;
  }

  /** Unknown paths, including ones that only look like routes, get the bare
      site name. */
  lemma UnknownPathsGetSiteName()
    ensures PageTitle("/home") == "Stock-Share"
    ensures PageTitle("/profile/update") == "Stock-Share"
    ensures PageTitle("/stock") == "Stock-Share"
  {
    assert ExactName("/home").None?;
    assert !StartsWith("/home", StockPrefix) && !StartsWith("/home", ArticlePrefix);
    assert ExactName("/profile/update").None?;
    assert !StartsWith("/profile/update", StockPrefix) by { assert "/profile/update"[1] != StockPrefix[1]; }
    assert !StartsWith("/profile/update", ArticlePrefix) by { assert "/profile/update"[1] != ArticlePrefix[1]; }
    assert ExactName("/stock").None?;
    assert !StartsWith("/stock", StockPrefix) && !StartsWith("/stock", ArticlePrefix);
  }
}

=== FILE: edit_article.dfy ===
/** The article edit form: the title and slug rules, and the submit handler
    with its guards and the record it writes. */
module EditArticlePage {
  import opened Wrappers
  import opened Text
  import opened Slug
  import opened ArticleApi

  const ContentRequired: string := "Article content cannot be empty"
  const UploadFailed: string := "Failed to upload image"
  const UpdateFailed: string := "Failed to update article. Please try again."

  // ---- Field rules, checked in the form library's order: required, length, pattern ----

  /** The title rule: required, at least 5 and at most 200 characters. */
  function TitleError(title: string): (r: Option<string>)
    ensures r.None? <==> 5 <= |title| <= 200
    ensures title == "" ==> r == Some("Title is required")
    ensures title != "" && |title| > 200 ==> r == Some("Title must be less than 200 characters")
    ensures title != "" && |title| < 5 ==> r == Some("Title must be at least 5 characters long")
  {
    if title == "" then Some("Title is required")
    else if |title| > 200 then Some("Title must be less than 200 characters")
    else if |title| < 5 then Some("Title must be at least 5 characters long")
    else None
  }

  /** `[a-z0-9-]` */
  predicate IsSlugPatternChar(c: char) { IsLower(c) || IsDigit(c) || c == '-' }

  /** The slug rule: required, 3 to 100 characters, and `^[a-z0-9-]+$`. */
  function SlugError(slug: string): (r: Option<string>)
    ensures r.None? <==> 3 <= |slug| <= 100 && forall i :: 0 <= i < |slug| ==> IsSlugPatternChar(slug[i])
    ensures slug == "" ==> r == Some("Slug is required")
    ensures slug != "" && |slug| > 100 ==> r == Some("Slug must be less than 100 characters")
    ensures slug != "" && |slug| < 3 ==> r == Some("Slug must be at least 3 characters long")
    ensures 3 <= |slug| <= 100 && r.Some? ==> r == Some("Slug can only contain lowercase letters, numbers, and hyphens")
  {
    if slug == "" then Some("Slug is required")
    else if |slug| > 100 then Some("Slug must be less than 100 characters")
    else if |slug| < 3 then Some("Slug must be at least 3 characters long")
    else if exists i :: 0 <= i < |slug| && !IsSlugPatternChar(slug[i]) then
      Some("Slug can only contain lowercase letters, numbers, and hyphens")
    else None
  }

  /** A generated slug always fits the length limit; it passes the slug rule
      exactly when it has at least 3 characters and no `_`, which the
      generator keeps but the rule rejects. */
  lemma GeneratedSlugAgainstRule(title: string)
    ensures |SlugTransform(title)| <= 100
    ensures SlugError(SlugTransform(title)).None? <==> 3 <= |SlugTransform(title)| && '_' !in SlugTransform(title)
  {
    var s := SlugTransform(title);
    if '_' in s {
      var k :| 0 <= k < |s| && s[k] == '_';
      assert !IsSlugPatternChar(s[k]);
    }
  }

  /** A slug that passes the rule has no surrounding whitespace, so trimming
      it before the write changes nothing. */
  lemma AcceptedSlugIsTrimmed(slug: string)
    requires SlugError(slug).None?
    ensures Trim(slug) == slug
  {
    TrimKeepsUnpadded(slug);
  }

  // ---- onSubmit ----

  /** The submitted fields: the hidden `$id` field, title, slug, and whether
      an image file was picked. */
  datatype EditForm = EditForm(formId: string, title: string, slug: string, fileChosen: bool)

  /** The remote side of one submission. */
  datatype Backend = Backend(docs: Store, files: Files, freshFileId: string, uploadOk: bool, now: string, updateOk: bool)

  /** What a submission did: the error line, the store and bucket, and where
      it navigated, if anywhere. */
  datatype Submitted = Submitted(error: string, docs: Store, files: Files, navigatedTo: Option<string>)

  /** The image of the written record: the loaded article's, replaced by the
      upload when a file was picked; a failed or empty upload is an error. */
  function FeaturedImage(loaded: Article, fileChosen: bool, upload: ApiResult<string>): (r: Result<string, string>)
    ensures !fileChosen ==> r == Success(loaded.featuredImage)
    ensures fileChosen && upload.Data? && upload.value != "" ==> r == Success(upload.value)
    ensures fileChosen && (upload.Error? || upload.value == "") ==> r == Failure(UploadFailed)
  {
    if !fileChosen then Success(loaded.featuredImage)
    else if upload.Data? && upload.value != "" then Success(upload.value)
    else Failure(UploadFailed)
  }

  /** The record `onSubmit` writes: the route id, the current user, and the
      trimmed title and slug. */
  function EditedArticle(routeId: string, userId: string, form: EditForm, content: string, image: string): (a: Article)
    ensures a.id == routeId && a.userId == userId
    ensures a.title == Trim(form.title) && a.slug == Trim(form.slug)
    ensures a.content == content && a.featuredImage == image
  {
    Article(routeId, userId, Trim(form.title), Trim(form.slug), content, image)
  }

  /** The `try` block of `onSubmit`. */
  function Save(routeId: string, userId: string, loaded: Article, content: string, form: EditForm, b: Backend): (r: Submitted)
    ensures var upload := UploadImage(b.files, b.freshFileId, b.uploadOk);
            var image := FeaturedImage(loaded, form.fileChosen, upload.1);
            && (image.Failure? ==> r == Submitted(UploadFailed, b.docs, upload.0, None))
            && (image.Success? ==>
                  var written := UpdateArticle(b.docs, EditedArticle(routeId, userId, form, content, image.value), b.now, b.updateOk);
                  && (written.1.Error? ==> r.error == UpdateFailed && r.docs == b.docs && r.navigatedTo.None?)
                  && (written.1.Data? ==> r.error == "" && r.docs == written.0
                                          && r.navigatedTo == Some("/articles/" + form.formId)))
  {
    var (files, upload) := if form.fileChosen then UploadImage(b.files, b.freshFileId, b.uploadOk) else (b.files, Data(""));
    match FeaturedImage(loaded, form.fileChosen, upload)
    case Failure(message) => Submitted(message, b.docs, files, None)
    case Success(image) =>
      var (docs, written) := UpdateArticle(b.docs, EditedArticle(routeId, userId, form, content, image), b.now, b.updateOk);
      match written
      case Error(_) => Submitted(UpdateFailed, b.docs, files, None)
      case Data(_) => Submitted("", docs, files, Some("/articles/" + form.formId))
  }

  /** Submitting the form once the article is loaded. The form library runs
      the title and slug rules first and calls nothing when either fails.
      `userId` is `user.$id` (`None` with nobody logged in), `routeId` the
      route's `id` (`""` when absent), `error` the error line before. */
  function Submit(userId: Option<string>, routeId: string, loaded: Article, content: string, form: EditForm,
                  error: string, b: Backend): (r: Submitted)
    ensures TitleError(form.title).Some? || SlugError(form.slug).Some? ==> r == Submitted(error, b.docs, b.files, None)
    ensures TitleError(form.title).None? && SlugError(form.slug).None? ==>
      && ((userId.None? || routeId == "") ==> r == Submitted(error, b.docs, b.files, Some("/login")))
      && (userId.Some? && routeId != "" && Trim(content) == "" ==> r == Submitted(ContentRequired, b.docs, b.files, None))
      && (userId.Some? && routeId != "" && Trim(content) != "" ==> r == Save(routeId, userId.value, loaded, content, form, b))
    ensures r.docs != b.docs ==> r.navigatedTo == Some("/articles/" + form.formId)
  {
    if TitleError(form.title).Some? || SlugError(form.slug).Some? then Submitted(error, b.docs, b.files, None)
    else if userId.None? || routeId == "" then Submitted(error, b.docs, b.files, Some("/login"))
    else if Trim(content) == "" then Submitted(ContentRequired, b.docs, b.files, None)
    else Save(routeId, userId.value, loaded, content, form, b)
  }

  /** A successful edit writes the form to the document named by the route:
      its slug exactly as typed, its title trimmed, and, with no new file,
      the image it had. */
  lemma EditWritesRouteDocument(userId: string, routeId: string, loaded: Article, content: string, form: EditForm, b: Backend)
    requires !form.fileChosen
    requires SlugError(form.slug).None?
    ensures var r := Save(routeId, userId, loaded, content, form, b);
            r.navigatedTo.Some? ==>
              && IndexOf(b.docs, routeId).Some?
              && var i := IndexOf(b.docs, routeId).value;
              && r.docs[i].id == routeId
              && r.docs[i].slug == form.slug
              && r.docs[i].title == Trim(form.title)
              && r.docs[i].featuredImage == loaded.featuredImage
              && r.docs[i].createdAt == b.docs[i].createdAt
  {
    var r := Save(routeId, userId, loaded, content, form, b);
    var article := EditedArticle(routeId, userId, form, content, loaded.featuredImage);
    var written := UpdateArticle(b.docs, article, b.now, b.updateOk);
    assert FeaturedImage(loaded, false, Data("")) == Success(loaded.featuredImage);
    assert r == if written.1.Data? then Submitted("", written.0, b.files, Some("/articles/" + form.formId))
                else Submitted(UpdateFailed, b.docs, b.files, None);
    if r.navigatedTo.Some? {
      AcceptedSlugIsTrimmed(form.slug);
      UpdateWritesArticle(b.docs, article, b.now, b.updateOk);
    }
  }

  lemma UpdateWritesArticle(c: Store, article: Article, now: string, ok: bool)
    requires UpdateArticle(c, article, now, ok).1.Data?
    ensures IndexOf(c, article.id).Some?
    ensures var i := IndexOf(c, article.id).value;
            var d := UpdateArticle(c, article, now, ok).0[i];
            && Project(d) == article && d.createdAt == c[i].createdAt
  {
    var i := IndexOf(c, article.id).value;
    var u := UpdateDocument(c, article.id, article, now, ok);
    assert u.0[i] == u.1.value;
  }
}

=== FILE: profile_service.dfy ===
/** The profile gateway over the users collection: reading a user's profile,
    the lookup-then-update-or-create write, and the plain create and delete.

    The collection is a sequence of documents in listing order. Remote calls
    are replaced by success flags; `freshId` and `now` stand for
    `ID.unique()` and the current time. A stored document always has its
    `$id`, `$createdAt` and `$updatedAt`; the server keeps its own `$id` and
    `$createdAt` on update and sets `$updatedAt`, and an update leaves an
    optional attribute the data does not carry as it was. */
module ProfileService {
  import opened Wrappers

  /** `Profile`: the optional fields are `None` when absent. */
  datatype Profile = Profile(
    userId: string,
    name: string,
    email: string,
    bio: Option<string>,
    avatar: Option<string>,
    id: Option<string>,
    createdAt: Option<string>,
    updatedAt: Option<string>,
    title: string)

  type Collection = seq<Profile>

  predicate Stored(p: Profile) {
    p.id.Some? && p.createdAt.Some? && p.updatedAt.Some?
  }

  /** Every document is stored with its system fields, under a distinct `$id`. */
  predicate WellFormed(c: Collection) {
    && (forall i :: 0 <= i < |c| ==> Stored(c[i]))
    && (forall i, j :: 0 <= i < j < |c| ==> c[i].id != c[j].id)
  }

  /** The position of the first document of `userId` (`Query.equal("userId", …)`, then `documents[0]`). */
  function FirstOf(c: Collection, userId: string): (r: Option<nat>)
    ensures r.Some? ==> r.value < |c| && c[r.value].userId == userId
    ensures r.Some? ==> forall j :: 0 <= j < r.value ==> c[j].userId != userId
    ensures r.None? <==> forall j :: 0 <= j < |c| ==> c[j].userId != userId
    decreases |c|
  {
    if |c| == 0 then None
    else if c[0].userId == userId then Some(0)
    else match FirstOf(c[1..], userId)
      case None => None
      case Some(k) => Some(k + 1)
  }

  /** The position of the document stored under `id`. */
  function Locate(c: Collection, id: string): (r: Option<nat>)
    ensures r.Some? ==> r.value < |c| && c[r.value].id == Some(id)
    ensures r.None? <==> forall j :: 0 <= j < |c| ==> c[j].id != Some(id)
    decreases |c|
  {
    if |c| == 0 then None
    else if c[0].id == Some(id) then Some(0)
    else match Locate(c[1..], id)
      case None => None
      case Some(k) => Some(k + 1)
  }

  /** How many profiles the collection holds for `userId`. */
  function CountOf(c: Collection, userId: string): (n: nat)
    ensures n <= |c|
    ensures n == 0 <==> FirstOf(c, userId).None?
    decreases |c|
  {
    if |c| == 0 then 0
    else (if c[0].userId == userId then 1 else 0) + CountOf(c[1..], userId)
  }

  /** `getProfile(userId)`: the first matching document, `null` when there is
      none and `null` when the listing fails (`listOk` false). */
  function GetProfile(c: Collection, userId: string, listOk: bool): (r: Option<Profile>)
    ensures r.Some? <==> listOk && FirstOf(c, userId).Some?
    ensures r.Some? ==> r.value in c && r.value.userId == userId
    ensures r.Some? ==> r.value == c[FirstOf(c, userId).value]
  {
    if !listOk then None
    else match FirstOf(c, userId)
      case None => None
      case Some(i) => Some(c[i])
  }

  /** `updateDocument(docId, data)` on a stored document. */
  function Overwrite(stored: Profile, data: Profile, now: string): (r: Profile)
    ensures r.id == stored.id && r.createdAt == stored.createdAt && r.updatedAt == Some(now)
    ensures r.userId == data.userId && r.name == data.name && r.email == data.email && r.title == data.title
    ensures r.bio == (if data.bio.Some? then data.bio else stored.bio)
    ensures r.avatar == (if data.avatar.Some? then data.avatar else stored.avatar)
  {
    stored.(userId := data.userId, name := data.name, email := data.email, title := data.title,
            bio := if data.bio.Some? then data.bio else stored.bio,
            avatar := if data.avatar.Some? then data.avatar else stored.avatar,
            updatedAt := Some(now))
  }

  /** `createDocument(freshId, data)`: the server assigns the system fields. */
  function NewDocument(data: Profile, freshId: string, now: string): (r: Profile)
    ensures Stored(r) && r.id == Some(freshId)
    ensures r.userId == data.userId && r.name == data.name && r.email == data.email
    ensures r.bio == data.bio && r.avatar == data.avatar && r.title == data.title
  {
    data.(id := Some(freshId), createdAt := Some(now), updatedAt := Some(now))
  }

  /** The store after a call, and what the call returned or threw. */
  datatype Written = Written(docs: Collection, result: Result<Profile, string>)

  /** `createOrUpdateProfile(data)`. `lookupOk` is the success of the listing
      inside `getProfile` (whose failure it swallows), `listOk` of the second
      listing, and `writeOk` of the update or create; a failed call that is
      not swallowed rethrows `thrown`. */
  function CreateOrUpdateProfile(c: Collection, data: Profile, freshId: string, now: string,
                                 lookupOk: bool, listOk: bool, writeOk: bool, thrown: string): (r: Written)
    ensures r.result.Failure? ==> r.docs == c && r.result.error == thrown
    ensures r.result.Success? ==> r.result.value.userId == data.userId && r.result.value in r.docs
    ensures GetProfile(c, data.userId, lookupOk).Some? ==>
      (r.result.Success? <==> listOk && writeOk)
    ensures GetProfile(c, data.userId, lookupOk).Some? && r.result.Success? ==>
      var i := FirstOf(c, data.userId).value;
      && |r.docs| == |c|
      && r.docs == c[i := Overwrite(c[i], data, now)]
      && r.result.value == r.docs[i]
    ensures GetProfile(c, data.userId, lookupOk).None? ==>
      (r.result.Success? <==> writeOk && Locate(c, freshId).None?)
    ensures GetProfile(c, data.userId, lookupOk).None? && r.result.Success? ==>
      r.docs == c + [NewDocument(data, freshId, now)] && r.result.value == NewDocument(data, freshId, now)
    ensures WellFormed(c) ==> WellFormed(r.docs)
  {
    var existing := GetProfile(c, data.userId, lookupOk);
    if existing.Some? then
      // the second listing sees the same documents, so it is non-empty
      if !listOk || !writeOk then Written(c, Failure(thrown))
      else
        var i := FirstOf(c, data.userId).value;
        var updated := Overwrite(c[i], data, now);
        assert c[i := updated][i] == updated;
        Written(c[i := updated], Success(updated))
    else if !writeOk || Locate(c, freshId).Some? then Written(c, Failure(thrown))
    else
      var created := NewDocument(data, freshId, now);
      Written(c + [created], Success(created))
  }

  /** `createProfile(data)`: a fresh `$id` and `title: ""` whatever the caller
      passed; a failure is logged and yields `undefined`. */
  function CreateProfile(c: Collection, data: Profile, freshId: string, now: string, ok: bool): (r: (Collection, Option<Profile>))
    ensures r.1.Some? <==> ok && Locate(c, freshId).None?
    ensures r.1.None? ==> r.0 == c
    ensures r.1.Some? ==>
      && r.0 == c + [r.1.value]
      && r.1.value.id == Some(freshId) && r.1.value.title == ""
      && r.1.value.userId == data.userId && r.1.value.name == data.name && r.1.value.email == data.email
    ensures WellFormed(c) ==> WellFormed(r.0)
  {
    if !ok || Locate(c, freshId).Some? then (c, None)
    else
      var created := NewDocument(data.(title := ""), freshId, now);
      (c + [created], Some(created))
  }

  /** `deleteProfile(userId)`: the argument is passed as the document id. A
      missing document or a failure is logged and yields `undefined`. */
  function DeleteProfile(c: Collection, docId: string, ok: bool): (r: (Collection, Option<()>))
    ensures r.1.Some? <==> ok && Locate(c, docId).Some?
    ensures r.1.None? ==> r.0 == c
    ensures r.1.Some? ==> |r.0| == |c| - 1
    ensures r.1.Some? && WellFormed(c) ==> forall p :: p in r.0 <==> p in c && p.id != Some(docId)
  {
    if !ok then (c, None)
    else match Locate(c, docId)
      case None => (c, None)
      case Some(i) =>
        var rest := c[..i] + c[i + 1..];
        assert forall p :: p in rest ==> p in c;
        (rest, Some(()))
  }

  lemma {:induction false} CountOfAppend(c: Collection, p: Profile, userId: string)
    ensures CountOf(c + [p], userId) == CountOf(c, userId) + (if p.userId == userId then 1 else 0)
    decreases |c|
  {
    if |c| > 0 {
      assert (c + [p])[1..] == c[1..] + [p];
      CountOfAppend(c[1..], p, userId);
    }
  }

  lemma {:induction false} CountOfReplace(c: Collection, i: nat, p: Profile, userId: string)
    requires i < |c| && c[i].userId == p.userId
    ensures CountOf(c[i := p], userId) == CountOf(c, userId)
    decreases |c|
  {
    if i > 0 {
      assert c[i := p][1..] == c[1..][i - 1 := p];
      CountOfReplace(c[1..], i - 1, p, userId);
    }
  }

  /** A profile that exists and is found stays the only write target: the
      owner's profile count does not change. With none, the count goes from 0
      to 1. Either way the profile can be read back afterwards. */
  lemma CreateOrUpdateKeepsOneProfile(c: Collection, data: Profile, freshId: string, now: string, thrown: string)
    ensures var r := CreateOrUpdateProfile(c, data, freshId, now, true, true, true, thrown);
            r.result.Success? ==>
              && CountOf(r.docs, data.userId) == (if CountOf(c, data.userId) == 0 then 1 else CountOf(c, data.userId))
              && GetProfile(r.docs, data.userId, true).Some?
  {
    var r := CreateOrUpdateProfile(c, data, freshId, now, true, true, true, thrown);
    if r.result.Success? {
      if FirstOf(c, data.userId).Some? {
        var i := FirstOf(c, data.userId).value;
        CountOfReplace(c, i, Overwrite(c[i], data, now), data.userId);
        assert r.docs[i].userId == data.userId;
      } else {
        CountOfAppend(c, NewDocument(data, freshId, now), data.userId);
        assert r.docs[|c|].userId == data.userId;
      }
    }
  }

  /** The lookup swallows its own failure: when it fails while the user
      already has a profile, the call creates a second one. */
  lemma FailedLookupDuplicatesProfile(c: Collection, data: Profile, freshId: string, now: string, thrown: string)
    requires CountOf(c, data.userId) == 1
    requires Locate(c, freshId).None?
    ensures var r := CreateOrUpdateProfile(c, data, freshId, now, false, true, true, thrown);
            r.result.Success? && CountOf(r.docs, data.userId) == 2
  {
    CountOfAppend(c, NewDocument(data, freshId, now), data.userId);
  }

  /** `deleteProfile` is called with a user id but deletes by document id: a
      user whose id is no document's id keeps the profile. */
  lemma DeleteByUserIdKeepsProfile(c: Collection, userId: string, ok: bool)
    requires FirstOf(c, userId).Some?
    requires Locate(c, userId).None?
    ensures DeleteProfile(c, userId, ok).0 == c
    ensures GetProfile(DeleteProfile(c, userId, ok).0, userId, true).Some?
  {
  }
}

=== FILE: profile_slice.dfy ===
/** The `profile` slice: the current user's profile and the status of the
    last profile write. */
module ProfileSlice {
  import opened Wrappers
  import opened ProfileService

  /** `status` is one of `"idle"`, `"loading"`, `"success"`, `"failed"`. */
  datatype ProfileState = ProfileState(profile: Option<Profile>, status: string, error: Option<string>)

  datatype ProfileAction =
    | ProfileStart
    | ProfileSuccess(profile: Profile)
    | ProfileFailure(message: string)

  const Initial: ProfileState := ProfileState(None, "idle", None)

  const Statuses: set<string> := {"idle", "loading", "success", "failed"}

  /** The error is set exactly in the failed state. */
  predicate Consistent(s: ProfileState) {
    s.status in Statuses && (s.status == "failed" <==> s.error.Some?)
  }

  /** The slice reducer. */
  function Reduce(s: ProfileState, a: ProfileAction): (r: ProfileState)
    ensures Consistent(r)
    ensures a.ProfileStart? ==> r.status == "loading" && r.profile == s.profile
    ensures a.ProfileSuccess? ==> r.status == "success" && r.profile == Some(a.profile)
    ensures a.ProfileFailure? ==> r.status == "failed" && r.error == Some(a.message) && r.profile == s.profile
  {
    match a
    case ProfileStart => s.(status := "loading", error := None)
    case ProfileSuccess(p) => s.(status := "success", profile := Some(p), error := None)
    case ProfileFailure(m) => s.(status := "failed", error := Some(m))
  }

  /** The state after dispatching `actions` in order. */
  function ReduceAll(s: ProfileState, actions: seq<ProfileAction>): ProfileState
    decreases |actions|
  {
    if |actions| == 0 then s else ReduceAll(Reduce(s, actions[0]), actions[1..])
  }

  /** The payload of the last `profileSuccess` among `actions`. */
  function LastSuccess(actions: seq<ProfileAction>): Option<Profile>
    decreases |actions|
  {
    if |actions| == 0 then None
    else if actions[|actions| - 1].ProfileSuccess? then Some(actions[|actions| - 1].profile)
    else LastSuccess(actions[..|actions| - 1])
  }

  lemma {:induction false} ReduceAllSnoc(s: ProfileState, actions: seq<ProfileAction>, a: ProfileAction)
    ensures ReduceAll(s, actions + [a]) == Reduce(ReduceAll(s, actions), a)
    decreases |actions|
  {
    if |actions| > 0 {
      assert (actions + [a])[1..] == actions[1..] + [a];
      ReduceAllSnoc(Reduce(s, actions[0]), actions[1..], a);
    }
  }

  /** Every reachable state is consistent: an error is present exactly when
      the status is `"failed"`. */
  lemma {:induction false} ReachableConsistent(actions: seq<ProfileAction>)
    ensures Consistent(ReduceAll(Initial, actions))
  {
    if |actions| > 0 {
      var prefix := actions[..|actions| - 1];
      assert actions == prefix + [actions[|actions| - 1]];
      ReduceAllSnoc(Initial, prefix, actions[|actions| - 1]);
    }
  }

  /** The stored profile is the payload of the last `profileSuccess`, or the
      starting one when there was none: start and failure never touch it. */
  lemma {:induction false} ProfileIsLastSuccess(s: ProfileState, actions: seq<ProfileAction>)
    ensures ReduceAll(s, actions).profile == if LastSuccess(actions).Some? then LastSuccess(actions) else s.profile
    decreases |actions|
  {
    if |actions| > 0 {
      var prefix := actions[..|actions| - 1];
      assert actions == prefix + [actions[|actions| - 1]];
      ReduceAllSnoc(s, prefix, actions[|actions| - 1]);
      ProfileIsLastSuccess(s, prefix);
    }
  }
}

=== FILE: profile_update.dfy ===
/** The profile form: field validation, including the email pattern, and
    `onSubmit`, which assembles the record, writes it through
    `createOrUpdateProfile` and reports to the `profile` slice. */
module ProfileUpdatePage {
  import opened Wrappers
  import opened Text
  import opened ProfileService
  import opened ProfileSlice

  // ---- The email pattern `/^[A-Z0-9._%+-]+@[A-Z0-9.-]+\.[A-Z]{2,}$/i` ----

  predicate IsLocalChar(c: char) { IsLetter(c) || IsDigit(c) || c == '.' || c == '_' || c == '%' || c == '+' || c == '-' }

  predicate IsDomainChar(c: char) { IsLetter(c) || IsDigit(c) || c == '.' || c == '-' }

  predicate AllLocal(s: string) { forall k :: 0 <= k < |s| ==> IsLocalChar(s[k]) }

  predicate AllDomain(s: string) { forall k :: 0 <= k < |s| ==> IsDomainChar(s[k]) }

  predicate AllLetters(s: string) { forall k :: 0 <= k < |s| ==> IsLetter(s[k]) }

  /** The regular expression read structurally: a non-empty local part, `@`,
      a non-empty domain part, `.`, and two or more letters, where `i` is the
      position of the `@` and `j` that of the `.`. */
  ghost predicate MatchesAt(s: string, i: int, j: int) {
    && 0 < i && i + 1 < j && j + 3 <= |s|
    && s[i] == '@' && s[j] == '.'
    && AllLocal(s[..i]) && AllDomain(s[i + 1..j]) && AllLetters(s[j + 1..])
  }

  ghost predicate MatchesPattern(s: string) {
    exists i, j :: MatchesAt(s, i, j)
  }

  function FirstIndex(s: string, c: char): (r: Option<nat>)
    ensures r.Some? ==> r.value < |s| && s[r.value] == c && forall k :: 0 <= k < r.value ==> s[k] != c
    ensures r.None? ==> forall k :: 0 <= k < |s| ==> s[k] != c
    decreases |s|
  {
    if |s| == 0 then None
    else if s[0] == c then Some(0)
    else match FirstIndex(s[1..], c)
      case None => None
      case Some(k) => Some(k + 1)
  }

  function LastIndex(s: string, c: char): (r: Option<nat>)
    ensures r.Some? ==> r.value < |s| && s[r.value] == c && forall k :: r.value < k < |s| ==> s[k] != c
    ensures r.None? ==> forall k :: 0 <= k < |s| ==> s[k] != c
    decreases |s|
  {
    if |s| == 0 then None
    else if s[|s| - 1] == c then Some(|s| - 1)
    else LastIndex(s[..|s| - 1], c)
  }

  /** The pattern test: since neither part before the final `.` may hold an
      `@` and the letters after it hold no `.`, the `@` is the first one and
      the `.` is the last one. */
  function EmailMatches(s: string): (b: bool)
    ensures b <==> MatchesPattern(s)
  {
    match (FirstIndex(s, '@'), LastIndex(s, '.'))
    case (Some(i), Some(j)) =>
      MatchAtFirstAndLast(s, i, j);
      0 < i && i + 1 < j && j + 3 <= |s| && AllLocal(s[..i]) && AllDomain(s[i + 1..j]) && AllLetters(s[j + 1..])
    case _ =>
      NoMatchWithout(s);
      false
  }

  /** A match puts its `@` at the first `@` and its `.` at the last `.`. */
  lemma MatchIsAtFirstAndLast(s: string, i: int, j: int)
    requires MatchesAt(s, i, j)
    ensures FirstIndex(s, '@') == Some(i)
    ensures LastIndex(s, '.') == Some(j)
  {
    forall k | 0 <= k < i ensures s[k] != '@' {
      assert s[..i][k] == s[k];
    }
    forall k | j < k < |s| ensures s[k] != '.' {
      assert s[j + 1..][k - j - 1] == s[k];
    }
    var f := FirstIndex(s, '@').value;
    var l := LastIndex(s, '.').value;
    assert f <= i && l >= j;
  }

  /** The pattern matches exactly when it matches at the first `@` and the last `.`. */
  lemma MatchAtFirstAndLast(s: string, i: int, j: int)
    requires FirstIndex(s, '@') == Some(i) && LastIndex(s, '.') == Some(j)
    ensures MatchesPattern(s) <==> MatchesAt(s, i, j)
  {
    if MatchesPattern(s) {
      var i', j' :| MatchesAt(s, i', j');
      MatchIsAtFirstAndLast(s, i', j');
    }
  }

  lemma NoMatchWithout(s: string)
    requires FirstIndex(s, '@').None? || LastIndex(s, '.').None?
    ensures !MatchesPattern(s)
  {
  }

  /** Every accepted address has exactly one `@`, and after its final `.`
      come two or more letters and nothing else. */
  lemma AcceptedEmailShape(s: string)
    requires EmailMatches(s)
    ensures FirstIndex(s, '@').Some?
    ensures forall k :: 0 <= k < |s| && s[k] == '@' ==> k == FirstIndex(s, '@').value
    ensures LastIndex(s, '.').Some?
    ensures var j := LastIndex(s, '.').value; |s| - j - 1 >= 2 && AllLetters(s[j + 1..])
  {
    assert MatchesPattern(s);
    var i, j :| MatchesAt(s, i, j);
    MatchIsAtFirstAndLast(s, i, j);
    SingleAt(s, i, j);
  }

  /** A match at `i` and `j` has no `@` other than the one at `i`. */
  lemma SingleAt(s: string, i: int, j: int)
    requires MatchesAt(s, i, j)
    ensures forall k :: 0 <= k < |s| && s[k] == '@' ==> k == i
  {
    forall k | 0 <= k < i ensures s[k] != '@' {
      assert s[..i][k] == s[k];
    }
    forall k | i < k < |s| ensures s[k] != '@' {
      if k < j {
        assert s[i + 1..j][k - i - 1] == s[k];
      } else if k > j {
        assert s[j + 1..][k - j - 1] == s[k];
      }
    }
  }

  // ---- Field validation (react-hook-form) ----

  /** The errors shown under the fields; the form submits only with none.
      `required` rejects exactly the empty string. */
  datatype FormErrors = FormErrors(name: Option<string>, email: Option<string>)

  function Validate(name: string, email: string): (r: FormErrors)
    ensures r.name.Some? <==> name == ""
    ensures r.email == if email == "" then Some("Email is required")
                       else if !MatchesPattern(email) then Some("Invalid email address")
                       else None
  {
    FormErrors(
      if name == "" then Some("Name is required") else None,
      if email == "" then Some("Email is required")
      else if !EmailMatches(email) then Some("Invalid email address")
      else None)
  }

  // ---- onSubmit ----

  /** The submitted fields; `avatarChosen` says whether a file was picked. */
  datatype FormData = FormData(name: string, email: string, bio: string, avatarChosen: bool)

  /** The avatar id of the saved record: the uploaded file's id when a file
      was chosen (`upload` is the result of `createAvatar`, `None` when it
      failed), else the current profile's avatar, else `""`. */
  function AvatarId(avatarChosen: bool, upload: Option<string>, profile: Option<Profile>): (r: Result<string, string>)
    ensures avatarChosen && upload.None? <==> r.Failure?
    ensures r.Failure? ==> r.error == "Avatar not created"
    ensures avatarChosen && upload.Some? ==> r == Success(upload.value)
    ensures !avatarChosen && profile.Some? && profile.value.avatar.Some? ==> r == Success(profile.value.avatar.value)
    ensures !avatarChosen && (profile.None? || profile.value.avatar.None?) ==> r == Success("")
  {
    if avatarChosen then
      match upload
      case None => Failure("Avatar not created")
      case Some(id) => Success(id)
    // an existing empty avatar and no avatar both leave `""`
    else if profile.Some? && profile.value.avatar.Some? then Success(profile.value.avatar.value)
    else Success("")
  }

  /** `profile?.$id || ID.unique()` */
  function RecordId(profile: Option<Profile>, formId: string): (r: string)
    ensures profile.Some? && profile.value.id.Some? && profile.value.id.value != "" ==> r == profile.value.id.value
    ensures profile.None? || profile.value.id.None? || profile.value.id.value == "" ==> r == formId
  {
    if profile.Some? && profile.value.id.Some? && profile.value.id.value != "" then profile.value.id.value else formId
  }

  /** The record `onSubmit` saves and reports. */
  function ProfileData(userId: string, form: FormData, avatarId: string, profile: Option<Profile>, formId: string): (r: Profile)
    ensures r.userId == userId && r.name == form.name && r.email == form.email
    ensures r.bio == Some(form.bio) && r.avatar == Some(avatarId)
    ensures r.id == Some(RecordId(profile, formId))
    ensures r.title == form.name + "'s Profile"
    ensures r.createdAt.None? && r.updatedAt.None?
  {
    Profile(userId, form.name, form.email, Some(form.bio), Some(avatarId),
            Some(RecordId(profile, formId)), None, None, form.name + "'s Profile")
  }

  /** The remote side of one submission: the collection, the fresh ids and
      time, and the success of each call (see `ProfileService`). */
  datatype Backend = Backend(docs: Collection, freshId: string, now: string,
                             lookupOk: bool, listOk: bool, writeOk: bool, thrown: string)

  /** What a submission did: the actions dispatched to the `profile` slice in
      order, the collection afterwards, and whether it navigated to `/profile`. */
  datatype Submitted = Submitted(actions: seq<ProfileAction>, docs: Collection, navigated: bool)

  /** `onSubmit(data)`: `userId` is `user.$id`, `None` with nobody logged in;
      `profile` is the slice's current profile. */
  function OnSubmit(userId: Option<string>, form: FormData, profile: Option<Profile>, upload: Option<string>,
                    formId: string, b: Backend): (r: Submitted)
    ensures userId.None? ==> r == Submitted([ProfileFailure("User not found")], b.docs, false)
    ensures userId.Some? ==> |r.actions| == 2 && r.actions[0] == ProfileStart
    ensures r.navigated <==> |r.actions| == 2 && r.actions[1].ProfileSuccess?
    ensures !r.navigated ==> r.docs == b.docs
    ensures userId.Some? && form.avatarChosen && upload.None? ==>
      r == Submitted([ProfileStart, ProfileFailure("Avatar not created")], b.docs, false)
    ensures r.navigated ==>
      var avatar := AvatarId(form.avatarChosen, upload, profile);
      && avatar.Success?
      && r.actions[1] == ProfileSuccess(ProfileData(userId.value, form, avatar.value, profile, formId))
      && r.docs == CreateOrUpdateProfile(b.docs, r.actions[1].profile, b.freshId, b.now,
                                         b.lookupOk, b.listOk, b.writeOk, b.thrown).docs
    ensures userId.Some? && AvatarId(form.avatarChosen, upload, profile).Success? ==>
      var data := ProfileData(userId.value, form, AvatarId(form.avatarChosen, upload, profile).value, profile, formId);
      var saved := CreateOrUpdateProfile(b.docs, data, b.freshId, b.now, b.lookupOk, b.listOk, b.writeOk, b.thrown);
      && (r.navigated <==> saved.result.Success?)
      && (saved.result.Failure? ==> r.actions[1] == ProfileFailure(b.thrown))
  {
    if userId.None? then Submitted([ProfileFailure("User not found")], b.docs, false)
    else match AvatarId(form.avatarChosen, upload, profile)
      case Failure(message) => Submitted([ProfileStart, ProfileFailure(message)], b.docs, false)
      case Success(avatarId) =>
        var data := ProfileData(userId.value, form, avatarId, profile, formId);
        var saved := CreateOrUpdateProfile(b.docs, data, b.freshId, b.now, b.lookupOk, b.listOk, b.writeOk, b.thrown);
        match saved.result
        // a thrown SDK error is an `Error`, so its own message is reported
        case Failure(message) => Submitted([ProfileStart, ProfileFailure(message)], b.docs, false)
        // the gateway returns the written document, which is never falsy
        case Success(_) => Submitted([ProfileStart, ProfileSuccess(data)], saved.docs, true)
  }

  /** A submission leaves the slice consistent and, when it saved, holding the
      record it saved; when it did not, the profile the slice had. */
  lemma SubmitSettlesSlice(state: ProfileState, userId: Option<string>, form: FormData, profile: Option<Profile>,
                           upload: Option<string>, formId: string, b: Backend)
    ensures var r := OnSubmit(userId, form, profile, upload, formId, b);
            var after := ReduceAll(state, r.actions);
            && Consistent(after)
            && (r.navigated ==> after.status == "success" && after.profile == Some(r.actions[1].profile))
            && (!r.navigated ==> after.status == "failed" && after.profile == state.profile)
  {
    var r := OnSubmit(userId, form, profile, upload, formId, b);
    ProfileIsLastSuccess(state, r.actions);
    if |r.actions| == 2 {
      assert r.actions == [r.actions[0]] + [r.actions[1]];
      ReduceAllSnoc(state, [r.actions[0]], r.actions[1]);
      ReduceAllSnoc(state, [], r.actions[0]);
    } else {
      ReduceAllSnoc(state, [], r.actions[0]);
    }
  }

  /** A first save creates the document under the store's own fresh id, not
      under the `$id` of the submitted record, yet the slice keeps the
      submitted record: its `$id` names no stored document. */
  lemma FirstSaveReportsUnstoredId(userId: string, form: FormData, upload: Option<string>, formId: string, b: Backend)
    requires FirstOf(b.docs, userId).None?
    requires WellFormed(b.docs) && Locate(b.docs, b.freshId).None? && Locate(b.docs, formId).None?
    requires formId != b.freshId
    requires b.writeOk
    requires !form.avatarChosen || upload.Some?
    ensures var r := OnSubmit(Some(userId), form, None, upload, formId, b);
            && r.navigated
            && r.actions[1].profile.id == Some(formId)
            && Locate(r.docs, formId).None?
  {
    var avatarId := AvatarId(form.avatarChosen, upload, None).value;
    var data := ProfileData(userId, form, avatarId, None, formId);
    assert GetProfile(b.docs, data.userId, b.lookupOk).None?;
    var saved := CreateOrUpdateProfile(b.docs, data, b.freshId, b.now, b.lookupOk, b.listOk, b.writeOk, b.thrown);
    assert saved.result.Success? && saved.docs == b.docs + [NewDocument(data, b.freshId, b.now)];
    SavedSubmission(userId, form, None, upload, formId, b);
    var r := OnSubmit(Some(userId), form, None, upload, formId, b);
    assert r.docs == b.docs + [NewDocument(data, b.freshId, b.now)];
    AppendedElsewhere(b.docs, NewDocument(data, b.freshId, b.now), formId);
  }

  /** Appending a document under another id leaves `id` unlocated. */
  lemma AppendedElsewhere(c: Collection, d: Profile, id: string)
    requires Locate(c, id).None? && d.id != Some(id)
    ensures Locate(c + [d], id).None?
  {
    assert forall j :: 0 <= j < |c + [d]| ==> (c + [d])[j] == if j < |c| then c[j] else d;
  }

  /** A submission whose avatar step and write both succeed reports and
      stores exactly the record it built. */
  lemma SavedSubmission(userId: string, form: FormData, profile: Option<Profile>, upload: Option<string>,
                        formId: string, b: Backend)
    requires AvatarId(form.avatarChosen, upload, profile).Success?
    requires var data := ProfileData(userId, form, AvatarId(form.avatarChosen, upload, profile).value, profile, formId);
             CreateOrUpdateProfile(b.docs, data, b.freshId, b.now, b.lookupOk, b.listOk, b.writeOk, b.thrown).result.Success?
    ensures var data := ProfileData(userId, form, AvatarId(form.avatarChosen, upload, profile).value, profile, formId);
            OnSubmit(Some(userId), form, profile, upload, formId, b)
              == Submitted([ProfileStart, ProfileSuccess(data)],
                           CreateOrUpdateProfile(b.docs, data, b.freshId, b.now, b.lookupOk, b.listOk, b.writeOk, b.thrown).docs,
                           true)
  {
  }
}

=== FILE: slug.dfy ===
/** The article slug: `slugTransform`, one function shared by the article
    editor and the article search box.

    The source pipeline is: lower-case; delete every character that is not a
    word character, whitespace or `-`; turn every run of whitespace into one
    `-`; turn every run of `-` into one `-`; delete leading and trailing `-`;
    keep the first 60 characters. Each step is one function below. */
module Slug {
  import opened Text

  const MaxSlugLength: nat := 60

  /** What a slug may contain: ASCII lower-case letters, digits, `_` and `-`. */
  predicate IsSlugChar(c: char) { IsLower(c) || IsDigit(c) || c == '_' || c == '-' }

  predicate NoDoubleHyphen(s: string) {
    forall i :: 0 <= i < |s| - 1 ==> !(s[i] == '-' && s[i + 1] == '-')
  }

  /** A string every step of the pipeline leaves as it is (up to the length cut). */
  predicate Canonical(s: string) {
    && (forall i :: 0 <= i < |s| ==> IsSlugChar(s[i]))
    && NoDoubleHyphen(s)
    && (|s| > 0 ==> s[0] != '-' && s[|s| - 1] != '-')
  }

  /** What `[^\w\s-]` does not match: the characters the first replacement keeps. */
  predicate Kept(c: char) { IsWordChar(c) || IsSpace(c) || c == '-' }

  /** `.replace(/[^\w\s-]/g, '')`: every kept character stays, as often as
      it occurs, and nothing else does. */
  function StripSpecial(s: string): (r: string)
    ensures |r| <= |s|
    ensures forall c :: c in r ==> c in s && Kept(c)
    decreases |s|
  {
    if |s| == 0 then ""
    else
      var rest := StripSpecial(s[1..]);
      if Kept(s[0]) then [s[0]] + rest else rest
  }

  /** Nothing the pattern spares is lost: every kept character occurs in
      the result as often as in the input. */
  lemma {:induction false} StripKeepsCounts(s: string)
    ensures forall c :: Kept(c) ==> multiset(StripSpecial(s))[c] == multiset(s)[c]
    decreases |s|
  {
    if |s| > 0 {
      StripKeepsCounts(s[1..]);
      assert s == [s[0]] + s[1..];
    }
  }

  /** The removal works character by character, so it keeps the order of
      what it keeps: it maps a concatenation to the concatenation of the
      results. */
  lemma {:induction false} StripDistributes(a: string, b: string)
    ensures StripSpecial(a + b) == StripSpecial(a) + StripSpecial(b)
    decreases |a|
  {
    if a != [] {
      assert (a + b)[0] == a[0] && (a + b)[1..] == a[1..] + b;
      StripDistributes(a[1..], b);
      var head := if Kept(a[0]) then [a[0]] else [];
      assert StripSpecial(a + b) == head + StripSpecial(a[1..] + b);
      assert StripSpecial(a) == head + StripSpecial(a[1..]);
      assert head + (StripSpecial(a[1..]) + StripSpecial(b)) == (head + StripSpecial(a[1..])) + StripSpecial(b);
    } else {
      assert a + b == b;
    }
  }

  /** One character is kept exactly when the pattern does not match it. */
  lemma {:induction false} StripOne(c: char)
    ensures StripSpecial([c]) == if Kept(c) then [c] else []
  {
    assert [c][1..] == [];
  }

  /** `.replace(/\s+/g, '-')`: every maximal run of whitespace becomes one `-`. */
  function Hyphenate(s: string): (r: string)
    ensures |r| <= |s|
    ensures forall c :: c in r ==> c == '-' || (c in s && !IsSpace(c))
  {
    HyphenateChars(s, false);
    HyphenateFrom(s, false)
  }

  /** The hyphenation scan, started inside (`inRun`) or outside a whitespace
      run: the first whitespace character of a run emits the `-`, the rest
      of the run emits nothing. */
  function HyphenateFrom(s: string, inRun: bool): (r: string)
    ensures |r| <= |s|
    decreases |s|
  {
    if s == [] then []
    else if IsSpace(s[0]) then (if inRun then [] else "-") + HyphenateFrom(s[1..], true)
    else [s[0]] + HyphenateFrom(s[1..], false)
  }

  /** Whether the scan is inside a whitespace run after reading `s`. */
  function InSpaceRun(s: string, inRun: bool): bool {
    if s == [] then inRun else IsSpace(s[|s| - 1])
  }

  /** What hyphenation emits: `-`, or a non-space character of the input. */
  lemma {:induction false} HyphenateChars(s: string, inRun: bool)
    ensures forall c :: c in HyphenateFrom(s, inRun) ==> c == '-' || (c in s && !IsSpace(c))
    decreases |s|
  {
    if s != [] {
      HyphenateChars(s[1..], IsSpace(s[0]));
      assert forall c :: c in s[1..] ==> c in s;
    }
  }

  /** The scan reads a concatenation piece by piece, carrying only whether
      it is inside a run. */
  lemma {:induction false} HyphenateAppend(a: string, b: string, inRun: bool)
    ensures HyphenateFrom(a + b, inRun) == HyphenateFrom(a, inRun) + HyphenateFrom(b, InSpaceRun(a, inRun))
    decreases |a|
  {
    if a == [] {
      assert a + b == b;
    } else {
      assert (a + b)[0] == a[0] && (a + b)[1..] == a[1..] + b;
      HyphenateAppend(a[1..], b, IsSpace(a[0]));
      assert InSpaceRun(a[1..], IsSpace(a[0])) == InSpaceRun(a, inRun);
    }
  }

  /** A whitespace run emits one `-` from outside a run and nothing from inside. */
  lemma {:induction false} HyphenateSpaces(w: string, inRun: bool)
    requires forall i :: 0 <= i < |w| ==> IsSpace(w[i])
    ensures HyphenateFrom(w, inRun) == if w == [] || inRun then [] else "-"
    decreases |w|
  {
    if w != [] {
      HyphenateSpaces(w[1..], true);
    }
  }

  /** Text that does not start with whitespace hyphenates alike from inside
      and outside a run. */
  lemma HyphenateAfterRun(b: string)
    requires |b| > 0 ==> !IsSpace(b[0])
    ensures HyphenateFrom(b, true) == HyphenateFrom(b, false)
  {
  }

  /** A whole run of whitespace between two non-spaces becomes exactly one
      `-`, and the text on either side is hyphenated on its own. */
  lemma HyphenateRun(a: string, w: string, b: string)
    requires |a| > 0 ==> !IsSpace(a[|a| - 1])
    requires |w| > 0 && forall i :: 0 <= i < |w| ==> IsSpace(w[i])
    requires |b| > 0 ==> !IsSpace(b[0])
    ensures Hyphenate(a + w + b) == Hyphenate(a) + "-" + Hyphenate(b)
  {
    HyphenateAppend(a + w, b, false);
    HyphenateAppend(a, w, false);
    HyphenateSpaces(w, false);
    HyphenateAfterRun(b);
  }

  /** The suffix of `s` after its leading hyphens. */
  function SkipHyphens(s: string): (r: string)
    ensures |r| <= |s| && r == s[|s| - |r|..]
    ensures |r| > 0 ==> r[0] != '-'
    ensures forall i :: 0 <= i < |s| - |r| ==> s[i] == '-'
    decreases |s|
  {
    if |s| > 0 && s[0] == '-' then SkipHyphens(s[1..]) else s
  }

  /** The prefix of `s` before its trailing hyphens. */
  function DropTrailingHyphens(s: string): (r: string)
    ensures |r| <= |s| && r == s[..|r|]
    ensures |r| > 0 ==> r[|r| - 1] != '-'
    ensures forall i :: |r| <= i < |s| ==> s[i] == '-'
    decreases |s|
  {
    if |s| > 0 && s[|s| - 1] == '-' then DropTrailingHyphens(s[..|s| - 1]) else s
  }

  /** `.replace(/--+/g, '-')`: every run of two or more `-` becomes one `-`,
      and a lone `-` stays, so every run of `-` ends up as one `-`. */
  function Collapse(s: string): (r: string)
    ensures |r| <= |s|
    ensures NoDoubleHyphen(r)
    ensures |s| > 0 ==> |r| > 0 && r[0] == s[0]
    ensures forall c :: c in r ==> c in s
  {
    CollapseChars(s, false);
    CollapseFrom(s, false)
  }

  /** The collapsing scan, started inside (`inRun`) or outside a run of `-`:
      the first `-` of a run is kept, the rest of the run is dropped. */
  function CollapseFrom(s: string, inRun: bool): (r: string)
    ensures |r| <= |s|
    ensures NoDoubleHyphen(r)
    ensures inRun && |r| > 0 ==> r[0] != '-'
    ensures !inRun && |s| > 0 ==> |r| > 0 && r[0] == s[0]
    decreases |s|
  {
    if s == [] then []
    else if s[0] == '-' then
      var rest := CollapseFrom(s[1..], true);
      if inRun then rest else "-" + rest
    else
      [s[0]] + CollapseFrom(s[1..], false)
  }

  /** Whether the scan is inside a run of `-` after reading `s`. */
  function InHyphenRun(s: string, inRun: bool): bool {
    if s == [] then inRun else s[|s| - 1] == '-'
  }

  /** Collapsing only drops characters. */
  lemma {:induction false} CollapseChars(s: string, inRun: bool)
    ensures forall c :: c in CollapseFrom(s, inRun) ==> c in s
    decreases |s|
  {
    if s != [] {
      CollapseChars(s[1..], s[0] == '-');
      assert forall c :: c in s[1..] ==> c in s;
    }
  }

  /** The scan reads a concatenation piece by piece, carrying only whether
      it is inside a run. */
  lemma {:induction false} CollapseAppend(a: string, b: string, inRun: bool)
    ensures CollapseFrom(a + b, inRun) == CollapseFrom(a, inRun) + CollapseFrom(b, InHyphenRun(a, inRun))
    decreases |a|
  {
    if a == [] {
      assert a + b == b;
    } else {
      assert (a + b)[0] == a[0] && (a + b)[1..] == a[1..] + b;
      CollapseAppend(a[1..], b, a[0] == '-');
      assert InHyphenRun(a[1..], a[0] == '-') == InHyphenRun(a, inRun);
    }
  }

  /** A run of `-` keeps one `-` from outside a run and nothing from inside. */
  lemma {:induction false} CollapseHyphens(h: string, inRun: bool)
    requires forall i :: 0 <= i < |h| ==> h[i] == '-'
    ensures CollapseFrom(h, inRun) == if h == [] || inRun then [] else "-"
    decreases |h|
  {
    if h != [] {
      CollapseHyphens(h[1..], true);
    }
  }

  /** Text that does not start with `-` collapses alike from inside and
      outside a run. */
  lemma CollapseAfterRun(b: string)
    requires |b| > 0 ==> b[0] != '-'
    ensures CollapseFrom(b, true) == CollapseFrom(b, false)
  {
  }

  /** A whole run of `-` between two other characters becomes exactly one
      `-`, and the text on either side is collapsed on its own. */
  lemma CollapseRun(a: string, h: string, b: string)
    requires |a| > 0 ==> a[|a| - 1] != '-'
    requires |h| > 0 && forall i :: 0 <= i < |h| ==> h[i] == '-'
    requires |b| > 0 ==> b[0] != '-'
    ensures Collapse(a + h + b) == Collapse(a) + "-" + Collapse(b)
  {
    CollapseAppend(a + h, b, false);
    CollapseAppend(a, h, false);
    CollapseHyphens(h, false);
    CollapseAfterRun(b);
  }

  /** `.replace(/^-+|-+$/g, '')`: the result is `s` without its leading and
      its trailing run of `-`: everything cut off is `-`, and what remains
      neither starts nor ends with `-`. */
  function TrimHyphens(s: string): (r: string)
    ensures |r| <= |SkipHyphens(s)| <= |s|
    ensures |r| > 0 ==> r[0] != '-' && r[|r| - 1] != '-'
    ensures var k := |s| - |SkipHyphens(s)|;
            && r == s[k..k + |r|]
            && (forall i :: 0 <= i < k ==> s[i] == '-')
            && (forall i :: k + |r| <= i < |s| ==> s[i] == '-')
  {
    DropTrailingHyphens(SkipHyphens(s))
  }

  /** Trimming leaves nothing exactly when the text is all hyphens. */
  lemma TrimHyphensEmpty(s: string)
    ensures TrimHyphens(s) == "" <==> forall i :: 0 <= i < |s| ==> s[i] == '-'
  {
    var k := |s| - |SkipHyphens(s)|;
    if TrimHyphens(s) != "" {
      assert s[k] == TrimHyphens(s)[0] != '-';
    }
  }

  /** `.substring(0, 60)` */
  function Truncate(s: string): (r: string)
    ensures |r| <= MaxSlugLength && |r| <= |s|
    ensures r == s[..|r|]
    ensures |s| <= MaxSlugLength ==> r == s
    ensures |s| > MaxSlugLength ==> |r| == MaxSlugLength
  {
    if |s| <= MaxSlugLength then s else s[..MaxSlugLength]
  }

  /** `slugTransform(title)`. */
  function SlugTransform(title: string): (r: string)
    ensures title == "" ==> r == ""
    ensures |r| <= MaxSlugLength
    ensures forall i :: 0 <= i < |r| ==> IsSlugChar(r[i])
    ensures NoDoubleHyphen(r)
    ensures |r| > 0 ==> r[0] != '-'
  {
    if title == "" then ""
    else
      var collapsed := Collapse(Hyphenate(StripSpecial(Lower(title))));
      var trimmed := TrimHyphens(collapsed);
      CollapsedIsSlugShaped(title);
      SliceKeepsSlugShape(collapsed, trimmed, |collapsed| - |SkipHyphens(collapsed)|);
      SliceKeepsSlugShape(trimmed, Truncate(trimmed), 0);
      Truncate(trimmed)
  }

  /** After the first four steps only slug characters remain, with no `--`. */
  lemma CollapsedIsSlugShaped(title: string)
    ensures forall c :: c in Collapse(Hyphenate(StripSpecial(Lower(title)))) ==> IsSlugChar(c)
    ensures NoDoubleHyphen(Collapse(Hyphenate(StripSpecial(Lower(title)))))
  {
    var lowered := Lower(title);
    LowerHasNoUpper(title);
    var stripped := StripSpecial(lowered);
    assert forall c :: c in stripped ==> IsSlugChar(c) || IsSpace(c);
    var hyphenated := Hyphenate(stripped);
    assert forall c :: c in hyphenated ==> IsSlugChar(c);
  }

  lemma LowerHasNoUpper(s: string)
    ensures forall c :: c in Lower(s) ==> !IsUpper(c)
  {
    forall c | c in Lower(s) ensures !IsUpper(c) {
      var i :| 0 <= i < |s| && Lower(s)[i] == c;
    }
  }

  /** A slice of a hyphen-collapsed string of slug characters is one too. */
  lemma SliceKeepsSlugShape(s: string, r: string, k: nat)
    requires forall c :: c in s ==> IsSlugChar(c)
    requires NoDoubleHyphen(s)
    requires k + |r| <= |s| && r == s[k..k + |r|]
    ensures forall c :: c in r ==> IsSlugChar(c)
    ensures forall i :: 0 <= i < |r| ==> IsSlugChar(r[i])
    ensures NoDoubleHyphen(r)
  {
    forall i | 0 <= i < |r| ensures IsSlugChar(r[i]) {
      assert r[i] == s[k + i];
    }
    forall i | 0 <= i < |r| - 1 ensures !(r[i] == '-' && r[i + 1] == '-') {
      assert r[i] == s[k + i] && r[i + 1] == s[k + i + 1];
    }
  }

  lemma LowerKeepsNonUpper(s: string)
    requires forall i :: 0 <= i < |s| ==> !IsUpper(s[i])
    ensures Lower(s) == s
  {
  }

  lemma {:induction false} StripKeepsSlugChars(s: string)
    requires forall i :: 0 <= i < |s| ==> IsSlugChar(s[i])
    ensures StripSpecial(s) == s
    decreases |s|
  {
    if |s| > 0 {
      StripKeepsSlugChars(s[1..]);
      assert s == [s[0]] + s[1..];
    }
  }

  lemma {:induction false} HyphenateKeepsSpaceless(s: string)
    requires forall i :: 0 <= i < |s| ==> !IsSpace(s[i])
    ensures HyphenateFrom(s, false) == s
    decreases |s|
  {
    if |s| > 0 {
      HyphenateKeepsSpaceless(s[1..]);
      assert s == [s[0]] + s[1..];
    }
  }

  lemma {:induction false} CollapseKeepsSingleHyphens(s: string, inRun: bool)
    requires NoDoubleHyphen(s)
    requires inRun ==> |s| == 0 || s[0] != '-'
    ensures CollapseFrom(s, inRun) == s
    decreases |s|
  {
    if |s| > 0 {
      assert NoDoubleHyphen(s[1..]) by {
        forall i | 0 <= i < |s[1..]| - 1 ensures !(s[1..][i] == '-' && s[1..][i + 1] == '-') {
          assert s[1..][i] == s[i + 1] && s[1..][i + 1] == s[i + 2];
        }
      }
      CollapseKeepsSingleHyphens(s[1..], s[0] == '-');
      assert s == [s[0]] + s[1..];
    }
  }

  /** A canonical slug comes back from `slugTransform` unchanged, up to the length cut. */
  lemma CanonicalIsFixedPoint(s: string)
    requires Canonical(s)
    ensures SlugTransform(s) == Truncate(s)
  {
    if s != "" {
      FirstStepsKeepCanonical(s);
      assert SkipHyphens(s) == s;
      assert DropTrailingHyphens(s) == s;
    }
  }

  lemma FirstStepsKeepCanonical(s: string)
    requires Canonical(s)
    ensures Collapse(Hyphenate(StripSpecial(Lower(s)))) == s
  {
    forall i | 0 <= i < |s| ensures !IsUpper(s[i]) && !IsSpace(s[i]) {
      SlugCharIsNotSpace(s[i]);
    }
    LowerKeepsNonUpper(s);
    StripKeepsSlugChars(s);
    HyphenateKeepsSpaceless(s);
    CollapseKeepsSingleHyphens(s, false);
  }

  lemma SlugCharIsNotSpace(c: char)
    requires IsSlugChar(c)
    ensures !IsUpper(c) && !IsSpace(c)
  {
  }

  /** A slug that does not end in `-` is a fixed point of `slugTransform`. The
      only slugs that do end in `-` are 60 characters long: the hyphen was
      exposed by the length cut. */
  lemma SlugIdempotent(title: string)
    requires var r := SlugTransform(title); |r| == 0 || r[|r| - 1] != '-'
    ensures SlugTransform(SlugTransform(title)) == SlugTransform(title)
  {
    CanonicalIsFixedPoint(SlugTransform(title));
  }

  lemma ShortSlugEndsWell(title: string)
    ensures var r := SlugTransform(title); |r| < MaxSlugLength && |r| > 0 ==> r[|r| - 1] != '-'
  {
    if title != "" {
      var t := TrimHyphens(Collapse(Hyphenate(StripSpecial(Lower(title)))));
      assert SlugTransform(title) == Truncate(t);
    }
  }
}

=== FILE: stock_data_api.dfy ===
/** The market-data endpoints: the request each time-series query builds, and
    the `transformResponse` functions that turn a decoded JSON response into
    chart points or a news feed. */
module StockDataApi {
  import opened Wrappers

  // ---- Decoded JSON ----

  /** A decoded JSON value as the response handler sees it. `Undefined` is
      what a missing property reads as. An object's fields are listed in its
      own enumeration order, which is the order `Object.entries` reports.
      Numbers are kept as reals: decoded JSON has no NaN. */
  datatype Value =
    | Undefined
    | Null
    | Bool(b: bool)
    | Num(n: real)
    | Str(s: string)
    | Arr(items: seq<Value>)
    | Obj(fields: seq<(string, Value)>)

  /** JavaScript truthiness: `undefined`, `null`, `false`, `0` and `""` are
      falsy; every array and object, even an empty one, is truthy. */
  predicate Truthy(v: Value) {
    match v
    case Undefined => false
    case Null => false
    case Bool(b) => b
    case Num(n) => n != 0.0
    case Str(s) => s != ""
    case Arr(_) => true
    case Obj(_) => true
  }

  /** No key occurs twice among an object's fields. */
  predicate DistinctKeys(fields: seq<(string, Value)>) {
    forall i, j :: 0 <= i < j < |fields| ==> fields[i].0 != fields[j].0
  }

  /** Reading property `key`: the field's value on an object, `undefined`
      when it is absent or `v` is no object. */
  function Get(v: Value, key: string): (r: Value)
    ensures v.Obj? && DistinctKeys(v.fields) ==>
      forall i :: 0 <= i < |v.fields| && v.fields[i].0 == key ==> r == v.fields[i].1
    ensures r != Undefined ==> v.Obj? && exists i :: 0 <= i < |v.fields| && v.fields[i].0 == key
  {
    if v.Obj? then Field(v.fields, key) else Undefined
  }

  function Field(fields: seq<(string, Value)>, key: string): (r: Value)
    ensures DistinctKeys(fields) ==> forall i :: 0 <= i < |fields| && fields[i].0 == key ==> r == fields[i].1
    ensures r != Undefined ==> exists i :: 0 <= i < |fields| && fields[i].0 == key
  {
    if fields == [] then Undefined
    else if fields[0].0 == key then fields[0].1
    else Field(fields[1..], key)
  }

  /** The decimal spelling of an array or string index. */
  function IndexKey(n: nat): (r: string)
    ensures |r| >= 1
    decreases n
  {
    var digit := "0123456789"[n % 10];
    if n < 10 then [digit] else IndexKey(n / 10) + [digit]
  }

  /** `Object.entries` on a truthy value: an object's fields; an array's
      items or a string's characters under their index keys; nothing for a
      number or `true`. */
  function Entries(v: Value): (r: seq<(string, Value)>)
    requires Truthy(v)
    ensures v.Obj? ==> r == v.fields
    ensures v.Arr? ==> |r| == |v.items| && forall i :: 0 <= i < |r| ==> r[i] == (IndexKey(i), v.items[i])
    ensures v.Str? ==> |r| == |v.s| && forall i :: 0 <= i < |r| ==> r[i] == (IndexKey(i), Str([v.s[i]]))
    ensures v.Num? || v.Bool? ==> r == []
  {
    match v
    case Obj(fields) => fields
    case Arr(items) => Indexed(items, 0)
    case Str(s) => Indexed(Chars(s), 0)
    case _ => []
  }

  /** The items under their index keys, counting from `from`. */
  function Indexed(items: seq<Value>, from: nat): (r: seq<(string, Value)>)
    ensures |r| == |items|
    ensures forall i :: 0 <= i < |r| ==> r[i] == (IndexKey(from + i), items[i])
    decreases |items|
  {
    if items == [] then [] else [(IndexKey(from), items[0])] + Indexed(items[1..], from + 1)
  }

  /** A string as the one-character strings that index it. */
  function Chars(s: string): (r: seq<Value>)
    ensures |r| == |s|
    ensures forall i :: 0 <= i < |r| ==> r[i] == Str([s[i]])
  {
    if s == [] then [] else [Str([s[0]])] + Chars(s[1..])
  }

  // ---- Time series ----

  const DailyKey: string := "Time Series (Daily)"
  const WeeklyKey: string := "Weekly Time Series"
  const MonthlyKey: string := "Monthly Time Series"

  /** One chart point. The five readings are the raw values under
      `1. open` … `5. volume`; the float and integer parsing is not part of
      this model. */
  datatype Point = Point(date: string, open: Value, high: Value, low: Value, close: Value, volume: Value)

  /** Whether reading a property of `v` succeeds: it throws on `null` and
      `undefined`, and yields `undefined` for any missing property of
      anything else. */
  predicate Readable(v: Value) {
    !v.Null? && !v.Undefined?
  }

  /** The point for one `[date, values]` entry whose values can be read. */
  function ToPoint(entry: (string, Value)): (p: Point)
    requires Readable(entry.1)
    ensures p.date == entry.0
    ensures p.open == Get(entry.1, "1. open") && p.high == Get(entry.1, "2. high")
    ensures p.low == Get(entry.1, "3. low") && p.close == Get(entry.1, "4. close")
    ensures p.volume == Get(entry.1, "5. volume")
  {
    var values := entry.1;
    Point(entry.0, Get(values, "1. open"), Get(values, "2. high"), Get(values, "3. low"),
          Get(values, "4. close"), Get(values, "5. volume"))
  }

  /** `Array.prototype.reverse`. */
  function Reverse<T>(s: seq<T>): (r: seq<T>)
    ensures |r| == |s|
    ensures forall i :: 0 <= i < |s| ==> r[i] == s[|s| - 1 - i]
  {
    if s == [] then [] else Reverse(s[1..]) + [s[0]]
  }

  /** The series object of a response, when the guard lets it through. */
  function Series(response: Value, key: string): (r: Option<Value>)
    ensures r.Some? <==> Truthy(response) && Truthy(Get(response, key))
    ensures r.Some? ==> r.value == Get(response, key) && Truthy(r.value)
  {
    if !Truthy(response) || !Truthy(Get(response, key)) then None else Some(Get(response, key))
  }

  /** The shared body of the daily, weekly and monthly `transformResponse`.
      `None` is a thrown exception, which ends the query in an error: it
      happens exactly when some entry's values are `null` or `undefined`.
      Otherwise the result is `[]` when the response or its series is
      missing, and one point per entry, in reverse entry order, when it is
      there. */
  function TransformSeries(response: Value, key: string): (r: Option<seq<Point>>)
    ensures Series(response, key).None? ==> r == Some([])
    ensures Series(response, key).Some? ==>
      var entries := Entries(Series(response, key).value);
      && (r.None? <==> exists i :: 0 <= i < |entries| && !Readable(entries[i].1))
      && (r.Some? ==>
            && |r.value| == |entries|
            && forall i :: 0 <= i < |r.value| ==>
                 Readable(entries[|entries| - 1 - i].1) && r.value[i] == ToPoint(entries[|entries| - 1 - i]))
  {
    match Series(response, key)
    case None => Some([])
    case Some(series) =>
      match Points(Entries(series))
      case None => None
      case Some(points) => Some(Reverse(points))
  }

  /** `entries.map(([date, values]) => …)`: one point per entry, or a throw
      when some entry's values cannot be read. */
  function Points(entries: seq<(string, Value)>): (r: Option<seq<Point>>)
    ensures r.Some? <==> forall i :: 0 <= i < |entries| ==> Readable(entries[i].1)
    ensures r.Some? ==>
      && |r.value| == |entries|
      && forall i :: 0 <= i < |entries| ==> Readable(entries[i].1) && r.value[i] == ToPoint(entries[i])
  {
    if entries == [] then Some([])
    else if !Readable(entries[0].1) then None
    else match Points(entries[1..])
      case None => None
      case Some(rest) => Some([ToPoint(entries[0])] + rest)
  }

  function TransformDaily(response: Value): (r: Option<seq<Point>>)
    ensures r == TransformSeries(response, DailyKey)
  {
    TransformSeries(response, DailyKey)
  }

  function TransformWeekly(response: Value): (r: Option<seq<Point>>)
    ensures r == TransformSeries(response, WeeklyKey)
  {
    TransformSeries(response, WeeklyKey)
  }

  function TransformMonthly(response: Value): (r: Option<seq<Point>>)
    ensures r == TransformSeries(response, MonthlyKey)
  {
    TransformSeries(response, MonthlyKey)
  }

  /** Strict lexicographic order on strings, which orders ISO dates by time. */
  predicate Before(a: string, b: string)
    decreases |a|
  {
    if a == [] then b != []
    else if b == [] then false
    else a[0] < b[0] || (a[0] == b[0] && Before(a[1..], b[1..]))
  }

  /** The series arrives newest first; the chart gets it oldest first. */
  lemma NewestFirstBecomesOldestFirst(response: Value, key: string)
    requires Series(response, key).Some? && Series(response, key).value.Obj?
    requires var fields := Series(response, key).value.fields;
             forall i, j :: 0 <= i < j < |fields| ==> Before(fields[j].0, fields[i].0)
    requires TransformSeries(response, key).Some?
    ensures var r := TransformSeries(response, key).value;
            forall i, j :: 0 <= i < j < |r| ==> Before(r[i].date, r[j].date)
  {
    var fields := Series(response, key).value.fields;
    ReversedDatesAscend(TransformSeries(response, key).value, fields);
  }

  lemma ReversedDatesAscend(r: seq<Point>, fields: seq<(string, Value)>)
    requires |r| == |fields|
    requires forall i :: 0 <= i < |r| ==> r[i].date == fields[|fields| - 1 - i].0
    requires forall i, j :: 0 <= i < j < |fields| ==> Before(fields[j].0, fields[i].0)
    ensures forall i, j :: 0 <= i < j < |r| ==> Before(r[i].date, r[j].date)
  {
    forall i, j | 0 <= i < j < |r| ensures Before(r[i].date, r[j].date) {
      var a, b := |fields| - 1 - j, |fields| - 1 - i;
      assert 0 <= a < b < |fields|;
      assert Before(fields[b].0, fields[a].0);
    }
  }

  /** Reversing twice gives back the list. */
  lemma {:induction false} ReverseInvolutive<T>(s: seq<T>)
    ensures Reverse(Reverse(s)) == s
  {
    var r := Reverse(Reverse(s));
    assert |r| == |s|;
    forall i | 0 <= i < |s| ensures r[i] == s[i] {
      assert r[i] == Reverse(s)[|s| - 1 - i];
    }
  }

  /** The chart points list every date of the series exactly once each. */
  lemma SeriesDatesAreKeys(response: Value, key: string)
    requires Series(response, key).Some? && Series(response, key).value.Obj?
    requires TransformSeries(response, key).Some?
    ensures Reverse(Dates(TransformSeries(response, key).value)) == Keys(Series(response, key).value.fields)
  {
  }

  function Dates(points: seq<Point>): (r: seq<string>)
    ensures |r| == |points| && forall i :: 0 <= i < |r| ==> r[i] == points[i].date
  {
    if points == [] then [] else [points[0].date] + Dates(points[1..])
  }

  function Keys(fields: seq<(string, Value)>): (r: seq<string>)
    ensures |r| == |fields| && forall i :: 0 <= i < |r| ==> r[i] == fields[i].0
  {
    if fields == [] then [] else [fields[0].0] + Keys(fields[1..])
  }

  /** A response without the expected key, such as the rate-limit notice the
      service sends instead of data, charts nothing. */
  lemma MissingSeriesChartsNothing(note: string)
    ensures TransformDaily(Obj([("Note", Str(note))])) == Some([])
    ensures TransformWeekly(Obj([("Information", Str(note))])) == Some([])
    ensures TransformMonthly(Null) == Some([])
  {
  }

  /** A series under another endpoint's key is not picked up: each transform
      reads only its own key. */
  lemma TransformsReadOwnKey(series: Value)
    requires Truthy(series)
    ensures TransformDaily(Obj([(WeeklyKey, series)])) == Some([])
    ensures TransformWeekly(Obj([(MonthlyKey, series)])) == Some([])
    ensures TransformMonthly(Obj([(DailyKey, series)])) == Some([])
    ensures TransformDaily(Obj([(DailyKey, series)])).Some? ==>
              |TransformDaily(Obj([(DailyKey, series)])).value| == |Entries(series)|
  {
  }

  /** A dated entry whose values are `null` makes the transform throw
      instead of charting the other dates. */
  lemma NullEntryThrows(date: string, rest: seq<(string, Value)>)
    ensures TransformDaily(Obj([(DailyKey, Obj([(date, Null)] + rest))])).None?
  {
    var entries := [(date, Null)] + rest;
    assert Series(Obj([(DailyKey, Obj(entries))]), DailyKey) == Some(Obj(entries));
    assert !Readable(Entries(Obj(entries))[0].1);
  }

  // ---- News feed ----

  /** `getStockNewsAll`'s `transformResponse`: the `feed` array as is, else
      `[]`. */
  function TransformNewsAll(response: Value): (r: seq<Value>)
    ensures Truthy(response) && Get(response, "feed").Arr? ==> r == Get(response, "feed").items
    ensures !(Truthy(response) && Get(response, "feed").Arr?) ==> r == []
  {
    if !Truthy(response) then []
    else match Get(response, "feed")
      case Arr(items) => items
      case _ => []
  }

  /** A feed that is present but not an array, such as an object, is
      dropped. */
  lemma NonArrayFeedDropped(feed: Value)
    requires !feed.Arr?
    ensures TransformNewsAll(Obj([("feed", feed)])) == []
  {
  }

  // ---- Requests ----

  /** A `URLSearchParams` list: name/value pairs in insertion order. The
      percent-encoding of `toString` is not part of this model. */
  type Params = seq<(string, string)>

  /** `params.get(name)`: the first value under `name`. */
  function Param(ps: Params, name: string): (r: Option<string>)
    ensures r.None? <==> forall i :: 0 <= i < |ps| ==> ps[i].0 != name
    ensures forall i :: 0 <= i < |ps| && ps[i].0 == name && (forall j :: 0 <= j < i ==> ps[j].0 != name) ==>
              r == Some(ps[i].1)
  {
    if ps == [] then None
    else if ps[0].0 == name then Some(ps[0].1)
    else Param(ps[1..], name)
  }

  predicate DistinctNames(ps: Params) {
    forall i, j :: 0 <= i < j < |ps| ==> ps[i].0 != ps[j].0
  }

  /** With distinct names, every pair is what its name looks up. */
  lemma ParamAt(ps: Params, i: nat)
    requires DistinctNames(ps) && i < |ps|
    ensures Param(ps, ps[i].0) == Some(ps[i].1)
  {
  }

  datatype Timeframe = Daily | Weekly | Monthly

  function FunctionName(t: Timeframe): string {
    match t
    case Daily => "TIME_SERIES_DAILY"
    case Weekly => "TIME_SERIES_WEEKLY"
    case Monthly => "TIME_SERIES_MONTHLY"
  }

  /** The query of `getStockDataIntraDay`. */
  function IntradayParams(symbol: string, apiKey: string): (ps: Params)
    ensures |ps| == 6 && DistinctNames(ps)
    ensures Param(ps, "function") == Some("TIME_SERIES_INTRADAY")
    ensures Param(ps, "symbol") == Some(symbol) && Param(ps, "apikey") == Some(apiKey)
    ensures Param(ps, "interval") == Some("5min") && Param(ps, "outputsize") == Some("compact")
    ensures Param(ps, "datatype") == Some("json")
  {
    var ps := [("function", "TIME_SERIES_INTRADAY"), ("symbol", symbol), ("interval", "5min"),
               ("outputsize", "compact"), ("datatype", "json"), ("apikey", apiKey)];
    ParamAt(ps, 0); ParamAt(ps, 1); ParamAt(ps, 2); ParamAt(ps, 3); ParamAt(ps, 4); ParamAt(ps, 5);
    ps
  }

  /** The query of `getStockDataDaily`, `…Weekly` and `…Monthly`: the same
      parameters, with the function naming the series and no interval. */
  function SeriesParams(t: Timeframe, symbol: string, apiKey: string): (ps: Params)
    ensures |ps| == 5 && DistinctNames(ps)
    ensures Param(ps, "function") == Some(FunctionName(t))
    ensures Param(ps, "symbol") == Some(symbol) && Param(ps, "apikey") == Some(apiKey)
    ensures Param(ps, "outputsize") == Some("compact") && Param(ps, "datatype") == Some("json")
    ensures Param(ps, "interval").None?
  {
    var ps := [("function", FunctionName(t)), ("symbol", symbol), ("outputsize", "compact"),
               ("datatype", "json"), ("apikey", apiKey)];
    ParamAt(ps, 0); ParamAt(ps, 1); ParamAt(ps, 2); ParamAt(ps, 3); ParamAt(ps, 4);
    ps
  }

  /** Each timeframe asks for its own series, so the three requests for one
      symbol never coincide. */
  lemma TimeframesAskDistinctSeries(t: Timeframe, u: Timeframe, symbol: string, apiKey: string)
    requires t != u
    ensures SeriesParams(t, symbol, apiKey) != SeriesParams(u, symbol, apiKey)
  {
    assert SeriesParams(t, symbol, apiKey)[0].1 != SeriesParams(u, symbol, apiKey)[0].1;
  }
}

=== FILE: stock_detail.dfy ===
/** The stock detail page's "add to watchlist" handler. It checks the cached
    watchlists for the symbol before issuing `addStock`; this is the only
    duplicate check on any path that adds a stock. */
module StockDetailPage {
  import opened Wrappers
  import opened WatchListService

  /** What `handleAddToWatchlist` does. */
  datatype AddOutcome =
    | Skipped                                      // returns without a call
    | AlreadyInWatchlist                           // alerts, writes nothing
    | Issued(watchListId: string, symbol: string)  // one `addStock` mutation

  predicate NoDuplicates(xs: seq<string>) {
    forall i, j :: 0 <= i < j < |xs| ==> xs[i] != xs[j]
  }

  /** `watchlists.find(wl => wl.$id === watchlistId)` */
  function Find(watchlists: seq<WatchList>, watchListId: string): (r: Option<WatchList>)
    ensures r.Some? ==> r.value in watchlists && r.value.id == watchListId
    ensures r.None? <==> forall w :: w in watchlists ==> w.id != watchListId
  {
    match IndexOf(watchlists, watchListId)
    case Some(i) => Some(watchlists[i])
    case None => None
  }

  /** `handleAddToWatchlist(watchlistId)`. `symbol` is the route parameter
      (`""` when absent), `watchlists` the cached `getWatchLists` data. */
  function HandleAddToWatchlist(symbol: string, overviewLoaded: bool, watchlists: seq<WatchList>, watchListId: string)
    : (r: AddOutcome)
    ensures symbol == "" || !overviewLoaded ==> r == Skipped
    ensures Find(watchlists, watchListId).None? ==> r == Skipped
    ensures r.AlreadyInWatchlist? <==>
      symbol != "" && overviewLoaded && Find(watchlists, watchListId).Some?
      && symbol in Find(watchlists, watchListId).value.stocks
    ensures r.Issued? <==>
      symbol != "" && overviewLoaded && Find(watchlists, watchListId).Some?
      && symbol !in Find(watchlists, watchListId).value.stocks
    ensures r.Issued? ==> r.watchListId == watchListId && r.symbol == symbol
  {
    if symbol == "" || !overviewLoaded then Skipped
    else match Find(watchlists, watchListId)
      case None => Skipped
      case Some(w) =>
        if exists k :: 0 <= k < |w.stocks| && w.stocks[k] == symbol then AlreadyInWatchlist
        else Issued(watchListId, symbol)
  }

  /** The handler's return value: `true` after issuing the mutation,
      `undefined` otherwise. (`addStock` is not unwrapped, so it never throws
      here.) */
  function Returned(outcome: AddOutcome): (r: Option<bool>)
    ensures r == Some(true) <==> outcome.Issued?
    ensures r.None? <==> !outcome.Issued?
  {
    if outcome.Issued? then Some(true) else None
  }

  /** The store after the handler, with `ok` the success of the gateway calls. */
  function Apply(c: Collection, outcome: AddOutcome, now: string, ok: bool): Collection {
    match outcome
    case Issued(id, symbol) => AddStock(c, id, symbol, now, ok).docs
    case _ => c
  }

  /** With a current cache (the owner's listing of the store), the handler
      keeps every watchlist free of duplicate symbols. */
  lemma HandlerKeepsStocksDuplicateFree(c: Collection, userId: string, symbol: string, overviewLoaded: bool,
                                        watchListId: string, now: string, ok: bool)
    requires UniqueIds(c)
    requires forall w :: w in c ==> NoDuplicates(w.stocks)
    ensures var outcome := HandleAddToWatchlist(symbol, overviewLoaded, OwnedBy(c, userId), watchListId);
            forall w :: w in Apply(c, outcome, now, ok) ==> NoDuplicates(w.stocks)
  {
    var outcome := HandleAddToWatchlist(symbol, overviewLoaded, OwnedBy(c, userId), watchListId);
    var after := Apply(c, outcome, now, ok);
    if outcome.Issued? && ok {
      var cached := Find(OwnedBy(c, userId), watchListId).value;
      var i := IndexOf(c, watchListId).value;
      var k :| 0 <= k < |c| && c[k] == cached;
      assert k == i;
      var added := after[i].stocks;
      assert added == c[i].stocks + [symbol];
      forall w | w in after ensures NoDuplicates(w.stocks) {
        var m :| 0 <= m < |after| && after[m] == w;
        if m == i {
          assert NoDuplicates(c[i].stocks);
          assert symbol !in c[i].stocks;
        } else {
          assert w == c[m];
        }
      }
    }
  }
}

=== FILE: tags.dfy ===
/** The tag rule of the request cache: queries provide tags, mutations
    invalidate tags, and a cached query result becomes stale exactly when the
    two sets share a tag. The cache engine itself (coalescing, subscription
    counting, garbage collection) is not part of this model. */
module Tags {

  /** `{ type, id }`; the list-level tag uses the id `"LIST"`. */
  datatype Tag = Tag(kind: string, id: string)

  const ListId: string := "LIST"

  predicate Stale(provided: set<Tag>, invalidated: set<Tag>) {
    !(provided !! invalidated)
  }
}

=== FILE: text.dfy ===
/** Character classes and string helpers with the meaning JavaScript gives them.

    Case mapping is ASCII only (`toLowerCase`/`toUpperCase` on letters outside
    ASCII are left unchanged here). Whitespace is the exact set that
    JavaScript's `\s` and `String.prototype.trim` use: the WhiteSpace and
    LineTerminator code points of ECMAScript. */
module Text {

  predicate IsLower(c: char) { 'a' <= c <= 'z' }

  predicate IsUpper(c: char) { 'A' <= c <= 'Z' }

  predicate IsDigit(c: char) { '0' <= c <= '9' }

  predicate IsLetter(c: char) { IsLower(c) || IsUpper(c) }

  /** `\w`: ASCII letters, digits and underscore. */
  predicate IsWordChar(c: char) { IsLetter(c) || IsDigit(c) || c == '_' }

  /** `\s`, and what `trim()` strips. */
  predicate IsSpace(c: char) {
    c in SpaceChars || '\U{2000}' <= c <= '\U{200A}'
  }

  /** The whitespace code points outside the range U+2000..U+200A. */
  const SpaceChars: set<char> := {
    '\t', '\n', '\U{000B}', '\U{000C}', '\r', ' ', '\U{00A0}', '\U{1680}',
    '\U{2028}', '\U{2029}', '\U{202F}', '\U{205F}', '\U{3000}', '\U{FEFF}'
  }

  function LowerChar(c: char): char {
    if IsUpper(c) then (c as int + 32) as char else c
  }

  function UpperChar(c: char): (r: char)
    ensures IsLower(c) ==> IsUpper(r) && r as int == c as int - 32
    ensures !IsLower(c) ==> r == c
    ensures !IsLower(r) && (IsSpace(r) <==> IsSpace(c))
  {
    if IsLower(c) then (c as int - 32) as char else c
  }

  /** `toLowerCase()` over ASCII. */
  function Lower(s: string): (r: string)
    ensures |r| == |s|
    ensures forall i :: 0 <= i < |s| ==> r[i] == LowerChar(s[i])
  {
    seq(|s|, i requires 0 <= i < |s| => LowerChar(s[i]))
  }

  /** `toUpperCase()` over ASCII. */
  function Upper(s: string): (r: string)
    ensures |r| == |s|
    ensures forall i :: 0 <= i < |s| ==> r[i] == UpperChar(s[i])
  {
    seq(|s|, i requires 0 <= i < |s| => UpperChar(s[i]))
  }

  ghost predicate AllSpace(s: string) {
    forall i :: 0 <= i < |s| ==> IsSpace(s[i])
  }

  /** Drops leading whitespace: the result is a suffix and everything dropped is whitespace. */
  function TrimStart(s: string): (r: string)
    ensures |r| <= |s| && r == s[|s| - |r|..]
    ensures |r| > 0 ==> !IsSpace(r[0])
    ensures AllSpace(s[..|s| - |r|])
    decreases |s|
  {
    if |s| > 0 && IsSpace(s[0]) then TrimStart(s[1..]) else s
  }

  /** Drops trailing whitespace: the result is a prefix and everything dropped is whitespace. */
  function TrimEnd(s: string): (r: string)
    ensures |r| <= |s| && r == s[..|r|]
    ensures |r| > 0 ==> !IsSpace(r[|r| - 1])
    ensures AllSpace(s[|r|..])
    decreases |s|
  {
    if |s| > 0 && IsSpace(s[|s| - 1]) then TrimEnd(s[..|s| - 1]) else s
  }

  /** `trim()`: a contiguous slice of `s` with no whitespace at either end,
      empty exactly when `s` is all whitespace. */
  function Trim(s: string): (r: string)
    ensures |r| <= |s|
    ensures r == "" <==> AllSpace(s)
    ensures |r| > 0 ==> !IsSpace(r[0]) && !IsSpace(r[|r| - 1])
    ensures var k := |s| - |TrimStart(s)|;
            && k + |r| <= |s| && r == s[k..k + |r|]
            && AllSpace(s[..k]) && AllSpace(s[k + |r|..])
  {
    var t := TrimStart(s);
    var r := TrimEnd(t);
    TrimmedEmpty(s, t, r);
    TrimmedSlice(s, t, r);
    r
  }

  /** Trimming both ends cuts a slice out of the middle of `s`. */
  lemma TrimmedSlice(s: string, t: string, r: string)
    requires |t| <= |s| && t == s[|s| - |t|..] && AllSpace(s[..|s| - |t|])
    requires |r| <= |t| && r == t[..|r|] && AllSpace(t[|r|..])
    ensures var k := |s| - |t|;
            && k + |r| <= |s| && r == s[k..k + |r|]
            && AllSpace(s[..k]) && AllSpace(s[k + |r|..])
  {
    var k := |s| - |t|;
    assert s[k + |r|..] == t[|r|..];
  }

  lemma TrimmedEmpty(s: string, t: string, r: string)
    requires |t| <= |s| && t == s[|s| - |t|..] && AllSpace(s[..|s| - |t|])
    requires |t| > 0 ==> !IsSpace(t[0])
    requires |r| <= |t| && r == t[..|r|] && AllSpace(t[|r|..])
    ensures r == "" <==> AllSpace(s)
  {
    var k := |s| - |t|;
    if r == "" {
      assert |t| == 0;
      assert s == s[..k];
    } else {
      assert s[k] == t[0];
    }
  }

  /** A string with no whitespace at either end is its own `trim()`. */
  lemma TrimKeepsUnpadded(s: string)
    requires |s| > 0 ==> !IsSpace(s[0]) && !IsSpace(s[|s| - 1])
    ensures Trim(s) == s
  {
    assert TrimStart(s) == s;
    assert TrimEnd(s) == s;
  }

  function StartsWith(s: string, prefix: string): bool {
    |prefix| <= |s| && s[..|prefix|] == prefix
  }

  function EndsWith(s: string, suffix: string): bool {
    |suffix| <= |s| && s[|s| - |suffix|..] == suffix
  }
}

=== FILE: watchlist_api.dfy ===
/** The watchlist endpoints of the request cache: each `queryFn` as a call of
    the gateway, the tags each endpoint provides or invalidates, and the
    effect a mutation has on the cached `getWatchLists` results.

    The gateway never throws (it logs and returns `undefined`), so no
    `queryFn` here reaches its `catch` branch and every endpoint answers with
    `data`. */
module WatchListApi {
  import opened Wrappers
  import opened Tags
  import opened WatchListService

  const Kind: string := "WatchList"

  const ListTag: Tag := Tag(Kind, ListId)

  function ItemTag(id: string): Tag { Tag(Kind, id) }

  /** A cached `getWatchLists` result. */
  datatype QueryResult = Data(lists: seq<WatchList>) | Error(message: string)

  /** The argument of `createWatchList`: a watchlist without its system fields. */
  datatype NewWatchList = NewWatchList(title: string, userId: string, stocks: seq<string>)

  /** What a mutation leaves in the store and returns as `data`. */
  datatype Outcome<T> = Outcome(docs: Collection, data: T)

  /** `providesTags` of `getWatchLists`: the list tag always, and one item tag
      per returned watchlist when there is a result. */
  function ProvidesGetWatchLists(result: QueryResult): (tags: set<Tag>)
    ensures ListTag in tags
    ensures forall t :: t in tags ==> t.kind == Kind
    ensures forall id :: ItemTag(id) in tags <==>
      id == ListId || (result.Data? && exists w :: w in result.lists && w.id == id)
  {
    match result
    case Data(ws) => (set w | w in ws :: ItemTag(w.id)) + {ListTag}
    case Error(_) => {ListTag}
  }

  /** `invalidatesTags` of `createWatchList`: the list tag only. */
  function InvalidatesCreate(): (r: set<Tag>)
    ensures forall t :: t in r <==> t == ListTag
  {
    {ListTag}
  }

  /** `invalidatesTags` of `updateWatchList`: the target's item tag only, which
      is the list tag exactly when the target's id is the list id. */
  function InvalidatesUpdate(watchListId: string): (r: set<Tag>)
    ensures forall t :: t in r <==> t == ItemTag(watchListId)
    ensures ListTag in r <==> watchListId == ListId
  {
    {ItemTag(watchListId)}
  }

  /** `invalidatesTags` of `deleteWatchList`: the target's item tag and the
      list tag. */
  function InvalidatesDelete(watchListId: string): (r: set<Tag>)
    ensures forall t :: t in r <==> t == ItemTag(watchListId) || t == ListTag
  {
    {ItemTag(watchListId), ListTag}
  }

  /** `invalidatesTags` of `addStock`: the target's item tag only; the symbol
      plays no part. */
  function InvalidatesAddStock(watchListId: string, symbol: string): (r: set<Tag>)
    ensures forall t :: t in r <==> t == ItemTag(watchListId)
    ensures ListTag in r <==> watchListId == ListId
  {
    {ItemTag(watchListId)}
  }

  /** `invalidatesTags` of `removeStock`: the target's item tag only; the
      symbol plays no part. */
  function InvalidatesRemoveStock(watchListId: string, symbol: string): (r: set<Tag>)
    ensures forall t :: t in r <==> t == ItemTag(watchListId)
    ensures ListTag in r <==> watchListId == ListId
  {
    {ItemTag(watchListId)}
  }

  /** `getWatchLists` `queryFn`: `data || []`, so a listing the gateway failed
      and swallowed is cached as an empty list, never as an error. */
  function GetWatchListsQuery(c: Collection, userId: string, ok: bool): (r: QueryResult)
    ensures r.Data?
    ensures !ok ==> r.lists == []
    ensures ok ==> forall w :: w in r.lists <==> w in c && w.userId == userId
  {
    Data(GetWatchLists(c, userId, ok).GetOr([]))
  }

  /** `createWatchList` `queryFn`: only `title` and `userId` reach the gateway,
      so the caller's `stocks` are dropped. */
  function CreateWatchListMutation(c: Collection, arg: NewWatchList, freshId: string, now: string, ok: bool)
    : (r: Outcome<Option<WatchList>>)
    ensures r.data.Some? <==> ok && IndexOf(c, freshId).None?
    ensures r.data.Some? ==>
      && r.data.value.stocks == []
      && r.data.value.title == arg.title && r.data.value.userId == arg.userId
      && r.docs == c + [r.data.value]
    ensures r.data.None? ==> r.docs == c
  {
    var reply := CreateWatchList(c, arg.title, arg.userId, freshId, now, ok);
    Outcome(reply.docs, reply.value)
  }

  /** `updateWatchList` `queryFn`: the rewritten document, as stored. */
  function UpdateWatchListMutation(c: Collection, watchListId: string, patch: WatchListPatch, now: string, ok: bool)
    : (r: Outcome<Option<WatchList>>)
    ensures r.data.Some? <==> ok && IndexOf(c, watchListId).Some?
    ensures r.data.Some? ==> r.data.value.id == watchListId && r.data.value.createdAt == now
    ensures r.data.None? ==> r.docs == c
    ensures r.data.Some? ==>
      var i := IndexOf(c, watchListId).value;
      var w := r.data.value;
      && |r.docs| == |c|
      && r.docs[i] == w
      && (forall j :: 0 <= j < |c| && j != i ==> r.docs[j] == c[j])
      && w.updatedAt == now
      && w.title == patch.title.GetOr(c[i].title)
      && w.userId == patch.userId.GetOr(c[i].userId)
      && w.stocks == patch.stocks.GetOr(c[i].stocks)
  {
    var reply := UpdateWatchList(c, watchListId, patch, now, ok);
    Outcome(reply.docs, reply.value)
  }

  /** `deleteWatchList` `queryFn`: `{ success: true }` whatever the gateway did. */
  function DeleteWatchListMutation(c: Collection, watchListId: string, ok: bool): (r: Outcome<bool>)
    ensures r.data
    ensures !ok ==> r.docs == c
    ensures ok && IndexOf(c, watchListId).Some? && UniqueIds(c) ==>
      forall w :: w in r.docs <==> w in c && w.id != watchListId
  {
    Outcome(DeleteWatchList(c, watchListId, ok).docs, true)
  }

  /** `addStock` `queryFn`. */
  function AddStockMutation(c: Collection, watchListId: string, symbol: string, now: string, ok: bool)
    : (r: Outcome<Option<WatchList>>)
    ensures r.data.Some? <==> ok && IndexOf(c, watchListId).Some?
    ensures r.data.Some? ==> symbol in r.data.value.stocks
    ensures r.data.None? ==> r.docs == c
  {
    var reply := AddStock(c, watchListId, symbol, now, ok);
    Outcome(reply.docs, reply.value)
  }

  /** `removeStock` `queryFn`. */
  function RemoveStockMutation(c: Collection, watchListId: string, symbol: string, now: string, ok: bool)
    : (r: Outcome<Option<WatchList>>)
    ensures r.data.Some? <==> ok && IndexOf(c, watchListId).Some?
    ensures r.data.Some? ==> symbol !in r.data.value.stocks
    ensures r.data.None? ==> r.docs == c
  {
    var reply := RemoveStock(c, watchListId, symbol, now, ok);
    Outcome(reply.docs, reply.value)
  }

  /** A cached `getWatchLists` entry and whether a view still subscribes to it. */
  datatype CacheEntry = CacheEntry(result: QueryResult, subscribed: bool)

  /** The cached `getWatchLists` entries, keyed by their argument, the user id. */
  type Cache = map<string, CacheEntry>

  /** The cache after a mutation that invalidated `invalidated` and left the
      store as `c`: stale subscribed entries are refetched (the refetch calls
      the gateway, whose success is `ok`), stale unsubscribed entries are
      dropped, and every other entry stays as it was. */
  function AfterMutation(cache: Cache, invalidated: set<Tag>, c: Collection, ok: bool): (r: Cache)
    ensures forall u :: u in r ==> u in cache
    ensures forall u :: u in cache && !Stale(ProvidesGetWatchLists(cache[u].result), invalidated) ==>
      u in r && r[u] == cache[u]
    ensures forall u :: u in cache && Stale(ProvidesGetWatchLists(cache[u].result), invalidated) ==>
      (u in r <==> cache[u].subscribed)
    ensures forall u :: u in cache && Stale(ProvidesGetWatchLists(cache[u].result), invalidated) && cache[u].subscribed ==>
      u in r && r[u] == CacheEntry(GetWatchListsQuery(c, u, ok), true)
  {
    map u | u in cache && (cache[u].subscribed || !Stale(ProvidesGetWatchLists(cache[u].result), invalidated)) ::
      if Stale(ProvidesGetWatchLists(cache[u].result), invalidated)
      then CacheEntry(GetWatchListsQuery(c, u, ok), true)
      else cache[u]
  }

  /** An `addStock` on watchlist `w` makes a cached list stale exactly when
      that list holds `w`; an errored entry is never touched. */
  lemma AddStockStalesListsHolding(result: QueryResult, watchListId: string, symbol: string)
    requires watchListId != ListId
    ensures Stale(ProvidesGetWatchLists(result), InvalidatesAddStock(watchListId, symbol)) <==>
      result.Data? && exists w :: w in result.lists && w.id == watchListId
  {
    var provided := ProvidesGetWatchLists(result);
    if ItemTag(watchListId) in provided {
      assert ItemTag(watchListId) in provided * InvalidatesAddStock(watchListId, symbol);
    }
  }

  /** A user's cached list is never made stale by a stock edit on another
      user's watchlist. */
  lemma OtherUsersListUntouched(c: Collection, userId: string, watchListId: string, symbol: string, ok: bool)
    requires UniqueIds(c)
    requires watchListId != ListId
    requires IndexOf(c, watchListId).Some? && c[IndexOf(c, watchListId).value].userId != userId
    ensures !Stale(ProvidesGetWatchLists(GetWatchListsQuery(c, userId, ok)), InvalidatesAddStock(watchListId, symbol))
    ensures !Stale(ProvidesGetWatchLists(GetWatchListsQuery(c, userId, ok)), InvalidatesRemoveStock(watchListId, symbol))
  {
    var result := GetWatchListsQuery(c, userId, ok);
    var i := IndexOf(c, watchListId).value;
    forall w | w in result.lists ensures w.id != watchListId {
      var k :| 0 <= k < |c| && c[k] == w;
      assert c[k].userId == userId;
    }
    AddStockStalesListsHolding(result, watchListId, symbol);
  }

  /** Update and the two stock edits invalidate only their target's item tag,
      never the list tag, so a list that does not hold the target stays
      fresh. `createWatchList` and `deleteWatchList` make every cached list
      stale through the list tag. */
  lemma InvalidationScopes(result: QueryResult, watchListId: string, symbol: string)
    requires watchListId != ListId
    requires result.Data? ==> forall w :: w in result.lists ==> w.id != watchListId
    ensures !Stale(ProvidesGetWatchLists(result), InvalidatesUpdate(watchListId))
    ensures !Stale(ProvidesGetWatchLists(result), InvalidatesAddStock(watchListId, symbol))
    ensures !Stale(ProvidesGetWatchLists(result), InvalidatesRemoveStock(watchListId, symbol))
    ensures Stale(ProvidesGetWatchLists(result), InvalidatesCreate())
    ensures Stale(ProvidesGetWatchLists(result), InvalidatesDelete(watchListId))
  {
    assert ListTag in ProvidesGetWatchLists(result) * InvalidatesCreate();
    assert ListTag in ProvidesGetWatchLists(result) * InvalidatesDelete(watchListId);
    assert ItemTag(watchListId) !in ProvidesGetWatchLists(result);
  }

  /** The list tag is a plain id: a watchlist stored under the id `"LIST"`
      would make its own update invalidate every cached list. */
  lemma ListIdCollides(result: QueryResult)
    ensures Stale(ProvidesGetWatchLists(result), InvalidatesUpdate(ListId))
  {
    assert ListTag in ProvidesGetWatchLists(result) * InvalidatesUpdate(ListId);
  }

  /** Deleting a watchlist: a still-subscribed list of its owner is refetched
      and no longer shows it. */
  lemma DeletedWatchListLeavesCachedList(cache: Cache, c: Collection, userId: string, watchListId: string)
    requires UniqueIds(c)
    requires IndexOf(c, watchListId).Some?
    requires userId in cache && cache[userId].subscribed
    ensures var after := DeleteWatchListMutation(c, watchListId, true).docs;
            var cache' := AfterMutation(cache, InvalidatesDelete(watchListId), after, true);
            && userId in cache'
            && cache'[userId].result.Data?
            && forall w :: w in cache'[userId].result.lists ==> w.id != watchListId
  {
    var provided := ProvidesGetWatchLists(cache[userId].result);
    assert ListTag in provided * InvalidatesDelete(watchListId);
  }

  /** Read-your-writes for `addStock`: when the owner's cached list is current
      and subscribed, after the mutation the refetched list shows the
      watchlist with the new symbol. */
  lemma AddStockRefetchShowsSymbol(cache: Cache, c: Collection, userId: string, watchListId: string, symbol: string, now: string)
    requires UniqueIds(c)
    requires watchListId != ListId
    requires IndexOf(c, watchListId).Some? && c[IndexOf(c, watchListId).value].userId == userId
    requires userId in cache && cache[userId] == CacheEntry(GetWatchListsQuery(c, userId, true), true)
    ensures var after := AddStockMutation(c, watchListId, symbol, now, true).docs;
            var cache' := AfterMutation(cache, InvalidatesAddStock(watchListId, symbol), after, true);
            && userId in cache'
            && cache'[userId].result.Data?
            && exists w :: w in cache'[userId].result.lists && w.id == watchListId && symbol in w.stocks
  {
    var i := IndexOf(c, watchListId).value;
    assert c[i] in cache[userId].result.lists;
    AddStockStalesListsHolding(cache[userId].result, watchListId, symbol);
    var after := AddStockMutation(c, watchListId, symbol, now, true).docs;
    assert after[i] in GetWatchListsQuery(after, userId, true).lists;
  }
}

=== FILE: watchlist_page.dfy ===
/** The watchlist page's two write handlers: adding a typed symbol to a
    watchlist and creating a watchlist from the modal.

    Both `await` an unwrapped mutation, but the watchlist gateway swallows
    every failure, so the mutation always resolves and the handlers always
    reach their success lines. */
module WatchlistPage {
  import opened Wrappers
  import opened Text
  import opened WatchListService
  import WatchListApi

  /** The symbol sent for a raw input: `.trim().toUpperCase()`. */
  function NormalizeSymbol(raw: string): (r: string)
    ensures r == "" <==> Trim(raw) == ""
    ensures forall i :: 0 <= i < |r| ==> !IsLower(r[i])
    ensures |r| > 0 ==> !IsSpace(r[0]) && !IsSpace(r[|r| - 1])
    ensures |r| == |Trim(raw)| && forall i :: 0 <= i < |r| ==> r[i] == UpperChar(Trim(raw)[i])
  {
    Upper(Trim(raw))
  }

  datatype AddStockRequest = AddStockRequest(watchListId: string, symbol: string)

  /** The request `handleAddStock` issues, if any, and the per-watchlist
      symbol inputs afterwards. */
  datatype AddStockStep = AddStockStep(request: Option<AddStockRequest>, inputs: map<string, string>)

  /** `handleAddStock(watchlistId)`: `inputs` is `newStockSymbol`. */
  function HandleAddStock(inputs: map<string, string>, watchListId: string): (r: AddStockStep)
    ensures r.request.Some? <==> watchListId in inputs && Trim(inputs[watchListId]) != ""
    ensures r.request.Some? ==>
      r.request.value == AddStockRequest(watchListId, NormalizeSymbol(inputs[watchListId]))
    ensures r.request.None? ==> r.inputs == inputs
    ensures r.request.Some? ==>
      && watchListId in r.inputs && r.inputs[watchListId] == ""
      && forall k :: k != watchListId ==>
           (k in r.inputs <==> k in inputs) && (k in inputs ==> r.inputs[k] == inputs[k])
  {
    if watchListId !in inputs then AddStockStep(None, inputs)
    else
      var symbol := NormalizeSymbol(inputs[watchListId]);
      if symbol == "" then AddStockStep(None, inputs)
      else AddStockStep(Some(AddStockRequest(watchListId, symbol)), inputs[watchListId := ""])
  }

  /** The store after the handler's request (if any) went through `addStock`. */
  function ApplyAddStock(c: Collection, request: Option<AddStockRequest>, now: string, ok: bool): Collection {
    match request
    case Some(AddStockRequest(id, symbol)) => AddStock(c, id, symbol, now, ok).docs
    case None => c
  }

  /** This path has no membership check: typing a symbol the watchlist already
      holds stores a second copy of it. */
  lemma AddingPresentSymbolDuplicates(c: Collection, inputs: map<string, string>, watchListId: string, now: string)
    requires watchListId in inputs && Trim(inputs[watchListId]) != ""
    requires IndexOf(c, watchListId).Some?
    requires NormalizeSymbol(inputs[watchListId]) in c[IndexOf(c, watchListId).value].stocks
    ensures var symbol := NormalizeSymbol(inputs[watchListId]);
            var i := IndexOf(c, watchListId).value;
            var after := ApplyAddStock(c, HandleAddStock(inputs, watchListId).request, now, true);
            && |after| == |c|
            && multiset(after[i].stocks)[symbol] == multiset(c[i].stocks)[symbol] + 1
            && multiset(after[i].stocks)[symbol] >= 2
  {
    AddStockAppendsDuplicate(c, watchListId, NormalizeSymbol(inputs[watchListId]), now);
  }

  /** The modal's state: the typed name and whether the modal is open. */
  datatype CreateForm = CreateForm(name: string, modalOpen: bool)

  /** What `handleCreateWatchlist` issues, if anything, and the modal afterwards. */
  datatype CreateStep = CreateStep(request: Option<WatchListApi.NewWatchList>, form: CreateForm)

  /** `handleCreateWatchlist()`: `userId` is `user?.$id`, `None` with nobody logged in. */
  function HandleCreateWatchlist(form: CreateForm, userId: Option<string>): (r: CreateStep)
    ensures r.request.Some? <==> Trim(form.name) != "" && userId.Some? && userId.value != ""
    ensures r.request.Some? ==>
      && r.request.value == WatchListApi.NewWatchList(form.name, userId.value, [])
      && r.form == CreateForm("", false)
    ensures r.request.None? ==> r.form == form
  {
    if Trim(form.name) == "" || userId.None? || userId.value == "" then CreateStep(None, form)
    else CreateStep(Some(WatchListApi.NewWatchList(form.name, userId.value, [])), CreateForm("", false))
  }

  /** The title stored by a create from the modal is the name exactly as typed,
      surrounding whitespace included, and the new watchlist is empty. */
  lemma CreatedTitleIsUntrimmed(c: Collection, form: CreateForm, userId: string, freshId: string, now: string)
    requires Trim(form.name) != "" && userId != ""
    requires IndexOf(c, freshId).None?
    ensures var step := HandleCreateWatchlist(form, Some(userId));
            var created := WatchListApi.CreateWatchListMutation(c, step.request.value, freshId, now, true);
            && created.data.Some?
            && created.data.value.title == form.name
            && created.data.value.userId == userId
            && created.data.value.stocks == []
            && OwnedBy(created.docs, userId) == OwnedBy(c, userId) + [created.data.value]
  {
    var step := HandleCreateWatchlist(form, Some(userId));
    var created := WatchListApi.CreateWatchListMutation(c, step.request.value, freshId, now, true);
    OwnedByAppend(c, created.data.value, userId);
  }
}

=== FILE: watchlist_service.dfy ===
/** The watchlist gateway: reads and whole-document writes against the
    watchlist collection of the remote store.

    The collection is a sequence of documents in listing order with at most
    one document per `$id`, i.e. a map from id to record that also remembers
    the order the store lists them in. Every operation takes `ok`, whether the
    remote calls it makes succeed; a failing call throws inside the service,
    which logs it and returns `undefined` (`None`) without writing. The fresh
    id and the current time are parameters. */
module WatchListService {
  import opened Wrappers

  datatype WatchList = WatchList(
    id: string,
    createdAt: string,
    updatedAt: string,
    title: string,
    userId: string,
    stocks: seq<string>)

  type Collection = seq<WatchList>

  /** What a service call leaves behind and hands back. */
  datatype Reply<T> = Reply(docs: Collection, value: Option<T>)

  /** The fields of `updateWatchList`'s argument; an absent field is dropped
      from the JSON body and leaves the stored value alone. */
  datatype WatchListPatch = WatchListPatch(
    title: Option<string>,
    userId: Option<string>,
    stocks: Option<seq<string>>)

  predicate UniqueIds(c: Collection) {
    forall i, j :: 0 <= i < j < |c| ==> c[i].id != c[j].id
  }

  /** Position of the document with this id: `getDocument` succeeds exactly when there is one. */
  function IndexOf(c: Collection, id: string): (r: Option<nat>)
    ensures r.Some? ==> r.value < |c| && c[r.value].id == id
    ensures r.None? <==> forall j :: 0 <= j < |c| ==> c[j].id != id
    decreases |c|
  {
    if |c| == 0 then None
    else if c[0].id == id then Some(0)
    else match IndexOf(c[1..], id)
      case None => None
      case Some(k) => Some(k + 1)
  }

  /** `stocks.filter(s => s !== stock)` */
  function Without(xs: seq<string>, x: string): (r: seq<string>)
    ensures x !in r
    ensures multiset(r) == multiset(xs)[x := 0]
    decreases |xs|
  {
    if |xs| == 0 then []
    else
      var rest := Without(xs[1..], x);
      assert xs == [xs[0]] + xs[1..];
      if xs[0] == x then rest else [xs[0]] + rest
  }

  /** The watchlists of one user, in listing order (`Query.equal("userId", userId)`). */
  function OwnedBy(c: Collection, userId: string): (r: seq<WatchList>)
    ensures forall w :: w in r <==> w in c && w.userId == userId
    ensures |r| <= |c|
    decreases |c|
  {
    if |c| == 0 then []
    else
      var rest := OwnedBy(c[1..], userId);
      assert forall w :: w in c <==> w == c[0] || w in c[1..];
      if c[0].userId == userId then [c[0]] + rest else rest
  }

  /** `addStock`: read the document, write it back with `stock` appended and a
      new `$updatedAt`. There is no membership check. */
  function AddStock(c: Collection, watchListId: string, stock: string, now: string, ok: bool): (r: Reply<WatchList>)
    ensures |r.docs| == |c|
    ensures r.value.Some? <==> ok && IndexOf(c, watchListId).Some?
    ensures r.value.None? ==> r.docs == c
    ensures r.value.Some? ==>
      var i := IndexOf(c, watchListId).value;
      var w := r.value.value;
      && r.docs[i] == w
      && (forall j :: 0 <= j < |c| && j != i ==> r.docs[j] == c[j])
      && w.id == c[i].id && w.createdAt == c[i].createdAt
      && w.title == c[i].title && w.userId == c[i].userId
      && w.updatedAt == now
      && |w.stocks| == |c[i].stocks| + 1
      && w.stocks[..|c[i].stocks|] == c[i].stocks
      && w.stocks[|c[i].stocks|] == stock
    ensures UniqueIds(c) ==> UniqueIds(r.docs)
  {
    if !ok then Reply(c, None)
    else match IndexOf(c, watchListId)
      case None => Reply(c, None)
      case Some(i) =>
        var w := c[i].(updatedAt := now, stocks := c[i].stocks + [stock]);
        Reply(c[i := w], Some(w))
  }

  /** `removeStock`: read the document, write it back without any copy of
      `stock` and with a new `$updatedAt`. */
  function RemoveStock(c: Collection, watchListId: string, stock: string, now: string, ok: bool): (r: Reply<WatchList>)
    ensures |r.docs| == |c|
    ensures r.value.Some? <==> ok && IndexOf(c, watchListId).Some?
    ensures r.value.None? ==> r.docs == c
    ensures r.value.Some? ==>
      var i := IndexOf(c, watchListId).value;
      var w := r.value.value;
      && r.docs[i] == w
      && (forall j :: 0 <= j < |c| && j != i ==> r.docs[j] == c[j])
      && w.id == c[i].id && w.createdAt == c[i].createdAt
      && w.title == c[i].title && w.userId == c[i].userId
      && w.updatedAt == now
      && stock !in w.stocks
      && multiset(w.stocks) == multiset(c[i].stocks)[stock := 0]
    ensures UniqueIds(c) ==> UniqueIds(r.docs)
  {
    if !ok then Reply(c, None)
    else match IndexOf(c, watchListId)
      case None => Reply(c, None)
      case Some(i) =>
        var w := c[i].(updatedAt := now, stocks := Without(c[i].stocks, stock));
        Reply(c[i := w], Some(w))
  }

  /** `createWatchList`: a new document under a fresh id with no stocks.
      Creating under an id that is taken fails like any other remote error. */
  function CreateWatchList(c: Collection, title: string, userId: string, freshId: string, now: string, ok: bool): (r: Reply<WatchList>)
    ensures r.value.Some? <==> ok && IndexOf(c, freshId).None?
    ensures r.value.None? ==> r.docs == c
    ensures r.value.Some? ==>
      var w := r.value.value;
      && r.docs == c + [w]
      && w.id == freshId && w.title == title && w.userId == userId
      && w.createdAt == now && w.updatedAt == now
      && w.stocks == []
    ensures UniqueIds(c) ==> UniqueIds(r.docs)
  {
    if !ok || IndexOf(c, freshId).Some? then Reply(c, None)
    else
      var w := WatchList(freshId, now, now, title, userId, []);
      Reply(c + [w], Some(w))
  }

  /** `getWatchLists`: the user's watchlists, or `undefined` when the listing fails. */
  function GetWatchLists(c: Collection, userId: string, ok: bool): (r: Option<seq<WatchList>>)
    ensures r.Some? <==> ok
    ensures r.Some? ==> forall w :: w in r.value <==> w in c && w.userId == userId
  {
    if ok then Some(OwnedBy(c, userId)) else None
  }

  /** `updateWatchList`: overwrite the document with the caller's fields; both
      `$createdAt` and `$updatedAt` are set to the current time, so the
      creation time is lost. Updating a missing document fails. */
  function UpdateWatchList(c: Collection, watchListId: string, patch: WatchListPatch, now: string, ok: bool): (r: Reply<WatchList>)
    ensures |r.docs| == |c|
    ensures r.value.Some? <==> ok && IndexOf(c, watchListId).Some?
    ensures r.value.None? ==> r.docs == c
    ensures r.value.Some? ==>
      var i := IndexOf(c, watchListId).value;
      var w := r.value.value;
      && r.docs[i] == w
      && (forall j :: 0 <= j < |c| && j != i ==> r.docs[j] == c[j])
      && w.id == watchListId
      && w.createdAt == now && w.updatedAt == now
      && (patch.title.Some? ==> w.title == patch.title.value)
      && (patch.title.None? ==> w.title == c[i].title)
      && (patch.userId.Some? ==> w.userId == patch.userId.value)
      && (patch.userId.None? ==> w.userId == c[i].userId)
      && (patch.stocks.Some? ==> w.stocks == patch.stocks.value)
      && (patch.stocks.None? ==> w.stocks == c[i].stocks)
    ensures UniqueIds(c) ==> UniqueIds(r.docs)
  {
    if !ok then Reply(c, None)
    else match IndexOf(c, watchListId)
      case None => Reply(c, None)
      case Some(i) =>
        var prev := c[i];
        var w := WatchList(watchListId, now, now,
          patch.title.GetOr(prev.title), patch.userId.GetOr(prev.userId), patch.stocks.GetOr(prev.stocks));
        Reply(c[i := w], Some(w))
  }

  /** Cutting out position `i` of a collection with distinct ids removes
      exactly the document with that id. */
  lemma RemoveAt(c: Collection, i: nat)
    requires i < |c|
    ensures var rest := c[..i] + c[i + 1..];
            && |rest| == |c| - 1
            && (UniqueIds(c) ==> UniqueIds(rest))
            && (UniqueIds(c) ==> forall w :: w in rest <==> w in c && w.id != c[i].id)
  {
    var rest := c[..i] + c[i + 1..];
    assert forall j :: 0 <= j < |rest| ==> rest[j] == (if j < i then c[j] else c[j + 1]);
    if UniqueIds(c) {
      forall w ensures w in rest <==> w in c && w.id != c[i].id {
        if w in c && w.id != c[i].id {
          var k :| 0 <= k < |c| && c[k] == w;
          assert k != i;
          assert w == rest[if k < i then k else k - 1];
        }
      }
    }
  }

  /** `deleteWatchList`: remove the document; deleting a missing one fails. */
  function DeleteWatchList(c: Collection, watchListId: string, ok: bool): (r: Reply<()>)
    ensures r.value.Some? <==> ok && IndexOf(c, watchListId).Some?
    ensures r.value.None? ==> r.docs == c
    ensures r.value.Some? && UniqueIds(c) ==>
      && |r.docs| == |c| - 1
      && forall w :: w in r.docs <==> w in c && w.id != watchListId
    ensures UniqueIds(c) ==> UniqueIds(r.docs)
  {
    if !ok then Reply(c, None)
    else match IndexOf(c, watchListId)
      case None => Reply(c, None)
      case Some(i) =>
        var rest := c[..i] + c[i + 1..];
        RemoveAt(c, i);
        Reply(rest, Some(()))
  }

  /** Removing a symbol keeps the relative order of the others: the filter
      distributes over concatenation. */
  lemma {:induction false} WithoutDistributes(a: seq<string>, b: seq<string>, x: string)
    ensures Without(a + b, x) == Without(a, x) + Without(b, x)
    decreases |a|
  {
    if |a| > 0 {
      assert (a + b)[1..] == a[1..] + b;
      WithoutDistributes(a[1..], b, x);
    } else {
      assert a + b == b;
    }
  }

  /** Removing an absent symbol changes nothing. */
  lemma {:induction false} WithoutAbsent(xs: seq<string>, x: string)
    requires x !in xs
    ensures Without(xs, x) == xs
    decreases |xs|
  {
    if |xs| > 0 {
      WithoutAbsent(xs[1..], x);
      assert xs == [xs[0]] + xs[1..];
    }
  }

  /** Removing twice is removing once. */
  lemma WithoutIdempotent(xs: seq<string>, x: string)
    ensures Without(Without(xs, x), x) == Without(xs, x)
  {
    WithoutAbsent(Without(xs, x), x);
  }

  /** Appending a symbol that was not there and then removing it gives back the old list. */
  lemma AppendThenWithout(xs: seq<string>, x: string)
    requires x !in xs
    ensures Without(xs + [x], x) == xs
  {
    WithoutDistributes(xs, [x], x);
    WithoutAbsent(xs, x);
    assert Without([x], x) == [];
  }

  /** `addStock` then `removeStock` of a symbol the watchlist did not hold
      restores its `stocks`, and the rest of the collection, exactly. */
  lemma AddThenRemoveRestores(c: Collection, watchListId: string, stock: string, t1: string, t2: string)
    requires IndexOf(c, watchListId).Some?
    requires stock !in c[IndexOf(c, watchListId).value].stocks
    ensures var added := AddStock(c, watchListId, stock, t1, true).docs;
            var removed := RemoveStock(added, watchListId, stock, t2, true).docs;
            var i := IndexOf(c, watchListId).value;
            && removed[i].stocks == c[i].stocks
            && removed == c[i := c[i].(updatedAt := t2)]
  {
    var i := IndexOf(c, watchListId).value;
    var added := AddStock(c, watchListId, stock, t1, true).docs;
    assert added[i].stocks == c[i].stocks + [stock];
    IndexOfSameIds(c, added, watchListId);
    AppendThenWithout(c[i].stocks, stock);
  }

  /** Two collections with the same ids in the same places find the same index. */
  lemma {:induction false} IndexOfSameIds(c: Collection, d: Collection, id: string)
    requires |c| == |d|
    requires forall j :: 0 <= j < |c| ==> c[j].id == d[j].id
    ensures IndexOf(c, id) == IndexOf(d, id)
    decreases |c|
  {
    if |c| > 0 {
      IndexOfSameIds(c[1..], d[1..], id);
    }
  }

  /** A document appended to the store is listed last among its owner's. */
  lemma {:induction false} OwnedByAppend(c: Collection, w: WatchList, userId: string)
    ensures OwnedBy(c + [w], userId) == OwnedBy(c, userId) + (if w.userId == userId then [w] else [])
    decreases |c|
  {
    if |c| > 0 {
      assert (c + [w])[1..] == c[1..] + [w];
      OwnedByAppend(c[1..], w, userId);
    }
  }

  /** With no membership check, adding a symbol the watchlist already holds
      stores a second copy of it. */
  lemma AddStockAppendsDuplicate(c: Collection, watchListId: string, stock: string, now: string)
    requires IndexOf(c, watchListId).Some?
    requires stock in c[IndexOf(c, watchListId).value].stocks
    ensures var i := IndexOf(c, watchListId).value;
            var w := AddStock(c, watchListId, stock, now, true).value.value;
            multiset(w.stocks)[stock] == multiset(c[i].stocks)[stock] + 1 >= 2
  {
    var i := IndexOf(c, watchListId).value;
    assert AddStock(c, watchListId, stock, now, true).value.value.stocks == c[i].stocks + [stock];
  }
}

=== FILE: wrappers.dfy ===
/** Failure-carrying values shared by every module of the model.

    `Option` stands for the JavaScript values `undefined`/`null` that the
    gateways return after swallowing an error; `Result` stands for a call
    that either returns or throws. */
module Wrappers {

  datatype Option<+T> = None | Some(value: T) {

    /** The value in `Some`, or `default` for `None` (JavaScript's `x || default`
        for values that are never falsy). */
    function GetOr(default: T): T {
      match this
      case Some(v) => v
      case None => default
    }
  }

  datatype Result<+R, +E> = Success(value: R) | Failure(error: E)
}
